=== FILE: README.md ===
# Courier dispatch and tracking — a Dafny model

This project models the core of a NestJS courier backend. Customers book
packets or request pickups. Agents collect the packets and hand them in at
an origin hub. Administrators load the packets onto vehicles bound for one
destination city and dispatch them. Each packet then climbs a fixed status
chain:

pending → collected → at origin hub → in transit → at destination hub →
out for delivery → delivered → received

A WebSocket gateway keeps track of which agents are connected and where
they last were. When an agent comes within 0.05 degrees of a packet's origin
or destination, the gateway moves that packet's status forward.

## What the model covers

- **Entities.** Packets, vehicles, users and pickup requests are immutable
  datatypes. They keep the defaults their entity declarations give:
  - status `pending`;
  - `confirmed_by_origin` and `is_paid` false;
  - an empty vehicle load;
  - a vehicle that is active and available;
  - a tracking id `TRK-` followed by the first eight characters of a UUID,
    upper-cased.
- **The store.** The database is a `Store`: one map from id to row per
  table. References between rows are ids. A vehicle's `assigned_packets`
  relation is derived from the packet side.
- **Operations.** Every service operation is a pure function
  `Store → Result<Store>`. An error leaves the store untouched, as a thrown
  exception does before any `save`. The error kinds are `NotFound`,
  `Conflict`, `BadRequest` and `Forbidden`, plus `Failed` for a plain
  `Error`.
- **Parameters.** The clock (`now`), the UUID and the caller's role are
  parameters. A new database row gets the key `FreshKey` (one more than the
  largest key in use).

### Modules

- `Entities`: the status chain and the rows.
- `Lifecycle`: the status steps of the packet service and the delivery-agent
  operations.
- `Allocator`: loading packets onto vehicles by capacity and destination
  city, and unloading them.
- `Dispatch`: batch and vehicle dispatch.
- `Fleet`: pairing drivers with vehicles, and the city query.
- `Pickup`: pickup requests.
- `Tracking`: the gateway.
- `Gates`: the controller checks that sit in front of the services.
- `Text`: the string operations the services rely on: split at the last
  comma, trim, `includes`, upper-case.

### How the model reads the code

The model follows the service code where the entity declarations or the
documentation say otherwise:

- A pickup request links to a packet and stores a destination address, as
  `src/pickup/pickup.service.ts` uses it. The pickup-request entity declares
  neither column.
- Proximity moves a packet's status through `updatePacketStatus`. It does
  not go through `agentConfirmCollection`, so no collection time is
  stamped.
- `createPacket` stores the packet directly at the origin hub.
- A user has a role, a city and an e-mail address, as the services use them.
  `src/entities/User.entity.ts` declares the e-mail address. It declares
  neither the role nor the city, nor the `assignedVehicle` side of the
  driver relation.
- The driver relation is one-to-one. `src/entities/Vehicle.entity.ts:69-73`
  puts its join column on the vehicle, so the vehicle's `assigned_driver`
  is the only column written, and TypeORM gives that column a unique index.
  The model keeps only the vehicle's side. A driver's vehicle is read back
  from it (`Entities.DrivenBy`), and `Entities.DriverUnique` is the unique
  index. Assignments to the driver's side write nothing.

JavaScript truthiness is modelled where the code branches on it:

- `if (weight)` rejects a weight of 0.
- `!city` holds for a missing city and for `""`.
- A bound `destination_city` of `""` counts as unbound.

The controllers parse path parameters with `Number(...)` or `parseInt(...)`.
The model takes those values already parsed, as `Num = NaN | Finite(real)`.

## Model

| member | source | states |
|---|---|---|
| Entities.Rank | src/entities/Packet.entity.ts:50-64 | each of the eight statuses has a position below 8 in the delivery chain |
| Entities.StatusAt | src/entities/Packet.entity.ts:50-64 | every position of the chain is held by a status, so positions and statuses correspond one to one |
| Entities.RankInjective | src/entities/Packet.entity.ts:50-64 | two statuses at the same position are the same status, and a status's position leads back to it |
| Entities.Successor | src/entities/Packet.entity.ts:50-64 | every status except `received` has a next status, exactly one position further on |
| Entities.ParseStatus | src/packets/packets.service.ts:782-784 | a status string parses to the status with that name, and to the only one with that name |
| Entities.TrackingId | src/entities/Packet.entity.ts:27-30 | a tracking id starts with `TRK-` and continues with the upper-cased first (at most eight) characters of the UUID |
| Entities.NewPacket | src/entities/Packet.entity.ts:50-195 | a new packet is pending unless a status is given, unpaid, not confirmed by the origin, unassigned, without proof of delivery, and stamped only with its creation time |
| Entities.NewVehicle | src/entities/Vehicle.entity.ts:46-73 | a new vehicle is active, not in maintenance, available and empty, with no destination city and no driver |
| Entities.MaxKey | src/entities/Packet.entity.ts:20-21 | the largest key of a non-empty key set is in the set and bounds every key |
| Entities.FreshKey | src/entities/Packet.entity.ts:20-21 | a generated primary key is positive, unused, and larger than every key in use |
| Text.LastSegmentShape | src/packets/packets.service.ts:392-395 | the text after the last comma holds no comma, is a suffix of the address, and is preceded by a comma unless it is the whole address |
| Text.LastSegmentAfterComma | src/packets/packets.service.ts:392-395 | the last comma-separated part of `prefix,city` is `city` when `city` holds no comma |
| Text.TrimKeepsCore | src/packets/packets.service.ts:392-395 | trimming removes exactly the leading and trailing whitespace, in the sense of ECMAScript's WhiteSpace and LineTerminator code points: the result is a contiguous part of the string, only whitespace surrounds it, and it neither starts nor ends with whitespace |
| Text.TrimIdempotent | src/packets/packets.service.ts:392-395 | trimming a trimmed string changes nothing |
| Text.Contains | src/pickup/pickup.service.ts:145 | a string contains an infix only if the infix is no longer, and always contains the empty string |
| Text.ContainsInfix | src/pickup/pickup.service.ts:145 | a string contains every string that occurs in it at some position |
| Text.ContainsIffOccurs | src/pickup/pickup.service.ts:145 | a string contains another exactly when the other occurs in it at some position |
| Lifecycle.StepFollowsChain | src/packets/packets.service.ts:147-258 | each guarded step starts from one status and leads to the next status of the chain |
| Lifecycle.Stamp | src/packets/packets.service.ts:147-258 | the row a guarded step writes has the step's target status and keeps the packet's tracking id, weight, details, route, assignment, payment, creation and collection times; only dispatch marks it confirmed by the origin |
| Lifecycle.Handed | src/packets/packets.service.ts:215-247 | a hand-off makes the packet delivered, stamps the delivery time and stores the signature, and changes nothing else about it |
| Lifecycle.Advance | src/packets/packets.service.ts:147-258 | a guarded step succeeds exactly when the packet exists and is in the step's starting status; a missing packet is NotFound and a wrong status is Conflict; success changes only that packet, by one position |
| Lifecycle.RepeatedStepConflicts | src/packets/packets.service.ts:147-258 | repeating a guarded step that just succeeded is a Conflict |
| Lifecycle.AdminConfirmAtHub | src/packets/packets.service.ts:147-176 | only a collected packet can be confirmed at the origin hub; it becomes at-origin-hub with the confirmation stamped, and nothing else changes |
| Lifecycle.AdminDispatchForTransport | src/packets/packets.service.ts:178-189 | only a packet at the origin hub can be dispatched; it becomes in transit, confirmed by the origin, with the dispatch time stamped |
| Lifecycle.ConfirmAtDestination | src/packets/packets.service.ts:191-201 | only a packet in transit can be confirmed at the destination hub, which stamps the arrival |
| Lifecycle.MarkOutForDelivery | src/packets/packets.service.ts:203-213 | only a packet at the destination hub goes out for delivery, which stamps the time |
| Lifecycle.MarkAsDelivered | src/packets/packets.service.ts:215-234 | only a packet out for delivery can be delivered; it then carries the signature and the delivery time |
| Lifecycle.ConfirmReceiverReceived | src/packets/packets.service.ts:249-258 | only a delivered packet can be confirmed as received, and nothing else about it changes |
| Lifecycle.ReceivedIgnoresClock | src/packets/packets.service.ts:249-258 | the receipt confirmation stamps no time, so the guarded step gives the same result at every clock reading |
| Lifecycle.ConfirmPacketDispatch | src/packets/packets.service.ts:76-89 | only a pending packet can be confirmed by the sender; a missing one is NotFound, any other status is Conflict, and the status is kept |
| Lifecycle.AgentConfirmCollection | src/packets/packets.service.ts:125-145 | from any status a packet becomes collected with the collection time stamped; the weight changes only for a non-zero weight, and nothing else about the packet changes; a missing packet is a plain error |
| Lifecycle.Picked | src/packets/packets.service.ts:236-247 | from any status a packet becomes delivered with the signature and the time; a missing packet is NotFound |
| Lifecycle.PickedIsUnguardedDelivery | src/packets/packets.service.ts:215-247 | on a packet out for delivery the hand-off shortcut writes what the guarded delivery writes; on any other status the guarded delivery is a Conflict while the shortcut still delivers |
| Lifecycle.UpdatePacketStatus | src/packets/packets.service.ts:782-784 | an unchecked status write changes only the named packet's status, and a missing packet leaves everything unchanged |
| Lifecycle.UpdateWeight | src/packets/packets.service.ts:115-123 | only the packet's weight changes; a missing packet is a plain error |
| Lifecycle.MarkAsPaid | src/packets/packets.service.ts:787-802 | an unpaid packet becomes paid; a paid one is Conflict and a missing one NotFound |
| Lifecycle.MarkAsPaidOnce | src/packets/packets.service.ts:787-802 | paying twice is a Conflict the second time |
| Lifecycle.CreatePacket | src/packets/packets.service.ts:56-69 | a created packet gets a new key, sits at the origin hub with the booked weight, and no other row changes |
| Lifecycle.AssignDeliveryAgent | src/packets/packets.service.ts:627-657 | only an admin may assign, only to a packet at the destination hub and only an agent; the packet goes out for delivery with that agent |
| Lifecycle.UnassignDeliveryAgent | src/packets/packets.service.ts:659-678 | only an admin may unassign, only from a packet out for delivery; the packet goes back one position to the destination hub without an agent |
| Lifecycle.ConfirmDelivery | src/packets/packets.service.ts:680-699 | only an admin may confirm, only a packet out for delivery; it becomes delivered, stamped, and loses its delivery agent |
| Lifecycle.CheckedCommandMovesForward | src/packets/packets.service.ts:76-802 | every packet operation that checks the current status before acting moves no packet backwards, and moves at most one position per packet |
| Lifecycle.CheckedRunMovesForward | src/packets/packets.service.ts:76-802 | any sequence of status-checking operations, in any order, moves no packet backwards |
| Lifecycle.StepsFollowChain | src/packets/packets.service.ts:147-258 | a successful run of guarded steps on one packet takes the chain's statuses in order, one position per step, without skipping any |
| Allocator.DestinationCityShape | src/packets/packets.service.ts:392-395 | the destination city extracted from an address holds no comma and has no surrounding whitespace |
| Allocator.DestinationCityOfAddress | src/packets/packets.service.ts:392-395 | the destination city of `prefix,city` is `city`, for any clean city name |
| Allocator.Loaded | src/packets/packets.service.ts:417 | a loaded packet names the vehicle, and nothing else about it changes |
| Allocator.Unloaded | src/packets/packets.service.ts:585 | an unloaded packet names no vehicle, and nothing else about it changes |
| Allocator.HomogeneousSharesCity | src/packets/packets.service.ts:396-415 | while every vehicle's packets match its bound city, two packets on one vehicle go to the same city |
| Allocator.BindCityAsWritten | src/packets/packets.service.ts:396-415 | the city check as written: a bound city that is non-empty and different rejects the packet; a missing or empty bound city is replaced |
| Allocator.BindCityAsWrittenRebinds | src/packets/packets.service.ts:396-415 | a vehicle bound to `""` is re-bound to the next packet's city |
| Allocator.BindCity | src/packets/packets.service.ts:396-415 | the corrected city check: any bound city, even `""`, must equal the packet's city, and an unbound vehicle is bound to it |
| Allocator.AssignPacketToVehicleAsWritten | src/packets/packets.service.ts:367-422 | assigning as written: admin only; the packet must be at the origin hub and the vehicle usable; city check as written; the new load must fit the capacity |
| Allocator.AssignPacketToVehicle | src/packets/packets.service.ts:367-422 | the corrected assignment: Forbidden, NotFound and BadRequest in the code's order; success loads the packet, adds its weight to the vehicle's load and binds the vehicle's city |
| Allocator.Load | src/packets/packets.service.ts:412-420 | loading a packet changes only its vehicle reference and, on the vehicle, the load (raised by the packet's weight) and the bound city; no other row changes |
| Allocator.LoadMovesPacket | src/packets/packets.service.ts:417-421 | loading a packet adds it to the vehicle's packets and removes it from every other vehicle's packets |
| Allocator.AssignKeepsLoadWithinCapacity | src/packets/packets.service.ts:405-410 | after an assignment every vehicle's load is still within its capacity |
| Allocator.AssignKeepsCityHomogeneous | src/packets/packets.service.ts:396-415 | after a corrected assignment all packets on a vehicle still go to its bound city |
| Allocator.FoundAll | src/packets/packets.service.ts:433-440 | the lookup finds as many packets as were asked for exactly when the ids are distinct and all of them are ready |
| Allocator.TotalWeight | src/packets/packets.service.ts:469 | the summed weight of non-negative weights is non-negative, and a single packet's sum is its weight |
| Allocator.TotalWeightRemoveAt | src/packets/packets.service.ts:469 | taking one packet out of a batch takes exactly its weight off the total |
| Allocator.TotalWeightPermutation | src/packets/packets.service.ts:433-469 | the total does not depend on order, so the rows in whatever order the lookup returns them weigh what the requested ids weigh |
| Allocator.CityList | src/packets/packets.service.ts:449-451 | the list of destination cities has one entry per packet, in order |
| Allocator.FewValuesIffAllSame | src/packets/packets.service.ts:452-457 | at most one distinct city in the batch is the same as all packets going to the same city |
| Allocator.LookupReady | src/packets/packets.service.ts:433-440 | the batch lookup succeeds exactly when every id is distinct and ready at the origin hub |
| Allocator.CheckBatch | src/packets/packets.service.ts:424-479 | the corrected batch check: a batch is accepted exactly when the caller is an admin, all packets are ready, the vehicle is usable, all packets share a city that equals the vehicle's bound city (even `""`) or the vehicle is unbound, and the total fits the capacity |
| Allocator.AssignMultiplePacketsToVehicle | src/packets/packets.service.ts:424-488 | the corrected batch assignment fails exactly when its checks fail; success loads every listed packet, touches no other row, adds the total weight to the vehicle and binds it to the batch's city |
| Allocator.LoadAllMovesBatch | src/packets/packets.service.ts:481-487 | a batch load adds every packet found to the vehicle's packets and removes them from every other vehicle's packets |
| Allocator.CheckBatchAsWritten | src/packets/packets.service.ts:424-479 | the batch check as written: as the corrected one, except that a vehicle bound to `""` counts as unbound |
| Allocator.AssignMultiplePacketsToVehicleAsWritten | src/packets/packets.service.ts:424-488 | the batch assignment as written fails exactly when its checks fail; success loads the listed packets, touches no other row, adds the total weight and binds the vehicle to the checked city |
| Allocator.BatchChecksAgreeOffEmptyCity | src/packets/packets.service.ts:460-479 | unless the vehicle is bound to `""`, the batch as written and the corrected batch give the same result |
| Allocator.AsWrittenBatchRebindsEmptyCity | src/packets/packets.service.ts:460-479 | on a vehicle bound to `""`, a batch for a named city is refused by the corrected batch but accepted as written, which rebinds the vehicle to that city |
| Allocator.AsWrittenBatchMixesCities | src/packets/packets.service.ts:460-479 | as written, a batch loaded onto a vehicle that already carries a packet whose city is `""` leaves the vehicle carrying two cities |
| Allocator.AssignMultipleOfOne | src/packets/packets.service.ts:367-488 | assigning a batch of one packet is the single assignment |
| Allocator.AssignMultipleKeepsCityHomogeneous | src/packets/packets.service.ts:449-479 | after a corrected batch assignment all packets on a vehicle still go to its bound city |
| Allocator.AssignMultipleKeepsLoadWithinCapacity | src/packets/packets.service.ts:469-475 | after a batch assignment every vehicle's load is still within its capacity |
| Allocator.UnassignPacketFromVehicle | src/packets/packets.service.ts:546-589 | admin only; the packet must be at the origin hub and on a vehicle; success takes it off, subtracts its weight, and clears the vehicle's city when no packet remains |
| Allocator.UnassignRemovesPacket | src/packets/packets.service.ts:584-588 | unloading removes the packet from its vehicle's packets and adds no packet to any vehicle |
| Allocator.UnassignKeepsCityHomogeneous | src/packets/packets.service.ts:576-582 | unloading keeps every vehicle's packets matching its bound city |
| Allocator.UnassignKeepsLoadWithinCapacity | src/packets/packets.service.ts:573-574 | unloading a packet of non-negative weight keeps every load within capacity |
| Allocator.AssignThenUnassign | src/packets/packets.service.ts:367-589 | unloading a packet just loaded onto a vehicle restores the store exactly |
| Allocator.CreatedPacketIsAssignable | src/packets/packets.service.ts:56-68 | a created packet waits at the origin hub on no vehicle, and a vehicle takes it exactly when usable, unbound or bound to the packet's city, and with room for its weight |
| Allocator.AsWrittenAccepts | src/packets/packets.service.ts:396-415 | the code as written accepts a packet whenever the bound city is empty, missing or equal, and capacity allows |
| Allocator.AsWrittenRebindsEmptyCity | src/packets/packets.service.ts:396-415 | as written, a packet whose city is `""` followed by one with a real city both load onto one vehicle, which then carries mixed cities |
| Allocator.ExampleCities | src/packets/packets.service.ts:392-395 | the address `Chilomoni,` yields the city `""` and `Area 3, Lilongwe` yields `Lilongwe` |
| Allocator.AsWrittenMixesCities | src/packets/packets.service.ts:396-415 | a concrete run of the code as written: packets for `Chilomoni,` and for `Area 3, Lilongwe` both land on vehicle 7, breaking city homogeneity |
| Dispatch.Dispatched | src/packets/packets.service.ts:292-303 | a dispatched packet is in transit, confirmed by the origin and stamped, and keeps its route, weight and every other field |
| Dispatch.DispatchAll | src/packets/packets.service.ts:292-307 | every packet of the batch is in transit, confirmed by the origin, stamped, and bound to the driver and the vehicle, keeping its route, weight and other assignments; no packet outside the batch changes |
| Dispatch.DispatchBatch | src/packets/packets.service.ts:260-308 | a missing packet, driver or usable vehicle is NotFound; an overweight batch or a packet not at the origin hub is BadRequest; naming a driver whom another vehicle already names fails on the unique driver column; success puts the packets in transit bound to the driver and the vehicle, names the driver on the vehicle, and nothing else changes |
| Dispatch.DispatchBatchMovesOneStep | src/packets/packets.service.ts:260-308 | a batch dispatch moves no packet backwards, and every packet of the batch ends in transit |
| Dispatch.DispatchBatchKeepsDriverUnique | src/packets/packets.service.ts:305-306 | while each driver drives at most one vehicle, a successful batch dispatch keeps it so, and the driver then drives exactly the dispatching vehicle |
| Dispatch.DispatchVehicle | src/packets/packets.service.ts:502-530 | admin only; the vehicle must be usable and loaded; success puts exactly its packets in transit and the vehicle itself in transit |
| Dispatch.DispatchVehicleFromHubMovesOneStep | src/packets/packets.service.ts:502-530 | when all of a vehicle's packets wait at the origin hub, dispatching it moves each one step forward |
| Dispatch.DispatchVehicleCanMoveBack | src/packets/packets.service.ts:513-523 | dispatching a vehicle that carries a packet already past transit moves that packet backwards |
| Dispatch.DispatchVehicleKeepsCityHomogeneous | src/packets/packets.service.ts:502-530 | dispatch keeps every vehicle's packets matching its bound city |
| Fleet.AssignVehicleToDriver | src/vehicles/vehicles.service.ts:128-182 | admin only; a missing vehicle or a user who is not a driver is NotFound; success leaves the driver driving exactly that vehicle, takes the vehicle from every other driver, releases the driver's previous vehicle, and changes no other row |
| Fleet.AssignSamePairChangesNothing | src/vehicles/vehicles.service.ts:156-182 | while each driver drives at most one vehicle, pairing a driver with the vehicle it already drives changes nothing |
| Fleet.AssignVehicleToDriverKeepsUnique | src/vehicles/vehicles.service.ts:156-182 | pairing keeps each driver on at most one vehicle, as the unique driver column demands, and the vehicle's previous driver is left with none |
| Fleet.DispatchBatchPairsAsAssignDoes | src/packets/packets.service.ts:305-306 | wherever a batch dispatch succeeds, it leaves the vehicle rows exactly as pairing the driver with the vehicle does |
| Fleet.GetVehiclesByCity | src/vehicles/vehicles.service.ts:48-62 | the city query returns those vehicles, and is NotFound exactly when there are none |
| Fleet.ListedIffAssignable | src/vehicles/vehicles.service.ts:48-62 | for an unbound vehicle in the city with room for a waiting packet, the city query lists the vehicle exactly when the packet assignment accepts it |
| Pickup.RequestPickup | src/pickup/pickup.service.ts:27-78 | a missing customer is an error; otherwise a new pending request with no agent is linked to a new pending, unassigned packet whose origin is the pickup address |
| Pickup.RequestPickupKeepsLinks | src/pickup/pickup.service.ts:27-78 | a new request keeps every request's packet present, and keeps each packet owned by at most one request |
| Pickup.AssignAgent | src/pickup/pickup.service.ts:121-165 | the request, the agent and the admin must exist (NotFound); the admin's city must appear in the packet's origin and be the agent's city (Forbidden); success marks the request assigned and names the agent on the packet |
| Pickup.AssignAgentKeepsLinks | src/pickup/pickup.service.ts:121-165 | assigning an agent keeps the request–packet links intact |
| Pickup.UnassignAgent | src/pickup/pickup.service.ts:221-243 | a request without an agent cannot be unassigned; success clears the agent, sets the request pending, and leaves packets alone |
| Pickup.AssignThenUnassign | src/pickup/pickup.service.ts:121-243 | unassigning restores the request but leaves the agent named on its packet |
| Pickup.MarkAsDelivered | src/pickup/pickup.service.ts:174-202 | handing in a request moves it, and its packet, to the origin hub and stamps the hub confirmation |
| Pickup.HandInMatchesHubConfirmation | src/pickup/pickup.service.ts:174-202 | for a collected packet, handing in the request has the same effect on packets as the admin's hub confirmation |
| Pickup.HandInCanMoveBack | src/pickup/pickup.service.ts:192-201 | handing in a request whose packet is already past the origin hub moves it backwards |
| Pickup.GetPacketsByPickup | src/pickup/pickup.service.ts:81-101 | only the request's customer sees its packets: the linked packet, at most one |
| Pickup.RequestThenGetPackets | src/pickup/pickup.service.ts:27-101 | right after a request, its customer sees exactly the packet it created, whose origin is the pickup address, and any other caller is Forbidden |
| Pickup.GetAssignedRequestsForAgent | src/pickup/pickup.service.ts:104-119 | an id that is not a number, or is 0, is BadRequest; otherwise the list holds exactly the assigned requests of that agent whose packet is not yet collected |
| Pickup.AssignedRequestIsListed | src/pickup/pickup.service.ts:104-243 | a request appears on its agent's worklist after assignment and disappears after unassignment |
| Tracking.AgentIndex | src/tracking/tracking.gateway.ts:32 | the position of an agent's connection is its first occurrence, or none when the agent is not connected |
| Tracking.SocketIndex | src/tracking/tracking.gateway.ts:72-73 | the position found for a socket is its first occurrence in insertion order |
| Tracking.Put | src/tracking/tracking.gateway.ts:59 | registering an agent keeps keys distinct, maps the agent to the new socket, keeps every other agent's socket, and appends only a new agent |
| Tracking.HandleConnection | src/tracking/tracking.gateway.ts:47-69 | a non-agent or unknown user is turned away with the registry unchanged; an agent is registered under its socket |
| Tracking.HandleConnectionKeepsValid | src/tracking/tracking.gateway.ts:47-69 | connecting keeps one socket per agent and locations only for connected agents |
| Tracking.HandleDisconnect | src/tracking/tracking.gateway.ts:71-80 | a disconnect removes the first agent on that socket, and its location, and no other |
| Tracking.DisconnectForgetsOnlyThatAgent | src/tracking/tracking.gateway.ts:71-80 | after a disconnect that agent has no socket and no location, every other agent is unaffected, and the registry stays valid |
| Tracking.DisconnectRemovesAllOfSocket | src/tracking/tracking.gateway.ts:71-80 | when sockets are not shared, no connection on the closed socket remains |
| Tracking.SquaredDistanceIsMetricLike | src/tracking/tracking.gateway.ts:197-205 | the distance is symmetric and non-negative, and zero between a point and itself |
| Tracking.NearIsDistanceBelowThreshold | src/tracking/tracking.gateway.ts:142-158 | being near, decided without a square root, is the same as the square-root distance being below 0.05 |
| Tracking.NearSymmetric | src/tracking/tracking.gateway.ts:197-205 | nearness does not depend on argument order |
| Tracking.Reached | src/tracking/tracking.gateway.ts:144-174 | a pending packet near its origin is collected, and a packet out for delivery near its destination is delivered; in every other case nothing happens |
| Tracking.Proximity | src/tracking/tracking.gateway.ts:136-174 | a location changes only the status of packets the agent serves; a served packet that reaches a target takes the reached status, and a packet that reaches nothing is untouched |
| Tracking.ProximityIsStatusUpdate | src/tracking/tracking.gateway.ts:166-174 | a proximity change to a packet is the service's unchecked status update |
| Tracking.ProximityCollectsAsAgentConfirms | src/tracking/tracking.gateway.ts:144-174 | reaching a pending packet's origin gives the packet the row the agent's own collection confirmation without a weight gives, except that no collection time is stamped |
| Tracking.ProximityMovesOneStep | src/tracking/tracking.gateway.ts:144-174 | proximity moves no packet backwards, and at most one position |
| Tracking.ProximityIdempotent | src/tracking/tracking.gateway.ts:136-174 | reporting the same location twice changes nothing the second time |
| Tracking.HandleLocationUpdate | src/tracking/tracking.gateway.ts:83-108 | an unregistered agent changes nothing; a registered agent's location is recorded and the proximity rule applied |
| Tracking.GetAgentLocation | src/tracking/tracking.gateway.ts:214-216 | an agent's location is available exactly when one is stored for it |
| Tracking.LastLocationWins | src/tracking/tracking.gateway.ts:90-94 | a connected agent's latest report is the location read back, no other agent's location moves, an unconnected sender changes nothing, and the registry stays valid |
| Tracking.HandlePacketStatusUpdate | src/tracking/tracking.gateway.ts:111-134 | only a registered agent with a known status name changes anything; then only the named packet changes, and it carries the named status |
| Tracking.StatusUpdateByName | src/tracking/tracking.gateway.ts:111-134 | for a connected agent, a status sent by its name is the service's status update to that status |
| Tracking.ConnectUpdateDisconnect | src/tracking/tracking.gateway.ts:47-108 | once connected, an agent's location report is recorded; after its socket closes the agent has no socket and no location, and its reports are ignored |
| Gates.KeyOf | src/packets/packets.controller.ts:79-107 | a parsed number names a row exactly when it is a whole number, and then names that number |
| Gates.UpdateWeightGateAsWritten | src/packets/packets.controller.ts:84-91 | the weight check as written rejects a non-numeric id and a weight at or below 0, and lets a missing or non-numeric weight through |
| Gates.AsWrittenWeightGateAdmitsNoWeight | src/packets/packets.controller.ts:84-91 | a request with no weight, or a weight that is not a number, passes the check as written and fails the corrected one |
| Gates.UpdateWeightGate | src/packets/packets.controller.ts:84-91 | the corrected weight check accepts exactly a numeric id with a positive numeric weight, and returns that weight |
| Gates.WeightGatesAgreeOnNumbers | src/packets/packets.controller.ts:84-91 | for a numeric weight the corrected check and the check as written agree |
| Gates.UpdateWeightEndpoint | src/packets/packets.controller.ts:79-92 | the corrected endpoint succeeds exactly for a numeric id naming a packet and a positive numeric weight; it stores that weight on the packet and changes nothing else |
| Gates.UpdateWeightEndpointAsWritten | src/packets/packets.controller.ts:79-92 | the endpoint as written: a non-numeric id or a weight at or below 0 is BadRequest; a missing weight answers with the store unchanged; a positive weight is stored on the named packet and nothing else changes |
| Gates.WeightEndpointsAgreeOnNumbers | src/packets/packets.controller.ts:84-91 | on a numeric weight the endpoint as written and the corrected one agree; for an existing packet and no weight, the one as written answers with the unchanged store and the corrected one with BadRequest |
| Gates.AgentConfirmEndpoint | src/packets/packets.controller.ts:94-107 | a non-numeric id is BadRequest and a body weight that is not a number is a plain failure; otherwise the call succeeds exactly when the packet exists, collects it, replaces its weight only by a non-zero weight, and changes nothing else |
| Gates.AgentConfirmEndpointIsService | src/packets/packets.controller.ts:94-107 | for a row's id, the endpoint is the service's collection confirmation with the same numeric weight, and a weight that is not a number is refused |
| Gates.AgentPickupList | src/packets/packets.controller.ts:366-371 | a non-numeric id is BadRequest; otherwise the list holds exactly the agent's packets still to be collected |
| Gates.AgentDeliveryList | src/packets/packets.controller.ts:378-381 | a non-numeric id is BadRequest; otherwise the list holds exactly the agent's packets out for delivery |
| Gates.AssignedPickupIsListed | src/packets/packets.service.ts:749-763 | once an agent is assigned to a pickup whose packet is pending, that packet appears on the agent's pickup list |
| Gates.DeliveryListFollowsAssignment | src/packets/packets.service.ts:766-780 | once a delivery agent is assigned, the packet appears on that agent's delivery list |
| Gates.CityAccess | src/packets/packets.controller.ts:127-141 | a missing or empty city is BadRequest; a city outside a present list of accessible cities is Forbidden; otherwise the city is allowed |
| Gates.CityAccessMonotone | src/packets/packets.controller.ts:127-189 | granting more cities, or dropping the list, never withdraws access |
| Gates.EmptyCityListRefusesAll | src/packets/packets.controller.ts:127-189 | an empty list of accessible cities refuses every city, while no list at all admits every city |
| Gates.PacketNotice | src/packets/packets.controller.ts:405-532 | a missing packet is NotFound and a packet not yet in the needed state BadRequest; a delivery or pickup confirmation goes to the sender, an arrival notice to the receiver, and an assignment notice to the delivery agent |
| Gates.DeliveryConfirmationFollowsDelivery | src/packets/packets.controller.ts:405-414 | the delivery confirmation is refused before delivery and sent to the sender after it |
| Gates.ArrivalNoticeWhileAtHub | src/packets/packets.controller.ts:527-532 | the arrival notice goes to the receiver once the packet is confirmed at the destination hub, and is refused again once it is out for delivery |
| Gates.DeliveryAssignmentNoticeFollowsAgent | src/packets/packets.controller.ts:484-495 | after a delivery agent is assigned, the assignment notice goes to that agent |
| Gates.PickupAssignmentNotice | src/packets/packets.controller.ts:458-467 | a missing request is NotFound, a request without a known agent BadRequest; otherwise the notice goes to the agent |
| Gates.PickupAssignmentNoticeFollowsAgent | src/packets/packets.controller.ts:458-467 | after an agent is assigned to a pickup, the assignment notice goes to that agent |

## Left out

- Persistence, e-mail sending, socket emits, logging and the hourly location
  cleanup are I/O. They are not modelled. The store is a value, and a
  notification is modelled as the recipient it would be sent to.
- Authentication and JWT handling are left out. The caller's role and id
  arrive as parameters.
- The controllers parse ids with `Number(...)` and `parseInt(...)`. That
  parsing is not modelled: the parsed value arrives as `Num`.
- Floating point is modelled as exact reals. Rounding of weights and loads
  is not modelled.
- The gateway's square root is avoided: nearness compares the squared
  distance with 0.05², and `Tracking.NearIsDistanceBelowThreshold` relates
  that comparison to the square-root distance.
- Tracking.SquaredDistanceIsMetricLike: does not state that a zero distance
  implies equal points, because that direction needs nonlinear real
  reasoning the solver does not settle.
- Allocator.UnassignKeepsLoadWithinCapacity: requires the packet's weight
  to be non-negative, because the code subtracts the weight and a negative
  one would push the load above capacity. Nothing in the code rejects a
  negative weight at creation.
- The proximity handler is not awaited. Concurrent interleavings of
  proximity updates and other requests are not modelled: each update is
  applied at once and atomically.
- `handleDisconnect` scans the connection map in insertion order. The
  registry keeps that order as a sequence.
- Read-only queries are not modelled beyond the agent lists, the worklist,
  the packets of a pickup and the vehicle city query. This covers the
  listings by hub, city or customer, and the lookups by id.
- The vehicle's make, model, year and type are not modelled. Neither are
  the user profile fields other than role, city and e-mail. No operation of
  the core branches on them.
- `assignPacketToVehicle` does not check whether the packet is already on
  another vehicle. The model does the same, so a re-assignment leaves the
  old vehicle's load counted.
- The unique index on the vehicle's driver column is assumed to exist, as
  TypeORM creates it when it synchronises the schema. `dispatchBatch` saves
  the vehicle before any packet, so naming a driver whom another vehicle
  already names is modelled as a plain failure with nothing written.
- Fleet.AssignVehicleToDriver: clears the driver's previous vehicle and then
  writes the new one as a single change. The code saves them one after the
  other, and a failure between the two saves is not modelled.
- Allocator.AssignKeepsCityHomogeneous: holds for the corrected assignment
  only. The assignment as written can mix cities
  (`Allocator.AsWrittenMixesCities`).
- Allocator.AssignMultipleKeepsCityHomogeneous: holds for the corrected batch
  only. The batch as written can mix cities
  (`Allocator.AsWrittenBatchMixesCities`).
- Pickup.RequestPickup: does not model the failed insert. The packet the
  request creates sets no `origin_city`, a column declared without a default
  and not nullable. Under MySQL's default strict mode that insert is
  refused. The model inserts the packet, whose origin city is not modelled.
- Lifecycle.CreatePacket: takes the weight as an already parsed number.
  `parseFloat` of a non-numeric weight gives NaN, and a weight such as
  `"5kg"` is cut to 5; neither is modelled. The request body is spread into
  the new row unchecked, so a client could also set `is_paid`,
  `confirmed_by_origin` or `id`. The model builds the row from the booking
  fields only.
- Tracking.HandlePacketStatusUpdate: models a status name outside the
  status enum as leaving the store unchanged. This assumes MySQL's default
  strict mode, under which the enum column refuses the update. The gateway
  catches that error and logs it.
- Gates.AgentConfirmEndpoint: models a body weight that is not a number as
  refused by the float column, which also assumes MySQL's default strict
  mode.
- Gates.UpdateWeightEndpointAsWritten: models a weight that is not a number
  as refused by the database, which assumes MySQL's default strict mode. A
  missing weight leaves the row unchanged, because TypeORM skips undefined
  properties when it saves.
- Pickup.MarkAsDelivered: takes the agent id but does not compare it with
  the request's agent, because that check is commented out in the code.
- The pickup controller reads the caller's id from a JWT field that the JWT
  strategy does not set. The model takes the caller id as given. Without
  this assumption `getPacketsByPickup` would always refuse.
- The JWT strategy never sets a list of accessible cities. In deployment
  the city checks therefore always admit the caller. The model keeps the
  list as an optional parameter.

## Findings

| source | as written | input that shows it | evidently intended | confidence | as-written member | corrected member |
|---|---|---|---|---|---|---|
| src/packets/packets.service.ts:396-415 | a vehicle's bound city is tested by truthiness, so a city `""` (from an address ending in a comma) counts as unbound and is overwritten by the next packet's city | vehicle 7 unbound; load a packet to `Chilomoni,` (city `""`), then one to `Area 3, Lilongwe`; both are accepted and vehicle 7 carries two cities | a bound city, even an empty one, must match every later packet | not executed | Allocator.AsWrittenMixesCities | Allocator.AssignKeepsCityHomogeneous |
| src/packets/packets.service.ts:460-479 | the batch assignment tests the vehicle's bound city by the same truthiness, so a vehicle bound to `""` takes a batch for any city and is re-bound to it | vehicle 7 already carries a packet to `Chilomoni,` and is bound to `""`; a batch of packets to `Area 3, Lilongwe` is accepted, and vehicle 7 then carries two cities | a bound city, even an empty one, must match the batch's city | not executed | Allocator.AsWrittenBatchMixesCities | Allocator.AssignMultipleKeepsCityHomogeneous |
| src/packets/packets.controller.ts:84-91 | the controller's only weight check is `weight <= 0`; a comparison with a missing or non-numeric value is false, so such a weight passes (the DTO's decorators never run, since `src/main.ts` installs no validation pipe) and reaches `updateWeight` | PATCH `/packets/1/weight` with body `{"weight": "abc"}`, or with no weight | only a positive numeric weight reaches the service | not executed | Gates.WeightEndpointsAgreeOnNumbers | Gates.UpdateWeightEndpoint |

=== FILE: allocator.dfy ===
/** The vehicle capacity and destination allocator of the packet service:
    assigning one or several packets waiting at the origin hub to a vehicle,
    unassigning one, and dispatching a batch or a whole vehicle. A vehicle's
    load is the running sum the service keeps in `current_load`; its
    destination city is bound by the first packet loaded. */
module Allocator {
  import opened Results
  import opened Entities
  import Text
  import Lifecycle

  /** The city a packet is going to: the last comma-separated segment of its
      destination address, trimmed. */
  function DestinationCity(address: string): string {
    Text.Trim(Text.LastSegment(address))
  }

  /** A destination city holds no comma and neither starts nor ends with
      whitespace. */
  lemma DestinationCityShape(address: string)
    ensures ',' !in DestinationCity(address)
    ensures |DestinationCity(address)| > 0 ==>
      !Text.IsWhitespace(DestinationCity(address)[0]) &&
      !Text.IsWhitespace(DestinationCity(address)[|DestinationCity(address)| - 1])
  {
    var segment := Text.LastSegment(address);
    Text.LastSegmentShape(address);
    Text.TrimKeepsAbsent(segment, ',');
    Text.TrimKeepsCore(segment);
  }

  /** An address `"<anything>,<city>"` is bound for `city` when the city has
      no comma and no surrounding blanks. */
  lemma DestinationCityOfAddress(prefix: string, city: string)
    requires ',' !in city
    requires |city| > 0 ==> !Text.IsWhitespace(city[0]) && !Text.IsWhitespace(city[|city| - 1])
    ensures DestinationCity(prefix + [','] + city) == city
  {
    Text.LastSegmentAfterComma(prefix, city);
    Text.TrimOfTrimmed(city);
  }

  /** The city of a packet row. */
  function PacketCity(p: Packet): string {
    DestinationCity(p.route.destinationAddress)
  }

  /** A packet row once loaded on vehicle `vid`. */
  function Loaded(p: Packet, vid: int): (q: Packet)
    ensures q.assignment.vehicle == Some(vid)
    ensures q.(assignment := p.assignment) == p
  {
    p.(assignment := p.assignment.(vehicle := Some(vid)))
  }

  /** The packet exists and waits at the origin hub (the lookup the
      assignment operations perform by id and status). */
  predicate Ready(s: Store, id: int) {
    id in s.packets && s.packets[id].status == AtOriginHub
  }

  /** The vehicle exists, is active and is not in maintenance. */
  predicate Usable(s: Store, vid: int) {
    vid in s.vehicles && s.vehicles[vid].isActive && !s.vehicles[vid].isInMaintenance
  }

  /** The packets whose vehicle is `vid`: the vehicle's `assigned_packets` relation. */
  function AssignedTo(packets: map<int, Packet>, vid: int): (r: set<int>)
    ensures forall q :: q in r <==> q in packets && packets[q].assignment.vehicle == Some(vid)
  {
    set q | q in packets && packets[q].assignment.vehicle == Some(vid)
  }

  /** No vehicle carries more than its capacity. */
  predicate LoadWithinCapacity(s: Store) {
    forall v :: v in s.vehicles ==> s.vehicles[v].currentLoad <= s.vehicles[v].capacity
  }

  /** Every packet on a vehicle is going to the city the vehicle is bound for. */
  predicate CityHomogeneous(s: Store) {
    forall q :: q in s.packets && s.packets[q].assignment.vehicle.Some? && s.packets[q].assignment.vehicle.value in s.vehicles ==>
      s.vehicles[s.packets[q].assignment.vehicle.value].destinationCity == Some(PacketCity(s.packets[q]))
  }

  /** Homogeneity is what it says: two packets on one vehicle share a destination city. */
  lemma HomogeneousSharesCity(s: Store, a: int, b: int, vid: int)
    requires CityHomogeneous(s)
    requires a in s.packets && b in s.packets && vid in s.vehicles
    requires s.packets[a].assignment.vehicle == Some(vid) && s.packets[b].assignment.vehicle == Some(vid)
    ensures PacketCity(s.packets[a]) == PacketCity(s.packets[b])
  {
  }

  /** JavaScript truthiness of a nullable string: null and `""` are falsy. */
  predicate Truthy(c: Option<string>) {
    c.Some? && c.value != ""
  }

  /** The destination-city check and binding as the service writes it: a
      truthy bound city that differs from the packet's city is rejected, and
      a falsy bound city is replaced by the packet's city. A city `""` bound
      by an address ending in a comma is falsy, so it counts as unbound and
      is overwritten. */
  function BindCityAsWritten(bound: Option<string>, city: Option<string>): (r: Result<Option<string>>)
    ensures r.Ok? <==> !Truthy(bound) || bound == city
    ensures r.Err? ==> r.error == BadRequest
    ensures r.Ok? && city.Some? ==> r.value == city
  {
    if Truthy(bound) && Some(bound.value) != city then Err(BadRequest)
    else if !Truthy(bound) && city.Some? then Ok(city)
    else Ok(bound)
  }

  /** Witness: the service's check lets a second city overwrite a bound `""`. */
  lemma BindCityAsWrittenRebinds()
    ensures BindCityAsWritten(Some(""), Some("Lilongwe")) == Ok(Some("Lilongwe"))
  {
  }

  /** The corrected check: any bound city, `""` included, must match, and
      only an unbound vehicle takes the packets' city. */
  function BindCity(bound: Option<string>, city: Option<string>): (r: Result<Option<string>>)
    ensures r.Ok? <==> bound.None? || bound == city
    ensures r.Err? ==> r.error == BadRequest
    ensures r.Ok? && bound.Some? ==> r.value == bound
    ensures r.Ok? && city.Some? ==> r.value == city
  {
    if bound.Some? && bound != city then Err(BadRequest)
    else if bound.None? then Ok(city)
    else Ok(bound)
  }

  /** The write an assignment performs: the packet takes the vehicle, the
      vehicle's load grows by the packet's weight and its city becomes `city`. */
  function Load(s: Store, pid: int, vid: int, city: Option<string>): (r: Store)
    requires pid in s.packets && vid in s.vehicles
    ensures r.packets == s.packets[pid := Loaded(s.packets[pid], vid)]
    ensures vid in r.vehicles && r.vehicles == s.vehicles[vid := r.vehicles[vid]]
    ensures r.vehicles[vid].currentLoad == s.vehicles[vid].currentLoad + s.packets[pid].weight
    ensures r.vehicles[vid].destinationCity == city
    ensures r.vehicles[vid].(destinationCity := s.vehicles[vid].destinationCity,
                             currentLoad := s.vehicles[vid].currentLoad) == s.vehicles[vid]
    ensures r.users == s.users && r.pickups == s.pickups
  {
    var v := s.vehicles[vid];
    s.(packets := s.packets[pid := Loaded(s.packets[pid], vid)],
       vehicles := s.vehicles[vid := v.(destinationCity := city, currentLoad := v.currentLoad + s.packets[pid].weight)])
  }

  /** `assignPacketToVehicle` as the service writes it, with `BindCityAsWritten`. */
  function AssignPacketToVehicleAsWritten(s: Store, pid: int, vid: int, caller: Role): (r: Result<Store>)
    ensures caller != Admin ==> r == Err(Forbidden)
    ensures caller == Admin && !(Ready(s, pid) && Usable(s, vid)) ==> r == Err(NotFound)
    ensures r.Ok? <==> (caller == Admin && Ready(s, pid) && Usable(s, vid)
                        && (!Truthy(s.vehicles[vid].destinationCity) ||
                            s.vehicles[vid].destinationCity == Some(PacketCity(s.packets[pid])))
                        && s.vehicles[vid].currentLoad + s.packets[pid].weight <= s.vehicles[vid].capacity)
    ensures r.Ok? ==> r.value == Load(s, pid, vid, Some(PacketCity(s.packets[pid])))
  {
    if caller != Admin then Err(Forbidden)
    else if !Ready(s, pid) || !Usable(s, vid) then Err(NotFound)
    else
      var bound := BindCityAsWritten(s.vehicles[vid].destinationCity, Some(PacketCity(s.packets[pid])));
      if bound.Err? then Err(BadRequest)
      else if s.vehicles[vid].currentLoad + s.packets[pid].weight > s.vehicles[vid].capacity then Err(BadRequest)
      else Ok(Load(s, pid, vid, bound.value))
  }

  /** `assignPacketToVehicle` (with the corrected city check): an admin loads
      one packet waiting at the origin hub onto an active vehicle. A vehicle
      bound for another city, or a load that would exceed the capacity, is a
      BadRequest; on success the load grows by exactly the packet's weight and
      the city is bound if it was unset. */
  function AssignPacketToVehicle(s: Store, pid: int, vid: int, caller: Role): (r: Result<Store>)
    ensures caller != Admin ==> r == Err(Forbidden)
    ensures caller == Admin && !(Ready(s, pid) && Usable(s, vid)) ==> r == Err(NotFound)
    ensures (caller == Admin && Ready(s, pid) && Usable(s, vid) &&
             s.vehicles[vid].destinationCity.Some? &&
             s.vehicles[vid].destinationCity != Some(PacketCity(s.packets[pid]))) ==> r == Err(BadRequest)
    ensures (caller == Admin && Ready(s, pid) && Usable(s, vid) &&
             s.vehicles[vid].currentLoad + s.packets[pid].weight > s.vehicles[vid].capacity) ==> r == Err(BadRequest)
    ensures r.Ok? <==> (caller == Admin && Ready(s, pid) && Usable(s, vid)
                        && (s.vehicles[vid].destinationCity.None? ||
                            s.vehicles[vid].destinationCity == Some(PacketCity(s.packets[pid])))
                        && s.vehicles[vid].currentLoad + s.packets[pid].weight <= s.vehicles[vid].capacity)
    ensures r.Ok? ==> r.value == Load(s, pid, vid, Some(PacketCity(s.packets[pid])))
  {
    if caller != Admin then Err(Forbidden)
    else if !Ready(s, pid) || !Usable(s, vid) then Err(NotFound)
    else
      var bound := BindCity(s.vehicles[vid].destinationCity, Some(PacketCity(s.packets[pid])));
      if bound.Err? then Err(BadRequest)
      else if s.vehicles[vid].currentLoad + s.packets[pid].weight > s.vehicles[vid].capacity then Err(BadRequest)
      else Ok(Load(s, pid, vid, bound.value))
  }

  /** Loading a packet never overloads a vehicle. */
  lemma AssignKeepsLoadWithinCapacity(s: Store, pid: int, vid: int, caller: Role)
    requires LoadWithinCapacity(s)
    requires AssignPacketToVehicle(s, pid, vid, caller).Ok?
    ensures LoadWithinCapacity(AssignPacketToVehicle(s, pid, vid, caller).value)
  {
  }

  /** Loading a packet keeps every vehicle's packets bound for one city. */
  lemma AssignKeepsCityHomogeneous(s: Store, pid: int, vid: int, caller: Role)
    requires CityHomogeneous(s)
    requires AssignPacketToVehicle(s, pid, vid, caller).Ok?
    ensures CityHomogeneous(AssignPacketToVehicle(s, pid, vid, caller).value)
  {
    var s' := AssignPacketToVehicle(s, pid, vid, caller).value;
    var city := PacketCity(s.packets[pid]);
    forall q | q in s'.packets && s'.packets[q].assignment.vehicle.Some? && s'.packets[q].assignment.vehicle.value in s'.vehicles
      ensures s'.vehicles[s'.packets[q].assignment.vehicle.value].destinationCity == Some(PacketCity(s'.packets[q]))
    {
      if q != pid && s'.packets[q].assignment.vehicle == Some(vid) {
        assert s.packets[q] == s'.packets[q];
        assert s.vehicles[vid].destinationCity == Some(PacketCity(s.packets[q]));
      }
    }
  }

  /** No id occurs twice. */
  predicate Distinct(ids: seq<int>) {
    forall i, j :: 0 <= i < j < |ids| ==> ids[i] != ids[j]
  }

  /** A sequence is distinct exactly when its head is not repeated in its
      tail and its tail is distinct. */
  lemma DistinctCons(ids: seq<int>)
    requires |ids| > 0
    ensures Distinct(ids) <==> ids[0] !in ids[1..] && Distinct(ids[1..])
  {
    if Distinct(ids) {
      forall i, j | 0 <= i < j < |ids[1..]|
        ensures ids[1..][i] != ids[1..][j]
      {
        assert ids[1..][i] == ids[i + 1] && ids[1..][j] == ids[j + 1];
      }
    }
    if ids[0] !in ids[1..] && Distinct(ids[1..]) {
      forall i, j | 0 <= i < j < |ids|
        ensures ids[i] != ids[j]
      {
        assert ids[j] == ids[1..][j - 1];
        if i > 0 {
          assert ids[i] == ids[1..][i - 1];
        }
      }
    }
  }

  /** The ids among `ids` that are in `good`: the rows a lookup by
      `id IN (ids)` with a filter returns, as a set of ids. */
  function Found(ids: seq<int>, good: set<int>): (r: set<int>)
    ensures forall i :: i in r <==> i in ids && i in good
  {
    set i | i in ids && i in good
  }

  /** The lookup returns as many rows as there are ids exactly when the
      ids are distinct and each one passes the filter: a repeated id, like a
      missing one, makes the counts differ. */
  lemma {:induction false} FoundAll(ids: seq<int>, good: set<int>)
    ensures |Found(ids, good)| <= |ids|
    ensures |Found(ids, good)| == |ids| <==> Distinct(ids) && forall i :: 0 <= i < |ids| ==> ids[i] in good
    decreases |ids|
  {
    if |ids| > 0 {
      var x, rest := ids[0], ids[1..];
      assert ids == [x] + rest;
      FoundAll(rest, good);
      DistinctCons(ids);
      var f, fr := Found(ids, good), Found(rest, good);
      if x in good && x !in rest {
        assert f == fr + {x};
        if forall i :: 0 <= i < |rest| ==> rest[i] in good {
          forall i | 0 <= i < |ids|
            ensures ids[i] in good
          {
            if i > 0 {
              assert ids[i] == rest[i - 1];
            }
          }
        }
        if forall i :: 0 <= i < |ids| ==> ids[i] in good {
          forall i | 0 <= i < |rest|
            ensures rest[i] in good
          {
            assert rest[i] == ids[i + 1];
          }
        }
      } else {
        assert f == fr;
        if x !in good {
          assert !(ids[0] in good);
        }
      }
    }
  }

  /** The ids of the packets waiting at the origin hub. */
  function ReadyIds(s: Store): (r: set<int>)
    ensures forall i :: i in r <==> Ready(s, i)
  {
    set i | i in s.packets && s.packets[i].status == AtOriginHub
  }

  /** Every id names a distinct packet waiting at the origin hub. */
  predicate AllReady(s: Store, ids: seq<int>) {
    Distinct(ids) && forall i :: 0 <= i < |ids| ==> Ready(s, ids[i])
  }

  /** The sum of the weights of the packets `ids`, added up in order from 0. */
  function TotalWeight(packets: map<int, Packet>, ids: seq<int>): (w: real)
    requires forall i :: 0 <= i < |ids| ==> ids[i] in packets
    ensures (forall i :: 0 <= i < |ids| ==> 0.0 <= packets[ids[i]].weight) ==> 0.0 <= w
    ensures |ids| == 1 ==> w == packets[ids[0]].weight
    decreases |ids|
  {
    if |ids| == 0 then 0.0
    else packets[ids[0]].weight + TotalWeight(packets, ids[1..])
  }

  /** Every id of `ids` names a packet row. */
  predicate AllIn(packets: map<int, Packet>, ids: seq<int>) {
    forall i :: 0 <= i < |ids| ==> ids[i] in packets
  }

  /** Taking the packet at position `j` out of a batch takes exactly its
      weight off the total. */
  lemma {:induction false} TotalWeightRemoveAt(packets: map<int, Packet>, b: seq<int>, j: int)
    requires AllIn(packets, b) && 0 <= j < |b|
    ensures AllIn(packets, b[..j] + b[j + 1..])
    ensures TotalWeight(packets, b) == TotalWeight(packets, b[..j] + b[j + 1..]) + packets[b[j]].weight
    decreases j
  {
    var rest := b[..j] + b[j + 1..];
    assert forall i :: 0 <= i < |rest| ==> rest[i] == (if i < j then b[i] else b[i + 1]);
    if j == 0 {
      assert rest == b[1..];
    } else {
      var tail := b[1..];
      TotalWeightRemoveAt(packets, tail, j - 1);
      assert rest == [b[0]] + (tail[..j - 1] + tail[j..]);
      assert rest[1..] == tail[..j - 1] + tail[j..];
    }
  }

  /** Taking the element at `j` out of `b` takes one copy of it out of
      the multiset of `b`. */
  lemma RemoveAt(b: seq<int>, j: int)
    requires 0 <= j < |b|
    ensures multiset(b) == multiset(b[..j] + b[j + 1..]) + multiset{b[j]}
  {
    assert b == b[..j] + [b[j]] + b[j + 1..];
  }

  /** One copy of the same element can be cancelled from both sides. */
  lemma CancelOne(m1: multiset<int>, m2: multiset<int>, x: int)
    requires m1 + multiset{x} == m2 + multiset{x}
    ensures m1 == m2
  {
    assert forall y :: m1[y] == (m1 + multiset{x})[y] - (if y == x then 1 else 0);
    assert forall y :: m2[y] == (m2 + multiset{x})[y] - (if y == x then 1 else 0);
  }

  /** The first element of `a` sits somewhere in any reordering `b` of
      `a`, and what is left of `b` around it is a reordering of the rest of
      `a`. */
  lemma MatchFirst(a: seq<int>, b: seq<int>) returns (j: int)
    requires |a| > 0 && multiset(a) == multiset(b)
    ensures 0 <= j < |b| && b[j] == a[0]
    ensures multiset(a[1..]) == multiset(b[..j] + b[j + 1..])
  {
    RemoveAt(a, 0);
    assert a[..0] + a[1..] == a[1..];
    assert a[0] in multiset(b);
    j :| 0 <= j < |b| && b[j] == a[0];
    RemoveAt(b, j);
    CancelOne(multiset(a[1..]), multiset(b[..j] + b[j + 1..]), a[0]);
  }

  /** The sum does not depend on the order of the ids: the rows of an
      `IN (...)` lookup, in whatever order the database returns them, weigh
      what the ids weigh in the order they were given. */
  lemma {:induction false} TotalWeightPermutation(packets: map<int, Packet>, a: seq<int>, b: seq<int>)
    requires AllIn(packets, a) && AllIn(packets, b)
    requires multiset(a) == multiset(b)
    ensures TotalWeight(packets, a) == TotalWeight(packets, b)
    decreases |a|
  {
    if |a| > 0 {
      var j := MatchFirst(a, b);
      TotalWeightRemoveAt(packets, b, j);
      TotalWeightPermutation(packets, a[1..], b[..j] + b[j + 1..]);
    }
  }

  /** The destination cities of the packets `ids`, in order. */
  function CityList(s: Store, ids: seq<int>): (cs: seq<string>)
    requires forall i :: 0 <= i < |ids| ==> ids[i] in s.packets
    ensures |cs| == |ids|
    ensures forall i :: 0 <= i < |ids| ==> cs[i] == PacketCity(s.packets[ids[i]])
  {
    seq(|ids|, i requires 0 <= i < |ids| => PacketCity(s.packets[ids[i]]))
  }

  /** Every element of `cs` is the same. */
  predicate AllSame(cs: seq<string>) {
    forall i, j :: 0 <= i < |cs| && 0 <= j < |cs| ==> cs[i] == cs[j]
  }

  /** The distinct elements of `cs` (the service de-duplicates the cities
      through a `Set`). */
  function DistinctValues(cs: seq<string>): set<string> {
    set i | 0 <= i < |cs| :: cs[i]
  }

  /** At most one distinct value is the same as all values equal. */
  lemma FewValuesIffAllSame(cs: seq<string>)
    ensures |DistinctValues(cs)| <= 1 <==> AllSame(cs)
  {
    var vs := DistinctValues(cs);
    if AllSame(cs) && |cs| > 0 {
      assert vs <= {cs[0]};
      SubsetCard(vs, {cs[0]});
    } else if !AllSame(cs) {
      var i, j :| 0 <= i < |cs| && 0 <= j < |cs| && cs[i] != cs[j];
      var two := {cs[i], cs[j]};
      assert two <= vs;
      assert |two| == 2;
      SubsetCard(two, vs);
    }
  }

  /** A subset is no larger than its superset. */
  lemma {:induction false} SubsetCard<T>(a: set<T>, b: set<T>)
    requires a <= b
    ensures |a| <= |b|
    decreases |a|
  {
    if a != {} {
      var x := PickOne(a);
      SubsetCard(a - {x}, b - {x});
    }
  }

  /** The city a batch is going to; none for an empty batch. */
  function BatchCity(cs: seq<string>): Option<string> {
    if |cs| == 0 then None else Some(cs[0])
  }

  /** The packet rows after loading the packets `ids` on vehicle `vid`. */
  function LoadAll(packets: map<int, Packet>, ids: seq<int>, vid: int): (r: map<int, Packet>)
    ensures r.Keys == packets.Keys
    ensures forall q :: q in packets ==> r[q] == (if q in ids then Loaded(packets[q], vid) else packets[q])
  {
    map q | q in packets :: if q in ids then Loaded(packets[q], vid) else packets[q]
  }

  /** The id lookup of a batch: it finds one row per id exactly when the ids
      are distinct packets waiting at the origin hub. */
  function LookupReady(s: Store, ids: seq<int>): (ok: bool)
    ensures ok <==> AllReady(s, ids)
  {
    FoundAll(ids, ReadyIds(s));
    |Found(ids, ReadyIds(s))| == |ids|
  }

  /** The checks `assignMultiplePacketsToVehicle` makes before writing
      anything, in the service's order; on success, the city the vehicle
      ends up bound for. */
  function CheckBatch(s: Store, ids: seq<int>, vid: int, caller: Role): (r: Result<Option<string>>)
    ensures caller != Admin ==> r == Err(Forbidden)
    ensures caller == Admin && !(AllReady(s, ids) && Usable(s, vid)) ==> r == Err(NotFound)
    ensures r.Ok? <==> (caller == Admin && AllReady(s, ids) && Usable(s, vid) && AllSame(CityList(s, ids))
                        && (s.vehicles[vid].destinationCity.None? ||
                            s.vehicles[vid].destinationCity == BatchCity(CityList(s, ids)))
                        && s.vehicles[vid].currentLoad + TotalWeight(s.packets, ids) <= s.vehicles[vid].capacity)
    ensures r.Ok? ==> r.value == (if |ids| == 0 then s.vehicles[vid].destinationCity else BatchCity(CityList(s, ids)))
  {
    if caller != Admin then Err(Forbidden)
    else if !LookupReady(s, ids) then Err(NotFound)
    else if !Usable(s, vid) then Err(NotFound)
    else
      var cities := CityList(s, ids);
      FewValuesIffAllSame(cities);
      if |DistinctValues(cities)| > 1 then Err(BadRequest)
      else
        var v := s.vehicles[vid];
        var bound := BindCity(v.destinationCity, BatchCity(cities));
        if bound.Err? then Err(BadRequest)
        else if v.currentLoad + TotalWeight(s.packets, ids) > v.capacity then Err(BadRequest)
        else Ok(bound.value)
  }

  /** The write a batch assignment performs: every packet of the batch takes
      the vehicle, the load grows by the batch's total weight and the
      vehicle's city becomes `city`. */
  function LoadBatch(s: Store, ids: seq<int>, vid: int, city: Option<string>): Store
    requires vid in s.vehicles && forall i :: 0 <= i < |ids| ==> ids[i] in s.packets
  {
    var v := s.vehicles[vid];
    s.(packets := LoadAll(s.packets, ids, vid),
       vehicles := s.vehicles[vid := v.(destinationCity := city,
                                         currentLoad := v.currentLoad + TotalWeight(s.packets, ids))])
  }

  /** `assignMultiplePacketsToVehicle` (with the corrected city check): an
      admin loads a batch of packets waiting at the origin hub onto one active
      vehicle. A missing, repeated or not-ready id is NotFound; packets bound
      for several cities, a vehicle bound elsewhere, or a load above the
      capacity is a BadRequest. On success every packet of the batch is on
      the vehicle and the load grows by the batch's total weight. */
  function AssignMultiplePacketsToVehicle(s: Store, ids: seq<int>, vid: int, caller: Role): (r: Result<Store>)
    ensures r.Err? <==> CheckBatch(s, ids, vid, caller).Err?
    ensures r.Err? ==> r.error == CheckBatch(s, ids, vid, caller).error
    ensures r.Ok? ==> (r.value.packets == LoadAll(s.packets, ids, vid) &&
                       r.value.users == s.users && r.value.pickups == s.pickups)
    ensures r.Ok? ==> vid in s.vehicles && vid in r.value.vehicles && r.value.vehicles == s.vehicles[vid := r.value.vehicles[vid]]
    ensures r.Ok? ==> r.value.vehicles[vid].destinationCity == CheckBatch(s, ids, vid, caller).value
    ensures r.Ok? ==> r.value.vehicles[vid].currentLoad == s.vehicles[vid].currentLoad + TotalWeight(s.packets, ids)
    ensures r.Ok? ==> r.value.vehicles[vid].(destinationCity := s.vehicles[vid].destinationCity,
                                             currentLoad := s.vehicles[vid].currentLoad) == s.vehicles[vid]
  {
    match CheckBatch(s, ids, vid, caller)
    case Err(e) => Err(e)
    case Ok(city) => Ok(LoadBatch(s, ids, vid, city))
  }

  /** A batch of one is a single assignment. */
  lemma AssignMultipleOfOne(s: Store, pid: int, vid: int, caller: Role)
    ensures AssignMultiplePacketsToVehicle(s, [pid], vid, caller) == AssignPacketToVehicle(s, pid, vid, caller)
  {
    var r1, r2 := AssignMultiplePacketsToVehicle(s, [pid], vid, caller), AssignPacketToVehicle(s, pid, vid, caller);
    if Ready(s, pid) {
      assert AllSame(CityList(s, [pid]));
      assert AllReady(s, [pid]);
    }
    if r1.Ok? && r2.Ok? {
      assert r1.value.packets == r2.value.packets;
    }
  }

  /** Loading a batch keeps every vehicle's packets bound for one city. */
  lemma AssignMultipleKeepsCityHomogeneous(s: Store, ids: seq<int>, vid: int, caller: Role)
    requires CityHomogeneous(s)
    requires AssignMultiplePacketsToVehicle(s, ids, vid, caller).Ok?
    ensures CityHomogeneous(AssignMultiplePacketsToVehicle(s, ids, vid, caller).value)
  {
    var s' := AssignMultiplePacketsToVehicle(s, ids, vid, caller).value;
    forall q | q in s'.packets && s'.packets[q].assignment.vehicle.Some? && s'.packets[q].assignment.vehicle.value in s'.vehicles
      ensures s'.vehicles[s'.packets[q].assignment.vehicle.value].destinationCity == Some(PacketCity(s'.packets[q]))
    {
      if q in ids {
        var k :| 0 <= k < |ids| && ids[k] == q;
        assert PacketCity(s.packets[q]) == CityList(s, ids)[k] == CityList(s, ids)[0];
      } else if s'.packets[q].assignment.vehicle == Some(vid) {
        assert s.packets[q] == s'.packets[q];
      }
    }
  }

  /** Loading a batch never overloads a vehicle. */
  lemma AssignMultipleKeepsLoadWithinCapacity(s: Store, ids: seq<int>, vid: int, caller: Role)
    requires LoadWithinCapacity(s)
    requires AssignMultiplePacketsToVehicle(s, ids, vid, caller).Ok?
    ensures LoadWithinCapacity(AssignMultiplePacketsToVehicle(s, ids, vid, caller).value)
  {
  }

  /** The checks of `assignMultiplePacketsToVehicle` as the service writes
      them: those of `CheckBatch`, with the city test of `BindCityAsWritten`,
      so a vehicle bound for `""` counts as unbound. */
  function CheckBatchAsWritten(s: Store, ids: seq<int>, vid: int, caller: Role): (r: Result<Option<string>>)
    ensures caller != Admin ==> r == Err(Forbidden)
    ensures caller == Admin && !(AllReady(s, ids) && Usable(s, vid)) ==> r == Err(NotFound)
    ensures r.Ok? <==> (caller == Admin && AllReady(s, ids) && Usable(s, vid) && AllSame(CityList(s, ids))
                        && (!Truthy(s.vehicles[vid].destinationCity) ||
                            s.vehicles[vid].destinationCity == BatchCity(CityList(s, ids)))
                        && s.vehicles[vid].currentLoad + TotalWeight(s.packets, ids) <= s.vehicles[vid].capacity)
    ensures r.Ok? ==> r.value == (if |ids| == 0 then s.vehicles[vid].destinationCity else BatchCity(CityList(s, ids)))
  {
    if caller != Admin then Err(Forbidden)
    else if !LookupReady(s, ids) then Err(NotFound)
    else if !Usable(s, vid) then Err(NotFound)
    else
      var cities := CityList(s, ids);
      FewValuesIffAllSame(cities);
      if |DistinctValues(cities)| > 1 then Err(BadRequest)
      else
        var v := s.vehicles[vid];
        var bound := BindCityAsWritten(v.destinationCity, BatchCity(cities));
        if bound.Err? then Err(BadRequest)
        else if v.currentLoad + TotalWeight(s.packets, ids) > v.capacity then Err(BadRequest)
        else Ok(bound.value)
  }

  /** `assignMultiplePacketsToVehicle` as the service writes it, with
      `CheckBatchAsWritten`. */
  function AssignMultiplePacketsToVehicleAsWritten(s: Store, ids: seq<int>, vid: int, caller: Role): (r: Result<Store>)
    ensures r.Err? <==> CheckBatchAsWritten(s, ids, vid, caller).Err?
    ensures r.Err? ==> r.error == CheckBatchAsWritten(s, ids, vid, caller).error
    ensures r.Ok? ==> (r.value.packets == LoadAll(s.packets, ids, vid) &&
                       r.value.users == s.users && r.value.pickups == s.pickups)
    ensures r.Ok? ==> vid in s.vehicles && vid in r.value.vehicles && r.value.vehicles == s.vehicles[vid := r.value.vehicles[vid]]
    ensures r.Ok? ==> r.value.vehicles[vid].destinationCity == CheckBatchAsWritten(s, ids, vid, caller).value
    ensures r.Ok? ==> r.value.vehicles[vid].currentLoad == s.vehicles[vid].currentLoad + TotalWeight(s.packets, ids)
    ensures r.Ok? ==> r.value.vehicles[vid].(destinationCity := s.vehicles[vid].destinationCity,
                                             currentLoad := s.vehicles[vid].currentLoad) == s.vehicles[vid]
  {
    match CheckBatchAsWritten(s, ids, vid, caller)
    case Err(e) => Err(e)
    case Ok(city) => Ok(LoadBatch(s, ids, vid, city))
  }

  /** The service's batch and the corrected one differ only on a vehicle
      bound for `""`: everywhere else they return the same. */
  lemma BatchChecksAgreeOffEmptyCity(s: Store, ids: seq<int>, vid: int, caller: Role)
    requires vid in s.vehicles ==> s.vehicles[vid].destinationCity != Some("")
    ensures AssignMultiplePacketsToVehicleAsWritten(s, ids, vid, caller) == AssignMultiplePacketsToVehicle(s, ids, vid, caller)
  {
  }

  /** On a vehicle bound for `""`, a batch going to a named city is refused
      by the corrected check but accepted by the service's, which rebinds
      the vehicle to the batch's city. */
  lemma AsWrittenBatchRebindsEmptyCity(s: Store, ids: seq<int>, vid: int)
    requires AllReady(s, ids) && Usable(s, vid) && |ids| > 0 && AllSame(CityList(s, ids))
    requires s.vehicles[vid].destinationCity == Some("") && PacketCity(s.packets[ids[0]]) != ""
    requires s.vehicles[vid].currentLoad + TotalWeight(s.packets, ids) <= s.vehicles[vid].capacity
    ensures AssignMultiplePacketsToVehicle(s, ids, vid, Admin) == Err(BadRequest)
    ensures AssignMultiplePacketsToVehicleAsWritten(s, ids, vid, Admin).Ok?
    ensures AssignMultiplePacketsToVehicleAsWritten(s, ids, vid, Admin).value.vehicles[vid].destinationCity ==
            Some(PacketCity(s.packets[ids[0]]))
  {
    assert CityList(s, ids)[0] == PacketCity(s.packets[ids[0]]);
  }

  /** Hence the service's batch can mix cities: a packet whose city is `""`
      already on the vehicle ends up on a vehicle bound elsewhere. */
  lemma AsWrittenBatchMixesCities(s: Store, ids: seq<int>, vid: int, a: int)
    requires AllReady(s, ids) && Usable(s, vid) && |ids| > 0 && AllSame(CityList(s, ids))
    requires s.vehicles[vid].destinationCity == Some("") && PacketCity(s.packets[ids[0]]) != ""
    requires s.vehicles[vid].currentLoad + TotalWeight(s.packets, ids) <= s.vehicles[vid].capacity
    requires a in s.packets && a !in ids && s.packets[a].assignment.vehicle == Some(vid)
    requires PacketCity(s.packets[a]) == ""
    ensures AssignMultiplePacketsToVehicleAsWritten(s, ids, vid, Admin).Ok?
    ensures !CityHomogeneous(AssignMultiplePacketsToVehicleAsWritten(s, ids, vid, Admin).value)
  {
    AsWrittenBatchRebindsEmptyCity(s, ids, vid);
    var s' := AssignMultiplePacketsToVehicleAsWritten(s, ids, vid, Admin).value;
    assert s'.packets[a] == s.packets[a];
    assert s'.vehicles[vid].destinationCity != Some(PacketCity(s'.packets[a]));
  }

  /** A packet row once taken off its vehicle. */
  function Unloaded(p: Packet): (q: Packet)
    ensures q.assignment.vehicle.None?
    ensures q.(assignment := p.assignment) == p
  {
    p.(assignment := p.assignment.(vehicle := None))
  }

  /** `unassignPacketFromVehicle`: an admin takes a packet still at the
      origin hub off its vehicle. The vehicle's load drops by exactly the
      packet's weight, and its destination city is cleared exactly when no
      other packet remains on it. */
  function UnassignPacketFromVehicle(s: Store, pid: int, caller: Role): (r: Result<Store>)
    ensures caller != Admin ==> r == Err(Forbidden)
    ensures caller == Admin && !Ready(s, pid) ==> r == Err(NotFound)
    ensures caller == Admin && Ready(s, pid) && s.packets[pid].assignment.vehicle.None? ==> r == Err(BadRequest)
    ensures r.Ok? <==> (caller == Admin && Ready(s, pid) && s.packets[pid].assignment.vehicle.Some?
                        && s.packets[pid].assignment.vehicle.value in s.vehicles)
    ensures r.Ok? ==> (r.value.packets == s.packets[pid := Unloaded(s.packets[pid])] &&
                       r.value.users == s.users && r.value.pickups == s.pickups)
    ensures r.Ok? ==> (var vid := s.packets[pid].assignment.vehicle.value;
                       var v := s.vehicles[vid];
                       r.value.vehicles == s.vehicles[vid := v.(
                         currentLoad := v.currentLoad - s.packets[pid].weight,
                         destinationCity := if AssignedTo(s.packets, vid) <= {pid} then None else v.destinationCity)])
  {
    if caller != Admin then Err(Forbidden)
    else if !Ready(s, pid) then Err(NotFound)
    else
      var p := s.packets[pid];
      if p.assignment.vehicle.None? then Err(BadRequest)
      else if p.assignment.vehicle.value !in s.vehicles then Err(NotFound)
      else
        var vid := p.assignment.vehicle.value;
        var v := s.vehicles[vid];
        var remaining := AssignedTo(s.packets, vid) - {pid};
        var v' := v.(currentLoad := v.currentLoad - p.weight);
        var v'' := if remaining == {} then v'.(destinationCity := None) else v';
        Ok(s.(packets := s.packets[pid := Unloaded(p)], vehicles := s.vehicles[vid := v'']))
  }

  /** Unloading a packet keeps every vehicle's packets bound for one city. */
  lemma UnassignKeepsCityHomogeneous(s: Store, pid: int, caller: Role)
    requires CityHomogeneous(s)
    requires UnassignPacketFromVehicle(s, pid, caller).Ok?
    ensures CityHomogeneous(UnassignPacketFromVehicle(s, pid, caller).value)
  {
    var s' := UnassignPacketFromVehicle(s, pid, caller).value;
    var vid := s.packets[pid].assignment.vehicle.value;
    forall q | q in s'.packets && s'.packets[q].assignment.vehicle.Some? && s'.packets[q].assignment.vehicle.value in s'.vehicles
      ensures s'.vehicles[s'.packets[q].assignment.vehicle.value].destinationCity == Some(PacketCity(s'.packets[q]))
    {
      assert q != pid;
      assert s'.packets[q] == s.packets[q];
      if s.packets[q].assignment.vehicle == Some(vid) {
        assert q in AssignedTo(s.packets, vid);
      }
    }
  }

  /** Unloading a packet of non-negative weight never overloads a vehicle. */
  lemma UnassignKeepsLoadWithinCapacity(s: Store, pid: int, caller: Role)
    requires LoadWithinCapacity(s)
    requires UnassignPacketFromVehicle(s, pid, caller).Ok?
    requires 0.0 <= s.packets[pid].weight
    ensures LoadWithinCapacity(UnassignPacketFromVehicle(s, pid, caller).value)
  {
  }

  /** Unassigning undoes assigning: loading an unassigned packet onto a
      vehicle and taking it off again restores the store, provided the
      vehicle's city was unbound whenever it was empty. */
  lemma AssignThenUnassign(s: Store, pid: int, vid: int)
    requires CityHomogeneous(s)
    requires AssignPacketToVehicle(s, pid, vid, Admin).Ok?
    requires s.packets[pid].assignment.vehicle.None?
    requires AssignedTo(s.packets, vid) == {} ==> s.vehicles[vid].destinationCity.None?
    ensures UnassignPacketFromVehicle(AssignPacketToVehicle(s, pid, vid, Admin).value, pid, Admin) == Ok(s)
  {
    var s1 := AssignPacketToVehicle(s, pid, vid, Admin).value;
    var p := s.packets[pid];
    var v := s.vehicles[vid];
    assert AssignedTo(s1.packets, vid) == AssignedTo(s.packets, vid) + {pid};
    if AssignedTo(s.packets, vid) != {} {
      var q := PickOne(AssignedTo(s.packets, vid));
      assert v.destinationCity == Some(PacketCity(s.packets[q]));
      assert v.destinationCity == Some(PacketCity(p));
    }
    var s2 := UnassignPacketFromVehicle(s1, pid, Admin).value;
    assert Unloaded(Loaded(p, vid)) == p;
    assert s2.packets == s.packets;
    assert s2.vehicles[vid] == v;
    assert s2.vehicles == s.vehicles;
  }

  /** Loading moves the packet: it joins the vehicle's packets and leaves
      whichever vehicle it was on. */
  lemma LoadMovesPacket(s: Store, pid: int, vid: int, city: Option<string>)
    requires pid in s.packets && vid in s.vehicles
    ensures AssignedTo(Load(s, pid, vid, city).packets, vid) == AssignedTo(s.packets, vid) + {pid}
    ensures forall w :: w != vid ==> AssignedTo(Load(s, pid, vid, city).packets, w) == AssignedTo(s.packets, w) - {pid}
  {
  }

  /** Loading a batch moves every packet of it onto the vehicle and off any
      other. */
  lemma LoadAllMovesBatch(packets: map<int, Packet>, ids: seq<int>, vid: int)
    ensures AssignedTo(LoadAll(packets, ids, vid), vid) == AssignedTo(packets, vid) + Found(ids, packets.Keys)
    ensures forall w :: w != vid ==>
      AssignedTo(LoadAll(packets, ids, vid), w) == AssignedTo(packets, w) - Found(ids, packets.Keys)
  {
  }

  /** Unloading takes the packet off its vehicle and leaves every other
      vehicle's packets as they were. */
  lemma UnassignRemovesPacket(s: Store, pid: int, caller: Role)
    requires UnassignPacketFromVehicle(s, pid, caller).Ok?
    ensures forall w :: AssignedTo(UnassignPacketFromVehicle(s, pid, caller).value.packets, w) ==
                        AssignedTo(s.packets, w) - {pid}
  {
  }

  /** A freshly created packet is ready to load: it waits at the origin hub
      on no vehicle, and any usable vehicle unbound or bound for its city
      with room for its weight takes it. */
  lemma CreatedPacketIsAssignable(s: Store, b: Booking, uuid: string, now: Time, vid: int)
    ensures var (s', id) := Lifecycle.CreatePacket(s, b, uuid, now);
            Ready(s', id) && s'.packets[id].assignment == Unassigned
    ensures var (s', id) := Lifecycle.CreatePacket(s, b, uuid, now);
            AssignPacketToVehicle(s', id, vid, Admin).Ok? <==>
              (Usable(s, vid) &&
               (s.vehicles[vid].destinationCity.None? ||
                s.vehicles[vid].destinationCity == Some(DestinationCity(b.route.destinationAddress))) &&
               s.vehicles[vid].currentLoad + b.weight <= s.vehicles[vid].capacity)
  {
    var (s', id) := Lifecycle.CreatePacket(s, b, uuid, now);
    assert s'.packets[id] == NewPacket(b, uuid, Some(AtOriginHub), now);
  }

  /** One accepted as-written assignment, spelled out as the write it performs. */
  lemma AsWrittenAccepts(s: Store, pid: int, vid: int, city: string)
    requires Ready(s, pid) && Usable(s, vid) && PacketCity(s.packets[pid]) == city
    requires !Truthy(s.vehicles[vid].destinationCity) || s.vehicles[vid].destinationCity == Some(city)
    requires s.vehicles[vid].currentLoad + s.packets[pid].weight <= s.vehicles[vid].capacity
    ensures AssignPacketToVehicleAsWritten(s, pid, vid, Admin) == Ok(Load(s, pid, vid, Some(city)))
  {
  }

  /** The service's own check can mix cities on one vehicle: once a packet
      whose city is `""` is loaded on an unbound vehicle, a second packet
      bound elsewhere is accepted and rebinds the vehicle, leaving the first
      packet on a vehicle bound for another city. */
  lemma AsWrittenRebindsEmptyCity(s: Store, a: int, b: int, vid: int)
    requires a != b && Ready(s, a) && Ready(s, b) && Usable(s, vid)
    requires s.vehicles[vid].destinationCity.None?
    requires PacketCity(s.packets[a]) == "" && PacketCity(s.packets[b]) != ""
    requires 0.0 <= s.packets[b].weight
    requires s.vehicles[vid].currentLoad + s.packets[a].weight + s.packets[b].weight <= s.vehicles[vid].capacity
    ensures AssignPacketToVehicleAsWritten(s, a, vid, Admin).Ok?
    ensures var s1 := AssignPacketToVehicleAsWritten(s, a, vid, Admin).value;
            AssignPacketToVehicleAsWritten(s1, b, vid, Admin).Ok? &&
            !CityHomogeneous(AssignPacketToVehicleAsWritten(s1, b, vid, Admin).value)
  {
    var s1 := Load(s, a, vid, Some(""));
    AsWrittenAccepts(s, a, vid, "");
    assert s1.packets[b] == s.packets[b];
    assert s1.vehicles[vid].destinationCity == Some("");
    assert Ready(s1, b) && Usable(s1, vid);
    var s2 := Load(s1, b, vid, Some(PacketCity(s.packets[b])));
    AsWrittenAccepts(s1, b, vid, PacketCity(s.packets[b]));
    assert s2.packets[a] == s1.packets[a];
    assert s2.vehicles[vid].destinationCity != Some(PacketCity(s2.packets[a]));
  }

  /** Two packets waiting at the origin hub and an empty vehicle: the first
      packet's address ends in a comma. */
  function MixedCitiesStore(): Store {
    Store(map[1 := ExamplePacket("Chilomoni,"), 2 := ExamplePacket("Area 3, Lilongwe")],
          map[7 := NewVehicle("MW-1", 100.0, "Blantyre")], map[], map[])
  }

  /** No packet of the example store is on a vehicle yet. */
  lemma MixedCitiesStoreStartsEmpty()
    ensures forall q :: q in MixedCitiesStore().packets ==> MixedCitiesStore().packets[q].assignment.vehicle.None?
    ensures CityHomogeneous(MixedCitiesStore())
  {
    var s := MixedCitiesStore();
    forall q | q in s.packets
      ensures s.packets[q].assignment.vehicle.None?
    {
      assert q == 1 || q == 2;
    }
  }

  /** Witness: the destination cities of the two example packets are `""` and `"Lilongwe"`. */
  lemma ExampleCities()
    ensures PacketCity(ExamplePacket("Chilomoni,")) == ""
    ensures PacketCity(ExamplePacket("Area 3, Lilongwe")) == "Lilongwe"
  {
    DestinationCityOfAddress("Chilomoni", "");
    assert "Chilomoni," == "Chilomoni" + [','] + "";
    assert "Area 3, Lilongwe" == "Area 3" + [','] + " Lilongwe";
    Text.LastSegmentAfterComma("Area 3", " Lilongwe");
    Text.TrimOfTrimmed("Lilongwe");
    assert Text.Trim(" Lilongwe") == "Lilongwe";
  }

  /** A concrete instance: the addresses "Chilomoni," and "Area 3, Lilongwe"
      end up on one vehicle bound for Lilongwe. */
  lemma AsWrittenMixesCities()
    ensures CityHomogeneous(MixedCitiesStore())
    ensures AssignPacketToVehicleAsWritten(MixedCitiesStore(), 1, 7, Admin).Ok?
    ensures var s1 := AssignPacketToVehicleAsWritten(MixedCitiesStore(), 1, 7, Admin).value;
            AssignPacketToVehicleAsWritten(s1, 2, 7, Admin).Ok? &&
            !CityHomogeneous(AssignPacketToVehicleAsWritten(s1, 2, 7, Admin).value)
  {
    var s := MixedCitiesStore();
    MixedCitiesStoreStartsEmpty();
    ExampleCities();
    assert PacketCity(s.packets[1]) == "" && PacketCity(s.packets[2]) == "Lilongwe";
    AsWrittenRebindsEmptyCity(s, 1, 2, 7);
  }

  /** A packet waiting at the origin hub, for the example above. */
  function ExamplePacket(address: string): (p: Packet)
    ensures p.status == AtOriginHub && p.route.destinationAddress == address && p.weight == 10.0
    ensures p.assignment.vehicle.None?
  {
    var who := Contact("Chikondi", "c@example.org", "0999000000");
    var b := Booking(10.0, Details("parcel", "documents", "", HomeDelivery, who, who, None, None),
                     Route(None, "Limbe", None, address, None, None));
    NewPacket(b, "3f2a9c1e-0000-4000-8000-000000000000", Some(AtOriginHub), 0)
  }
}

=== FILE: dispatch.dfy ===
/** The two dispatch operations of the packet service: a batch of packets
    handed to a driver and a vehicle in one go, and a loaded vehicle sent on
    its way with everything assigned to it. */
module Dispatch {
  import opened Results
  import opened Entities
  import opened Allocator

  /** The packet row a dispatch writes: `in_transit`, confirmed by its
      origin, with the dispatch stamped. */
  function Dispatched(p: Packet, now: Time): (q: Packet)
    ensures q.status == InTransit && q.confirmedByOrigin && q.stamps.dispatchedAt == Some(now)
    ensures q.route == p.route && q.assignment == p.assignment && q.weight == p.weight
  {
    p.(status := InTransit, confirmedByOrigin := true, stamps := p.stamps.(dispatchedAt := Some(now)))
  }

  /** Every id names a packet, and no id is repeated. */
  predicate AllPresent(s: Store, ids: seq<int>) {
    Distinct(ids) && forall i :: 0 <= i < |ids| ==> ids[i] in s.packets
  }

  /** The user exists and has the driver role. */
  predicate IsDriver(s: Store, driver: int) {
    driver in s.users && s.users[driver].role == Driver
  }

  /** The packet rows after a batch dispatch: each packet of the batch is
      dispatched and bound to the driver and the vehicle. */
  function DispatchAll(packets: map<int, Packet>, ids: seq<int>, driver: int, vid: int, now: Time): (r: map<int, Packet>)
    ensures r.Keys == packets.Keys
    ensures forall q :: q in packets && q !in ids ==> r[q] == packets[q]
    ensures forall q :: q in packets && q in ids ==>
              r[q].status == InTransit && r[q].confirmedByOrigin && r[q].stamps.dispatchedAt == Some(now) &&
              r[q].assignment.driver == Some(driver) && r[q].assignment.vehicle == Some(vid) &&
              r[q].route == packets[q].route && r[q].weight == packets[q].weight
    ensures forall q :: q in packets && q in ids ==>
              r[q].assignment.(driver := packets[q].assignment.driver, vehicle := packets[q].assignment.vehicle) ==
              packets[q].assignment
  {
    map q | q in packets ::
      if q in ids then
        var d := Dispatched(packets[q], now);
        d.(assignment := d.assignment.(driver := Some(driver), vehicle := Some(vid)))
      else packets[q]
  }

  /** `dispatchBatch`: every check comes before any write, so the batch goes
      out whole or not at all. A missing or repeated packet, a user who is
      not a driver, or an inactive or in-maintenance vehicle is NotFound; a
      batch heavier than the vehicle's capacity (its current load is not
      counted) or holding a packet that is not at the origin hub is a
      BadRequest. Naming a driver whom another vehicle already names breaks
      the unique index on the vehicle's driver column, so the vehicle's save
      fails, before any packet is written. On success every packet is
      `in_transit` with the driver and the vehicle set, and the vehicle
      records the driver; the vehicle's load is not touched. */
  function DispatchBatch(s: Store, ids: seq<int>, driver: int, vid: int, now: Time): (r: Result<Store>)
    ensures !AllPresent(s, ids) ==> r == Err(NotFound)
    ensures AllPresent(s, ids) && !(IsDriver(s, driver) && Usable(s, vid)) ==> r == Err(NotFound)
    ensures (AllPresent(s, ids) && IsDriver(s, driver) && Usable(s, vid) &&
             TotalWeight(s.packets, ids) > s.vehicles[vid].capacity) ==> r == Err(BadRequest)
    ensures r.Ok? <==> (AllPresent(s, ids) && IsDriver(s, driver) && Usable(s, vid)
                        && TotalWeight(s.packets, ids) <= s.vehicles[vid].capacity
                        && (forall i :: 0 <= i < |ids| ==> s.packets[ids[i]].status == AtOriginHub)
                        && DrivenBy(s, driver) <= {vid})
    ensures (AllPresent(s, ids) && IsDriver(s, driver) && Usable(s, vid)
             && TotalWeight(s.packets, ids) <= s.vehicles[vid].capacity
             && (forall i :: 0 <= i < |ids| ==> s.packets[ids[i]].status == AtOriginHub)
             && !(DrivenBy(s, driver) <= {vid})) ==> r == Err(Failed)
    ensures r.Ok? ==> (r.value.packets == DispatchAll(s.packets, ids, driver, vid, now) &&
                       r.value.users == s.users && r.value.pickups == s.pickups)
    ensures r.Ok? ==> r.value.vehicles == s.vehicles[vid := s.vehicles[vid].(assignedDriver := Some(driver))]
  {
    FoundAll(ids, s.packets.Keys);
    if |Found(ids, s.packets.Keys)| != |ids| then Err(NotFound)
    else if !IsDriver(s, driver) then Err(NotFound)
    else if !Usable(s, vid) then Err(NotFound)
    else if TotalWeight(s.packets, ids) > s.vehicles[vid].capacity then Err(BadRequest)
    else if exists i :: 0 <= i < |ids| && s.packets[ids[i]].status != AtOriginHub then Err(BadRequest)
    else if !(DrivenBy(s, driver) <= {vid}) then Err(Failed)
    else
      Ok(s.(packets := DispatchAll(s.packets, ids, driver, vid, now),
            vehicles := s.vehicles[vid := s.vehicles[vid].(assignedDriver := Some(driver))]))
  }

  /** A successful batch dispatch moves each of its packets exactly one step,
      from the origin hub into transit, and nothing else. */
  lemma DispatchBatchMovesOneStep(s: Store, ids: seq<int>, driver: int, vid: int, now: Time)
    requires DispatchBatch(s, ids, driver, vid, now).Ok?
    ensures Forward(s, DispatchBatch(s, ids, driver, vid, now).value)
    ensures SingleSteps(s, DispatchBatch(s, ids, driver, vid, now).value)
    ensures forall i :: 0 <= i < |ids| ==> DispatchBatch(s, ids, driver, vid, now).value.packets[ids[i]].status == InTransit
  {
    var s' := DispatchBatch(s, ids, driver, vid, now).value;
    forall q | q in s.packets
      ensures Rank(s.packets[q].status) <= Rank(s'.packets[q].status)
      ensures s'.packets[q].status != s.packets[q].status ==>
                Rank(s'.packets[q].status) == Rank(s.packets[q].status) + 1
    {
      if q in ids {
        var k :| 0 <= k < |ids| && ids[k] == q;
        assert s.packets[ids[k]].status == AtOriginHub;
      }
    }
  }

  /** A successful batch dispatch keeps the unique index satisfied, and the
      driver is then read back as driving exactly the dispatching vehicle. */
  lemma DispatchBatchKeepsDriverUnique(s: Store, ids: seq<int>, driver: int, vid: int, now: Time)
    requires DriverUnique(s)
    requires DispatchBatch(s, ids, driver, vid, now).Ok?
    ensures DriverUnique(DispatchBatch(s, ids, driver, vid, now).value)
    ensures DrivenBy(DispatchBatch(s, ids, driver, vid, now).value, driver) == {vid}
  {
    var s' := DispatchBatch(s, ids, driver, vid, now).value;
    forall v, w | v in s'.vehicles && w in s'.vehicles && s'.vehicles[v].assignedDriver.Some? &&
                  s'.vehicles[v].assignedDriver == s'.vehicles[w].assignedDriver
      ensures v == w
    {
      if v != vid && w != vid {
        assert s.vehicles[v].assignedDriver == s'.vehicles[v].assignedDriver;
      }
    }
  }

  /** `dispatchVehicle`: an admin sends an active vehicle on its way. A
      vehicle with nothing assigned is a BadRequest; otherwise every packet
      on it is dispatched, whatever its status, and the vehicle is
      `in_transit`. */
  function DispatchVehicle(s: Store, vid: int, caller: Role, now: Time): (r: Result<Store>)
    ensures caller != Admin ==> r == Err(Forbidden)
    ensures caller == Admin && !Usable(s, vid) ==> r == Err(NotFound)
    ensures caller == Admin && Usable(s, vid) && AssignedTo(s.packets, vid) == {} ==> r == Err(BadRequest)
    ensures r.Ok? <==> caller == Admin && Usable(s, vid) && AssignedTo(s.packets, vid) != {}
    ensures r.Ok? ==> r.value.packets.Keys == s.packets.Keys
    ensures r.Ok? ==> forall q :: q in s.packets ==>
      r.value.packets[q] == (if q in AssignedTo(s.packets, vid) then Dispatched(s.packets[q], now) else s.packets[q])
    ensures r.Ok? ==> (r.value.vehicles == s.vehicles[vid := s.vehicles[vid].(status := VehicleInTransit)] &&
                       r.value.users == s.users && r.value.pickups == s.pickups)
  {
    if caller != Admin then Err(Forbidden)
    else if !Usable(s, vid) then Err(NotFound)
    else
      var onBoard := AssignedTo(s.packets, vid);
      if onBoard == {} then Err(BadRequest)
      else
        Ok(s.(packets := map q | q in s.packets :: if q in onBoard then Dispatched(s.packets[q], now) else s.packets[q],
              vehicles := s.vehicles[vid := s.vehicles[vid].(status := VehicleInTransit)]))
  }

  /** When everything on the vehicle waits at the origin hub, dispatching it
      moves each of those packets exactly one step forward. */
  lemma DispatchVehicleFromHubMovesOneStep(s: Store, vid: int, caller: Role, now: Time)
    requires DispatchVehicle(s, vid, caller, now).Ok?
    requires forall q :: q in AssignedTo(s.packets, vid) ==> s.packets[q].status == AtOriginHub
    ensures Forward(s, DispatchVehicle(s, vid, caller, now).value)
    ensures SingleSteps(s, DispatchVehicle(s, vid, caller, now).value)
  {
  }

  /** With no per-packet status check, a packet already past transit that is
      still on the vehicle is sent back to `in_transit`. */
  lemma DispatchVehicleCanMoveBack(s: Store, vid: int, caller: Role, now: Time, q: int)
    requires DispatchVehicle(s, vid, caller, now).Ok?
    requires q in AssignedTo(s.packets, vid) && Rank(s.packets[q].status) > Rank(InTransit)
    ensures !Forward(s, DispatchVehicle(s, vid, caller, now).value)
  {
    assert DispatchVehicle(s, vid, caller, now).value.packets[q].status == InTransit;
  }

  /** Dispatching a vehicle leaves every packet on the vehicle it was on, so
      vehicles stay bound for one city each. */
  lemma DispatchVehicleKeepsCityHomogeneous(s: Store, vid: int, caller: Role, now: Time)
    requires CityHomogeneous(s)
    requires DispatchVehicle(s, vid, caller, now).Ok?
    ensures CityHomogeneous(DispatchVehicle(s, vid, caller, now).value)
  {
    var s' := DispatchVehicle(s, vid, caller, now).value;
    forall q | q in s'.packets && s'.packets[q].assignment.vehicle.Some? && s'.packets[q].assignment.vehicle.value in s'.vehicles
      ensures s'.vehicles[s'.packets[q].assignment.vehicle.value].destinationCity == Some(PacketCity(s'.packets[q]))
    {
      assert s'.packets[q].route == s.packets[q].route;
      assert s'.packets[q].assignment == s.packets[q].assignment;
    }
  }
}

=== FILE: entities.dfy ===
/** The persistent records of the courier system (packets, vehicles, users,
    pickup requests) as immutable values, the packet status chain, and the
    defaults a freshly inserted row takes. Relations between records are
    held as ids; a vehicle's assigned packets are not stored on the vehicle
    but derived from the packets that name it. */
module Entities {
  import opened Results
  import Text

  /** A point in time in milliseconds; the clock is an input of every operation that stamps one. */
  type Time = int

  /** The packet status column: exactly eight values, in lifecycle order. */
  datatype Status =
    | Pending
    | Collected
    | AtOriginHub
    | InTransit
    | AtDestinationHub
    | OutForDelivery
    | Delivered
    | Received

  /** The status a packet row takes when none is given. */
  const DefaultStatus: Status := Pending

  /** Position of a status along the lifecycle chain. */
  function Rank(s: Status): (r: nat)
    ensures r < 8
  {
    match s
    case Pending => 0
    case Collected => 1
    case AtOriginHub => 2
    case InTransit => 3
    case AtDestinationHub => 4
    case OutForDelivery => 5
    case Delivered => 6
    case Received => 7
  }

  /** The status at a given position of the chain. */
  function StatusAt(n: nat): (s: Status)
    requires n < 8
    ensures Rank(s) == n
  {
    if n == 0 then Pending
    else if n == 1 then Collected
    else if n == 2 then AtOriginHub
    else if n == 3 then InTransit
    else if n == 4 then AtDestinationHub
    else if n == 5 then OutForDelivery
    else if n == 6 then Delivered
    else Received
  }

  /** Positions identify statuses: the chain has no repeated entry. */
  lemma RankInjective(s: Status, t: Status)
    ensures Rank(s) == Rank(t) <==> s == t
    ensures StatusAt(Rank(s)) == s
  {
  }

  /** The next status along the chain; `received` is terminal. */
  function Successor(s: Status): (r: Option<Status>)
    ensures r.None? <==> s == Received
    ensures r.Some? ==> Rank(r.value) == Rank(s) + 1
  {
    if s == Received then None else Some(StatusAt(Rank(s) + 1))
  }

  /** The literal stored in the enum column for each status. */
  function StatusName(s: Status): string {
    match s
    case Pending => "pending"
    case Collected => "collected"
    case AtOriginHub => "at_origin_hub"
    case InTransit => "in_transit"
    case AtDestinationHub => "at_destination_hub"
    case OutForDelivery => "out_for_delivery"
    case Delivered => "delivered"
    case Received => "received"
  }

  /** Reads a column literal back; only the eight enum literals are accepted. */
  function ParseStatus(name: string): (r: Option<Status>)
    ensures r.Some? ==> StatusName(r.value) == name
    ensures forall s: Status :: StatusName(s) == name ==> r == Some(s)
  {
    if name == "pending" then Some(Pending)
    else if name == "collected" then Some(Collected)
    else if name == "at_origin_hub" then Some(AtOriginHub)
    else if name == "in_transit" then Some(InTransit)
    else if name == "at_destination_hub" then Some(AtDestinationHub)
    else if name == "out_for_delivery" then Some(OutForDelivery)
    else if name == "delivered" then Some(Delivered)
    else if name == "received" then Some(Received)
    else None
  }

  /** `delivery_type`: collected by the receiver at the hub, or delivered home. */
  datatype DeliveryType = PickupAtHub | HomeDelivery

  /** A latitude/longitude pair in degrees. */
  datatype Coordinates = Coordinates(lat: real, lng: real)

  /** Name, e-mail and phone of a sender or receiver. */
  datatype Contact = Contact(name: string, email: string, phone: string)

  /** What the sender declared about a packet. */
  datatype Details = Details(
    description: string,
    category: string,
    instructions: string,
    deliveryType: DeliveryType,
    sender: Contact,
    receiver: Contact,
    pickupWindowStart: Option<Time>,
    pickupWindowEnd: Option<Time>)

  /** Where a packet comes from and goes to. */
  datatype Route = Route(
    originCity: Option<string>,
    originAddress: string,
    originCoordinates: Option<Coordinates>,
    destinationAddress: string,
    destinationCoordinates: Option<Coordinates>,
    destinationHub: Option<string>)

  /** The users and vehicle a packet is currently assigned to, by id. */
  datatype Assignment = Assignment(
    pickupAgent: Option<int>,
    driver: Option<int>,
    vehicle: Option<int>,
    deliveryAgent: Option<int>)

  /** One nullable timestamp per lifecycle milestone, plus the creation time. */
  datatype Milestones = Milestones(
    createdAt: Time,
    collectedAt: Option<Time>,
    originHubConfirmedAt: Option<Time>,
    dispatchedAt: Option<Time>,
    destinationHubConfirmedAt: Option<Time>,
    outForDeliveryAt: Option<Time>,
    deliveredAt: Option<Time>)

  /** Proof of delivery: the signature image and the presented id number. */
  datatype Proof = Proof(signature: Option<string>, nationalId: Option<string>)

  /** A packet row. */
  datatype Packet = Packet(
    trackingId: string,
    status: Status,
    weight: real,
    details: Details,
    route: Route,
    assignment: Assignment,
    stamps: Milestones,
    confirmedByOrigin: bool,
    isPaid: bool,
    proof: Proof)

  /** The fields a booking supplies when a packet row is created. */
  datatype Booking = Booking(weight: real, details: Details, route: Route)

  /** Nobody and no vehicle assigned. */
  const Unassigned: Assignment := Assignment(None, None, None, None)

  /** The tracking code generated before a packet is inserted: `TRK-`
      followed by the first eight characters of a uuid, upper-cased. */
  function TrackingId(uuid: string): (r: string)
    ensures Text.StartsWith(r, "TRK-")
    ensures |r| == 4 + (if |uuid| < 8 then |uuid| else 8)
    ensures forall i :: 4 <= i < |r| ==> r[i] == Text.Upper(uuid[i - 4])
  {
    var head := if |uuid| < 8 then uuid else uuid[..8];
    "TRK-" + Text.UpperString(head)
  }

  /** A packet row as inserted: booking data, the given status (the column
      default when none is given), and every flag, timestamp and assignment
      at its default. */
  function NewPacket(b: Booking, uuid: string, status: Option<Status>, now: Time): (p: Packet)
    ensures p.status == (if status.Some? then status.value else Pending)
    ensures Text.StartsWith(p.trackingId, "TRK-")
    ensures !p.confirmedByOrigin && !p.isPaid
    ensures p.stamps.createdAt == now
    ensures p.stamps.collectedAt.None? && p.stamps.originHubConfirmedAt.None? && p.stamps.dispatchedAt.None?
    ensures p.stamps.destinationHubConfirmedAt.None? && p.stamps.outForDeliveryAt.None? && p.stamps.deliveredAt.None?
    ensures p.assignment == Unassigned
    ensures p.proof.signature.None? && p.proof.nationalId.None?
    ensures p.weight == b.weight && p.details == b.details && p.route == b.route
  {
    Packet(
      TrackingId(uuid),
      if status.Some? then status.value else DefaultStatus,
      b.weight, b.details, b.route, Unassigned,
      Milestones(now, None, None, None, None, None, None),
      false, false, Proof(None, None))
  }

  /** The `role` of a user. */
  datatype Role = Admin | Agent | Driver | Customer

  /** A user row. The vehicle a driver drives is not a column of its own:
      it is read back through the vehicle's `assignedDriver`, see `DrivenBy`. */
  datatype User = User(role: Role, city: string, email: string)

  /** The vehicle `status` column: `available` or `in_transit`. */
  datatype VehicleStatus = VehicleAvailable | VehicleInTransit

  /** A vehicle row. `destinationCity` is bound by the first packet loaded. */
  datatype Vehicle = Vehicle(
    licensePlate: string,
    capacity: real,
    isActive: bool,
    isInMaintenance: bool,
    currentCity: string,
    destinationCity: Option<string>,
    currentLoad: real,
    status: VehicleStatus,
    assignedDriver: Option<int>)

  /** A vehicle row as inserted: every column with a default takes it. */
  function NewVehicle(plate: string, capacity: real, city: string): (v: Vehicle)
    ensures v.currentLoad == 0.0 && v.status == VehicleAvailable
    ensures v.isActive && !v.isInMaintenance
    ensures v.destinationCity.None? && v.assignedDriver.None?
    ensures v.capacity == capacity && v.currentCity == city
  {
    Vehicle(plate, capacity, true, false, city, None, 0.0, VehicleAvailable, None)
  }

  /** A pickup request's `status`: `pending`, `assigned`, or handed in at the hub. */
  datatype RequestStatus = RequestPending | RequestAssigned | RequestAtOriginHub

  /** A customer's pickup booking, linked one-to-one with the packet it spawned. */
  datatype PickupRequest = PickupRequest(
    customer: int,
    pickupAddress: string,
    destinationAddress: string,
    status: RequestStatus,
    assignedAgent: Option<int>,
    packet: Option<int>)

  /** The repository contents: one map from primary key to row per table. */
  datatype Store = Store(
    packets: map<int, Packet>,
    vehicles: map<int, Vehicle>,
    users: map<int, User>,
    pickups: map<int, PickupRequest>)

  /** The vehicles whose `assignedDriver` names the user: the user's
      `assignedVehicle`, which is the inverse side of the relation. */
  function DrivenBy(s: Store, d: int): (r: set<int>)
    ensures forall v :: v in r <==> v in s.vehicles && s.vehicles[v].assignedDriver == Some(d)
  {
    set v | v in s.vehicles && s.vehicles[v].assignedDriver == Some(d)
  }

  /** The unique index on the vehicle's driver column: no driver is named
      by two vehicles. */
  predicate DriverUnique(s: Store) {
    forall v, w ::
      (v in s.vehicles && w in s.vehicles && s.vehicles[v].assignedDriver.Some? &&
       s.vehicles[v].assignedDriver == s.vehicles[w].assignedDriver) ==> v == w
  }

  /** There is a largest key in every non-empty set of keys. */
  lemma {:induction false} MaxExists(keys: set<int>)
    requires keys != {}
    ensures exists k :: k in keys && forall j :: j in keys ==> j <= k
    decreases |keys|
  {
    var x := PickOne(keys);
    var rest := keys - {x};
    if rest == {} {
      forall j | j in keys
        ensures j <= x
      {
        assert j == x || j in rest;
      }
    } else {
      MaxExists(rest);
      var m :| m in rest && forall j :: j in rest ==> j <= m;
      var top := if x <= m then m else x;
      forall j | j in keys
        ensures j <= top
      {
        if j != x {
          assert j in rest;
        }
      }
      assert top in keys;
    }
  }

  /** Some element of a non-empty set. */
  lemma PickOne<T>(keys: set<T>) returns (x: T)
    requires keys != {}
    ensures x in keys
  {
    if forall y :: y !in keys {
      assert false;
    }
    x :| x in keys;
  }

  /** The largest key in use. */
  function MaxKey(keys: set<int>): (k: int)
    requires keys != {}
    ensures k in keys && forall j :: j in keys ==> j <= k
  {
    MaxExists(keys);
    var k :| k in keys && forall j :: j in keys ==> j <= k;
    k
  }

  /** The key a serial primary-key column hands to the next inserted row:
      positive, and above every key in use. */
  function FreshKey<T>(m: map<int, T>): (k: int)
    ensures k > 0 && k !in m
    ensures forall j :: j in m ==> j < k
  {
    if m.Keys == {} then 1
    else
      var top := MaxKey(m.Keys);
      if top < 1 then 1 else top + 1
  }

  /** `s2` differs from `s1` at most in the packet row `id`: no other row of
      any table changed and no packet row was added or removed. */
  predicate OnlyPacketChanged(s1: Store, s2: Store, id: int) {
    && s2.vehicles == s1.vehicles
    && s2.users == s1.users
    && s2.pickups == s1.pickups
    && s2.packets.Keys == s1.packets.Keys
    && forall q :: q in s1.packets && q != id ==> s2.packets[q] == s1.packets[q]
  }

  /** No packet of `s1` is further back in the chain in `s2`. */
  predicate Forward(s1: Store, s2: Store) {
    && s1.packets.Keys <= s2.packets.Keys
    && forall q :: q in s1.packets ==> Rank(s1.packets[q].status) <= Rank(s2.packets[q].status)
  }

  /** Every packet whose status differs between `s1` and `s2` moved exactly
      one step along the chain. */
  predicate SingleSteps(s1: Store, s2: Store) {
    forall q :: q in s1.packets && q in s2.packets && s2.packets[q].status != s1.packets[q].status ==>
      Rank(s2.packets[q].status) == Rank(s1.packets[q].status) + 1
  }

  /** Moving forward is transitive. */
  lemma ForwardTransitive(s1: Store, s2: Store, s3: Store)
    requires Forward(s1, s2) && Forward(s2, s3)
    ensures Forward(s1, s3)
  {
  }
}

=== FILE: fleet.dfy ===
/** The vehicle service: pairing a driver with a vehicle, and listing the
    vehicles available in a city. The vehicle owns the relation: its
    `assignedDriver` column is the only one written, and a driver's vehicle
    is read back from it (`DrivenBy`). */
module Fleet {
  import opened Results
  import opened Entities
  import opened Allocator
  import Dispatch

  /** `assignVehicleToDriver`: an admin pairs a vehicle with a user who has
      the driver role. The driver's previous vehicle, if another one, loses
      its driver; then the vehicle names the driver, replacing whoever drove
      it before. Clearing the previous driver's side writes no column. */
  function AssignVehicleToDriver(s: Store, vid: int, did: int, caller: Role): (r: Result<Store>)
    ensures caller != Admin ==> r == Err(Forbidden)
    ensures caller == Admin && !(vid in s.vehicles && Dispatch.IsDriver(s, did)) ==> r == Err(NotFound)
    ensures r.Ok? <==> caller == Admin && vid in s.vehicles && Dispatch.IsDriver(s, did)
    ensures r.Ok? ==> (r.value.packets == s.packets && r.value.pickups == s.pickups &&
                       r.value.users == s.users && r.value.vehicles.Keys == s.vehicles.Keys)
    ensures r.Ok? ==> DrivenBy(r.value, did) == {vid}
    ensures r.Ok? ==> forall d :: d != did ==> DrivenBy(r.value, d) == DrivenBy(s, d) - {vid}
    ensures r.Ok? ==> forall v :: v in s.vehicles && v != vid ==>
                        r.value.vehicles[v] == (if v in DrivenBy(s, did) then s.vehicles[v].(assignedDriver := None)
                                                else s.vehicles[v])
  {
    if caller != Admin then Err(Forbidden)
    else if vid !in s.vehicles then Err(NotFound)
    else if !Dispatch.IsDriver(s, did) then Err(NotFound)
    else
      Ok(s.(vehicles := map v | v in s.vehicles ::
              if v == vid then s.vehicles[v].(assignedDriver := Some(did))
              else if s.vehicles[v].assignedDriver == Some(did) then s.vehicles[v].(assignedDriver := None)
              else s.vehicles[v]))
  }

  /** Pairing keeps the unique index satisfied, and the previous driver of
      the vehicle is left driving nothing. */
  lemma AssignVehicleToDriverKeepsUnique(s: Store, vid: int, did: int, caller: Role)
    requires DriverUnique(s)
    requires AssignVehicleToDriver(s, vid, did, caller).Ok?
    ensures DriverUnique(AssignVehicleToDriver(s, vid, did, caller).value)
    ensures var previous := s.vehicles[vid].assignedDriver;
            previous.Some? && previous.value != did ==>
              DrivenBy(AssignVehicleToDriver(s, vid, did, caller).value, previous.value) == {}
  {
    var s' := AssignVehicleToDriver(s, vid, did, caller).value;
    forall v, w | v in s'.vehicles && w in s'.vehicles && s'.vehicles[v].assignedDriver.Some? &&
                  s'.vehicles[v].assignedDriver == s'.vehicles[w].assignedDriver
      ensures v == w
    {
      if v != vid && w != vid {
        assert s.vehicles[v].assignedDriver == s'.vehicles[v].assignedDriver;
        assert s.vehicles[w].assignedDriver == s'.vehicles[w].assignedDriver;
      }
    }
    var previous := s.vehicles[vid].assignedDriver;
    if previous.Some? && previous.value != did {
      assert DrivenBy(s, previous.value) == {vid};
    }
  }

  /** Re-pairing a driver with the vehicle it already drives changes
      nothing, as long as no other vehicle names that driver. */
  lemma AssignSamePairChangesNothing(s: Store, vid: int, did: int)
    requires DriverUnique(s)
    requires vid in s.vehicles && Dispatch.IsDriver(s, did)
    requires s.vehicles[vid].assignedDriver == Some(did)
    ensures AssignVehicleToDriver(s, vid, did, Admin) == Ok(s)
  {
    var s' := AssignVehicleToDriver(s, vid, did, Admin).value;
    assert s'.vehicles == s.vehicles;
  }

  /** Where `dispatchBatch` succeeds it leaves the vehicle rows exactly as
      pairing the driver with the vehicle would. */
  lemma DispatchBatchPairsAsAssignDoes(s: Store, ids: seq<int>, did: int, vid: int, now: Time)
    requires Dispatch.DispatchBatch(s, ids, did, vid, now).Ok?
    ensures AssignVehicleToDriver(s, vid, did, Admin).Ok?
    ensures Dispatch.DispatchBatch(s, ids, did, vid, now).value.vehicles ==
            AssignVehicleToDriver(s, vid, did, Admin).value.vehicles
  {
    var a := AssignVehicleToDriver(s, vid, did, Admin).value;
    var b := Dispatch.DispatchBatch(s, ids, did, vid, now).value;
    forall v | v in s.vehicles
      ensures a.vehicles[v] == b.vehicles[v]
    {
      if v != vid {
        assert v !in DrivenBy(s, did);
      }
    }
  }

  /** The vehicles available in a city: active, not in maintenance, and
      currently there. */
  function AvailableIn(s: Store, city: string): (r: set<int>)
    ensures forall v :: v in r <==> Usable(s, v) && s.vehicles[v].currentCity == city
  {
    set v | v in s.vehicles && s.vehicles[v].isActive && !s.vehicles[v].isInMaintenance
                            && s.vehicles[v].currentCity == city
  }

  /** `getVehiclesByCity`: the available vehicles of the city; none at all
      is NotFound. */
  function GetVehiclesByCity(s: Store, city: string): (r: Result<set<int>>)
    ensures r.Ok? <==> exists v :: Usable(s, v) && s.vehicles[v].currentCity == city
    ensures r.Err? ==> r.error == NotFound
    ensures r.Ok? ==> r.value != {} && forall v :: v in r.value <==> Usable(s, v) && s.vehicles[v].currentCity == city
  {
    var found := AvailableIn(s, city);
    if found == {} then Err(NotFound)
    else
      assert exists v :: Usable(s, v) && s.vehicles[v].currentCity == city by {
        var v := PickOne(found);
        assert Usable(s, v) && s.vehicles[v].currentCity == city;
      }
      Ok(found)
  }

  /** The city listing is the assignment's own vehicle check: for a vehicle
      in the city, unbound, with room for a packet waiting at the origin
      hub, the vehicle takes the packet exactly when the listing shows it. */
  lemma ListedIffAssignable(s: Store, city: string, vid: int, pid: int)
    requires vid in s.vehicles && s.vehicles[vid].currentCity == city
    requires s.vehicles[vid].destinationCity.None?
    requires Ready(s, pid) && s.vehicles[vid].currentLoad + s.packets[pid].weight <= s.vehicles[vid].capacity
    ensures vid in AvailableIn(s, city) <==> AssignPacketToVehicle(s, pid, vid, Admin).Ok?
    ensures (GetVehiclesByCity(s, city).Ok? && vid in GetVehiclesByCity(s, city).value) <==>
            AssignPacketToVehicle(s, pid, vid, Admin).Ok?
  {
  }
}

=== FILE: gates.dfy ===
/** The checks the packet controller makes before it calls the service:
    numeric path parameters, the weight of a weight update, access to a
    city, and the state a packet or pickup request must be in before a
    notification mail is sent. Path parameters arrive already converted by
    `Number(...)` or `parseInt(...)`, as a `Num`. */
module Gates {
  import opened Results
  import opened Entities
  import Lifecycle
  import Pickup
  import Allocator

  /** The row a converted number selects: an integral value selects the row
      with that key; `NaN` or a fraction selects no row. */
  function KeyOf(n: Num): (r: Option<int>)
    ensures r.Some? <==> n.Finite? && n.value == n.value.Floor as real
    ensures r.Some? ==> r.value as real == n.value
  {
    if n.Finite? && n.value == n.value.Floor as real then Some(n.value.Floor) else None
  }

  /** The weight check of `updateWeight` as written: `weight <= 0` is false
      for a missing (undefined) or `NaN` weight, so those pass. */
  function UpdateWeightGateAsWritten(id: Num, weight: Option<Num>): (r: Result<Option<Num>>)
    ensures id == NaN ==> r == Err(BadRequest)
    ensures r.Err? ==> r.error == BadRequest
    ensures r.Ok? <==> id != NaN && !(weight.Some? && weight.value.Finite? && weight.value.value <= 0.0)
    ensures r.Ok? ==> r.value == weight
  {
    if id == NaN then Err(BadRequest)
    else if weight.Some? && weight.value.Finite? && weight.value.value <= 0.0 then Err(BadRequest)
    else Ok(weight)
  }

  /** Witness: the same gate as written lets a request with no weight, or a
      weight that is not a number, through to the service. */
  lemma AsWrittenWeightGateAdmitsNoWeight()
    ensures UpdateWeightGateAsWritten(Finite(1.0), None) == Ok(None)
    ensures UpdateWeightGateAsWritten(Finite(1.0), Some(NaN)) == Ok(Some(NaN))
    ensures UpdateWeightGate(Finite(1.0), None) == Err(BadRequest)
    ensures UpdateWeightGate(Finite(1.0), Some(NaN)) == Err(BadRequest)
  {
  }

  /** The weight check as its message states it: the id must be a number
      and the weight a number greater than 0. */
  function UpdateWeightGate(id: Num, weight: Option<Num>): (r: Result<real>)
    ensures id == NaN ==> r == Err(BadRequest)
    ensures r.Err? ==> r.error == BadRequest
    ensures r.Ok? <==> id != NaN && weight.Some? && weight.value.Finite? && weight.value.value > 0.0
    ensures r.Ok? ==> r.value > 0.0 && weight == Some(Finite(r.value))
  {
    if id == NaN then Err(BadRequest)
    else if !(weight.Some? && weight.value.Finite? && weight.value.value > 0.0) then Err(BadRequest)
    else Ok(weight.value.value)
  }

  /** On a numeric weight the two gates decide alike; they differ only on
      a missing or `NaN` weight. */
  lemma WeightGatesAgreeOnNumbers(id: Num, w: real)
    ensures UpdateWeightGate(id, Some(Finite(w))).Ok? <==> UpdateWeightGateAsWritten(id, Some(Finite(w))).Ok?
    ensures UpdateWeightGate(id, Some(Finite(w))).Ok? ==>
      UpdateWeightGateAsWritten(id, Some(Finite(w))).value == Some(Finite(UpdateWeightGate(id, Some(Finite(w))).value))
  {
  }

  /** `PATCH :id/weight`: the gate, then the service's weight update on the
      selected row; a key that selects no row is the service's plain error. */
  function UpdateWeightEndpoint(s: Store, id: Num, weight: Option<Num>): (r: Result<Store>)
    ensures UpdateWeightGate(id, weight).Err? ==> r == Err(BadRequest)
    ensures r.Ok? <==> UpdateWeightGate(id, weight).Ok? && KeyOf(id).Some? && KeyOf(id).value in s.packets
    ensures r.Ok? ==> OnlyPacketChanged(s, r.value, KeyOf(id).value)
    ensures r.Ok? ==> r.value.packets[KeyOf(id).value].weight > 0.0
  {
    match UpdateWeightGate(id, weight)
    case Err(e) => Err(e)
    case Ok(w) =>
      match KeyOf(id)
      case None => Err(Failed)
      case Some(k) => Lifecycle.UpdateWeight(s, k, w)
  }

  /** `PATCH :id/weight` as written: the as-written gate, then the service.
      A missing weight assigns `undefined`, which the save leaves out, so the
      selected row comes back unchanged; a weight that is not a number is
      refused by the float column (MySQL's default strict mode). */
  function UpdateWeightEndpointAsWritten(s: Store, id: Num, weight: Option<Num>): (r: Result<Store>)
    ensures UpdateWeightGateAsWritten(id, weight).Err? ==> r == Err(BadRequest)
    ensures r.Ok? <==> (id != NaN && KeyOf(id).Some? && KeyOf(id).value in s.packets &&
                        (weight.None? || (weight.value.Finite? && weight.value.value > 0.0)))
    ensures r.Ok? && weight.None? ==> r.value == s
    ensures r.Ok? && weight.Some? ==> (OnlyPacketChanged(s, r.value, KeyOf(id).value) &&
                                      r.value.packets[KeyOf(id).value].weight == weight.value.value)
  {
    match UpdateWeightGateAsWritten(id, weight)
    case Err(e) => Err(e)
    case Ok(w) =>
      match KeyOf(id)
      case None => Err(Failed)
      case Some(k) =>
        if k !in s.packets then Err(Failed)
        else
          match w
          case None => Ok(s)
          case Some(NaN) => Err(Failed)
          case Some(Finite(x)) => Lifecycle.UpdateWeight(s, k, x)
  }

  /** The endpoint as written and the corrected one agree on every numeric
      weight; a missing weight answers with the unchanged packet instead of
      a BadRequest. */
  lemma WeightEndpointsAgreeOnNumbers(s: Store, id: Num, w: real)
    ensures UpdateWeightEndpointAsWritten(s, id, Some(Finite(w))) == UpdateWeightEndpoint(s, id, Some(Finite(w)))
    ensures id != NaN && KeyOf(id).Some? && KeyOf(id).value in s.packets ==>
              UpdateWeightEndpointAsWritten(s, id, None) == Ok(s) && UpdateWeightEndpoint(s, id, None) == Err(BadRequest)
  {
  }

  /** `PATCH :id/agent-confirm`: a non-numeric id is BadRequest; otherwise
      the service's collection confirmation on the selected row. The body's
      weight reaches the service unchecked: a weight that is not a number is
      truthy, is assigned, and is refused by the float column when the row
      is saved (MySQL's default strict mode). */
  function AgentConfirmEndpoint(s: Store, id: Num, weight: Option<Num>, now: Time): (r: Result<Store>)
    ensures id == NaN ==> r == Err(BadRequest)
    ensures id != NaN && weight == Some(NaN) ==> r == Err(Failed)
    ensures r.Ok? <==> KeyOf(id).Some? && KeyOf(id).value in s.packets && weight != Some(NaN)
    ensures r.Ok? ==> OnlyPacketChanged(s, r.value, KeyOf(id).value)
    ensures r.Ok? ==> r.value.packets[KeyOf(id).value].status == Collected
    ensures r.Ok? ==> r.value.packets[KeyOf(id).value].weight ==
                      (if weight.Some? && weight.value.value != 0.0 then weight.value.value
                       else s.packets[KeyOf(id).value].weight)
  {
    if id == NaN then Err(BadRequest)
    else match KeyOf(id)
      case None => Err(Failed)
      case Some(k) =>
        match weight
        case None => Lifecycle.AgentConfirmCollection(s, k, None, now)
        case Some(NaN) => Err(Failed)
        case Some(Finite(w)) => Lifecycle.AgentConfirmCollection(s, k, Some(w), now)
  }

  /** For the id of a row, the endpoint is the service's collection
      confirmation with the same weight, and a weight that is not a number
      is refused. */
  lemma AgentConfirmEndpointIsService(s: Store, k: int, w: real, now: Time)
    ensures AgentConfirmEndpoint(s, Finite(k as real), None, now) == Lifecycle.AgentConfirmCollection(s, k, None, now)
    ensures AgentConfirmEndpoint(s, Finite(k as real), Some(Finite(w)), now) ==
            Lifecycle.AgentConfirmCollection(s, k, Some(w), now)
    ensures AgentConfirmEndpoint(s, Finite(k as real), Some(NaN), now) == Err(Failed)
  {
  }

  /** A packet on an agent's pickup list: still `pending`, with the agent as
      its pickup agent. */
  predicate ToCollect(p: Packet, agent: int) {
    p.assignment.pickupAgent == Some(agent) && p.status == Pending
  }

  /** A packet on an agent's delivery list: `out_for_delivery`, with the
      agent as its delivery agent. */
  predicate ToDeliver(p: Packet, agent: int) {
    p.assignment.deliveryAgent == Some(agent) && p.status == OutForDelivery
  }

  /** `GET agents/:id/assigned-packets`: a `NaN` id is BadRequest;
      otherwise the packets the agent is to collect. */
  function AgentPickupList(s: Store, id: Num): (r: Result<set<int>>)
    ensures r.Err? <==> id == NaN
    ensures r.Err? ==> r.error == BadRequest
    ensures r.Ok? ==> forall q :: q in r.value <==>
      q in s.packets && KeyOf(id).Some? && ToCollect(s.packets[q], KeyOf(id).value)
  {
    if id == NaN then Err(BadRequest)
    else match KeyOf(id)
      case None => Ok({})
      case Some(a) => Ok(set q | q in s.packets && ToCollect(s.packets[q], a))
  }

  /** `GET agents/:id/packets-deliver`: a `NaN` id is BadRequest; otherwise
      the packets the agent is to deliver. */
  function AgentDeliveryList(s: Store, id: Num): (r: Result<set<int>>)
    ensures r.Err? <==> id == NaN
    ensures r.Err? ==> r.error == BadRequest
    ensures r.Ok? ==> forall q :: q in r.value <==>
      q in s.packets && KeyOf(id).Some? && ToDeliver(s.packets[q], KeyOf(id).value)
  {
    if id == NaN then Err(BadRequest)
    else match KeyOf(id)
      case None => Ok({})
      case Some(a) => Ok(set q | q in s.packets && ToDeliver(s.packets[q], a))
  }

  /** An agent given a pending pickup finds its packet on the pickup list. */
  lemma AssignedPickupIsListed(s: Store, rid: int, agent: int, admin: int)
    requires Pickup.AssignAgent(s, rid, agent, admin).Ok?
    requires s.packets[s.pickups[rid].packet.value].status == Pending
    ensures s.pickups[rid].packet.value in
            AgentPickupList(Pickup.AssignAgent(s, rid, agent, admin).value, Finite(agent as real)).value
  {
    var t := Pickup.AssignAgent(s, rid, agent, admin).value;
    assert KeyOf(Finite(agent as real)) == Some(agent);
    assert ToCollect(t.packets[s.pickups[rid].packet.value], agent);
  }

  /** A packet handed to a delivery agent is on that agent's delivery list
      until the assignment is withdrawn. */
  lemma DeliveryListFollowsAssignment(s: Store, id: int, agent: int, now: Time)
    requires Lifecycle.AssignDeliveryAgent(s, id, agent, Admin, now).Ok?
    ensures var t := Lifecycle.AssignDeliveryAgent(s, id, agent, Admin, now).value;
      && id in AgentDeliveryList(t, Finite(agent as real)).value
      && id !in AgentDeliveryList(Lifecycle.UnassignDeliveryAgent(t, id, Admin).value, Finite(agent as real)).value
  {
    assert KeyOf(Finite(agent as real)) == Some(agent);
  }

  /** The city checks of the hub listings: a falsy city is BadRequest; when
      the caller carries a list of accessible cities (any list, even an empty
      one, is truthy), a city outside it is Forbidden; a caller without a
      list may read any city. */
  function CityAccess(city: Option<string>, accessible: Option<seq<string>>): (r: Result<string>)
    ensures !Allocator.Truthy(city) ==> r == Err(BadRequest)
    ensures Allocator.Truthy(city) && accessible.Some? && city.value !in accessible.value ==> r == Err(Forbidden)
    ensures r.Ok? <==> Allocator.Truthy(city) && (accessible.None? || city.value in accessible.value)
    ensures r.Ok? ==> r.value == city.value
  {
    if !Allocator.Truthy(city) then Err(BadRequest)
    else if accessible.Some? && city.value !in accessible.value then Err(Forbidden)
    else Ok(city.value)
  }

  /** Widening the list never takes access away, and a caller without a
      list is never refused a named city. */
  lemma CityAccessMonotone(city: Option<string>, cities: seq<string>, more: seq<string>)
    requires CityAccess(city, Some(cities)).Ok?
    ensures CityAccess(city, Some(cities + more)).Ok?
    ensures CityAccess(city, None).Ok?
  {
  }

  /** An empty list is still a list: it refuses every city. */
  lemma EmptyCityListRefusesAll(city: string)
    requires city != ""
    ensures CityAccess(Some(city), Some([])) == Err(Forbidden)
    ensures CityAccess(Some(city), None) == Ok(city)
  {
  }

  /** The mails the controller sends about a packet. */
  datatype Notice = DeliveryConfirmation | PickupConfirmation | ArrivalAtHub | DeliveryAssignment

  /** The packet state a notice requires. */
  predicate Ready(s: Store, kind: Notice, id: int)
    requires id in s.packets
  {
    var p := s.packets[id];
    match kind
    case DeliveryConfirmation => p.status == Delivered
    case PickupConfirmation => p.status == Delivered
    case ArrivalAtHub => p.status == AtDestinationHub
    case DeliveryAssignment => p.assignment.deliveryAgent.Some? && p.assignment.deliveryAgent.value in s.users
  }

  /** The packet notification endpoints: a missing packet is NotFound; a
      packet not in the required state is BadRequest; otherwise the mail
      goes to the sender (delivery and pickup confirmation), the receiver
      (arrival at the hub) or the delivery agent (delivery assignment). */
  function PacketNotice(s: Store, kind: Notice, id: int): (r: Result<string>)
    ensures id !in s.packets ==> r == Err(NotFound)
    ensures id in s.packets && !Ready(s, kind, id) ==> r == Err(BadRequest)
    ensures r.Ok? <==> id in s.packets && Ready(s, kind, id)
    ensures r.Ok? && kind == ArrivalAtHub ==> r.value == s.packets[id].details.receiver.email
    ensures r.Ok? && (kind == DeliveryConfirmation || kind == PickupConfirmation) ==>
      r.value == s.packets[id].details.sender.email
    ensures r.Ok? && kind == DeliveryAssignment ==>
      r.value == s.users[s.packets[id].assignment.deliveryAgent.value].email
  {
    if id !in s.packets then Err(NotFound)
    else if !Ready(s, kind, id) then Err(BadRequest)
    else
      var p := s.packets[id];
      match kind
      case DeliveryConfirmation => Ok(p.details.sender.email)
      case PickupConfirmation => Ok(p.details.sender.email)
      case ArrivalAtHub => Ok(p.details.receiver.email)
      case DeliveryAssignment => Ok(s.users[p.assignment.deliveryAgent.value].email)
  }

  /** A delivered packet can be confirmed to its sender; the packet it was
      before (out for delivery) could not. */
  lemma DeliveryConfirmationFollowsDelivery(s: Store, id: int, signature: string, now: Time)
    requires Lifecycle.MarkAsDelivered(s, id, signature, now).Ok?
    ensures PacketNotice(s, DeliveryConfirmation, id) == Err(BadRequest)
    ensures PacketNotice(Lifecycle.MarkAsDelivered(s, id, signature, now).value, DeliveryConfirmation, id)
            == Ok(s.packets[id].details.sender.email)
  {
  }

  /** The arrival notice is due exactly while the packet waits at the
      destination hub: after the hub confirms it, and no longer once it is
      out for delivery. */
  lemma ArrivalNoticeWhileAtHub(s: Store, id: int, now: Time, later: Time)
    requires Lifecycle.ConfirmAtDestination(s, id, now).Ok?
    ensures var t := Lifecycle.ConfirmAtDestination(s, id, now).value;
      && PacketNotice(t, ArrivalAtHub, id) == Ok(s.packets[id].details.receiver.email)
      && PacketNotice(Lifecycle.MarkOutForDelivery(t, id, later).value, ArrivalAtHub, id) == Err(BadRequest)
  {
  }

  /** The delivery-assignment mail goes to the agent just assigned, and is
      refused once the assignment is withdrawn. */
  lemma DeliveryAssignmentNoticeFollowsAgent(s: Store, id: int, agent: int, now: Time)
    requires Lifecycle.AssignDeliveryAgent(s, id, agent, Admin, now).Ok?
    ensures var t := Lifecycle.AssignDeliveryAgent(s, id, agent, Admin, now).value;
      && PacketNotice(t, DeliveryAssignment, id) == Ok(s.users[agent].email)
      && PacketNotice(Lifecycle.UnassignDeliveryAgent(t, id, Admin).value, DeliveryAssignment, id) == Err(BadRequest)
  {
  }

  /** The pickup-assignment notification: a missing request is NotFound; a
      request without an agent is BadRequest; a request without a packet
      fails when the mail is composed; otherwise the mail goes to the agent. */
  function PickupAssignmentNotice(s: Store, rid: int): (r: Result<string>)
    ensures rid !in s.pickups ==> r == Err(NotFound)
    ensures rid in s.pickups && !(s.pickups[rid].assignedAgent.Some? && s.pickups[rid].assignedAgent.value in s.users) ==>
      r == Err(BadRequest)
    ensures r.Ok? <==> rid in s.pickups && s.pickups[rid].assignedAgent.Some? &&
                       s.pickups[rid].assignedAgent.value in s.users && Pickup.HasPacket(s, rid)
    ensures r.Ok? ==> r.value == s.users[s.pickups[rid].assignedAgent.value].email
  {
    if rid !in s.pickups then Err(NotFound)
    else if !(s.pickups[rid].assignedAgent.Some? && s.pickups[rid].assignedAgent.value in s.users) then Err(BadRequest)
    else if !Pickup.HasPacket(s, rid) then Err(Failed)
    else Ok(s.users[s.pickups[rid].assignedAgent.value].email)
  }

  /** The pickup-assignment mail goes to the agent just assigned, and is
      refused once the agent is unassigned. */
  lemma PickupAssignmentNoticeFollowsAgent(s: Store, rid: int, agent: int, admin: int)
    requires Pickup.AssignAgent(s, rid, agent, admin).Ok?
    ensures var t := Pickup.AssignAgent(s, rid, agent, admin).value;
      && PickupAssignmentNotice(t, rid) == Ok(s.users[agent].email)
      && PickupAssignmentNotice(Pickup.UnassignAgent(t, rid).value, rid) == Err(BadRequest)
  {
  }
}

=== FILE: lifecycle.dfy ===
/** The packet lifecycle operations of the packet service: the six guarded
    steps along the status chain, the unguarded shortcuts that write a
    status whatever the current one is, payment and weight updates, and the
    delivery-agent operations. Each takes the repository as a `Store` and
    returns the updated store or the exception the service raises. */
module Lifecycle {
  import opened Results
  import opened Entities

  /** The guarded steps: each fires from exactly one status. */
  datatype Step =
    | ConfirmAtHub                 // adminConfirmAtHub
    | DispatchForTransport         // adminDispatchForTransport
    | ConfirmAtDestinationHub      // confirmAtDestinationHub
    | SendOutForDelivery           // markOutForDelivery
    | Deliver(signature: string)   // markAsDelivered
    | ConfirmReceived              // confirmReceiverReceived

  /** The one status a step accepts. */
  function Before(step: Step): Status {
    match step
    case ConfirmAtHub => Collected
    case DispatchForTransport => AtOriginHub
    case ConfirmAtDestinationHub => InTransit
    case SendOutForDelivery => AtDestinationHub
    case Deliver(_) => OutForDelivery
    case ConfirmReceived => Delivered
  }

  /** The status a step leaves behind. */
  function After(step: Step): Status {
    match step
    case ConfirmAtHub => AtOriginHub
    case DispatchForTransport => InTransit
    case ConfirmAtDestinationHub => AtDestinationHub
    case SendOutForDelivery => OutForDelivery
    case Deliver(_) => Delivered
    case ConfirmReceived => Received
  }

  /** Each guarded step leads from its predecessor to the next status of the chain. */
  lemma StepFollowsChain(step: Step)
    ensures Successor(Before(step)) == Some(After(step))
    ensures Rank(After(step)) == Rank(Before(step)) + 1
  {
  }

  /** A packet handed over: `delivered`, with the delivery stamped and the signature stored. */
  function Handed(p: Packet, signature: string, now: Time): (q: Packet)
    ensures q.status == Delivered && q.stamps.deliveredAt == Some(now) && q.proof.signature == Some(signature)
    ensures q.proof.nationalId == p.proof.nationalId
    ensures q.stamps.(deliveredAt := p.stamps.deliveredAt) == p.stamps
    ensures q.(status := p.status, stamps := p.stamps, proof := p.proof) == p
  {
    p.(status := Delivered, stamps := p.stamps.(deliveredAt := Some(now)), proof := p.proof.(signature := Some(signature)))
  }

  /** The row a step writes: its new status, its own timestamp and its side effect. */
  function Stamp(step: Step, p: Packet, now: Time): (q: Packet)
    ensures q.status == After(step)
    ensures q.trackingId == p.trackingId && q.weight == p.weight && q.details == p.details
    ensures q.route == p.route && q.assignment == p.assignment && q.isPaid == p.isPaid
    ensures q.stamps.createdAt == p.stamps.createdAt && q.stamps.collectedAt == p.stamps.collectedAt
    ensures q.confirmedByOrigin == (p.confirmedByOrigin || step == DispatchForTransport)
  {
    match step
    case ConfirmAtHub => p.(status := AtOriginHub, stamps := p.stamps.(originHubConfirmedAt := Some(now)))
    case DispatchForTransport =>
      p.(status := InTransit, confirmedByOrigin := true, stamps := p.stamps.(dispatchedAt := Some(now)))
    case ConfirmAtDestinationHub =>
      p.(status := AtDestinationHub, stamps := p.stamps.(destinationHubConfirmedAt := Some(now)))
    case SendOutForDelivery => p.(status := OutForDelivery, stamps := p.stamps.(outForDeliveryAt := Some(now)))
    case Deliver(sig) => Handed(p, sig, now)
    case ConfirmReceived => p.(status := Received)
  }

  /** Load the packet, check it is in the step's predecessor status, apply the step. */
  function Advance(s: Store, id: int, step: Step, now: Time): (r: Result<Store>)
    ensures id !in s.packets ==> r == Err(NotFound)
    ensures id in s.packets && s.packets[id].status != Before(step) ==> r == Err(Conflict)
    ensures r.Ok? <==> id in s.packets && s.packets[id].status == Before(step)
    ensures r.Ok? ==> OnlyPacketChanged(s, r.value, id)
    ensures r.Ok? ==> r.value.packets[id].status == After(step)
    ensures r.Ok? ==> Rank(r.value.packets[id].status) == Rank(s.packets[id].status) + 1
  {
    if id !in s.packets then Err(NotFound)
    else if s.packets[id].status != Before(step) then Err(Conflict)
    else Ok(s.(packets := s.packets[id := Stamp(step, s.packets[id], now)]))
  }

  /** A guarded step applied twice always fails the second time: its
      successor is never its own predecessor. */
  lemma RepeatedStepConflicts(s: Store, id: int, step: Step, now: Time, later: Time)
    requires Advance(s, id, step, now).Ok?
    ensures Advance(Advance(s, id, step, now).value, id, step, later) == Err(Conflict)
  {
    StepFollowsChain(step);
  }

  /** `adminConfirmAtHub`: `collected` to `at_origin_hub`, stamping the hub confirmation. */
  function AdminConfirmAtHub(s: Store, id: int, now: Time): (r: Result<Store>)
    ensures r.Ok? <==> id in s.packets && s.packets[id].status == Collected
    ensures id in s.packets && s.packets[id].status != Collected ==> r == Err(Conflict)
    ensures r.Ok? ==> OnlyPacketChanged(s, r.value, id)
    ensures r.Ok? ==> (r.value.packets[id] ==
      var p := s.packets[id]; p.(status := AtOriginHub, stamps := p.stamps.(originHubConfirmedAt := Some(now))))
  {
    Advance(s, id, ConfirmAtHub, now)
  }

  /** `adminDispatchForTransport`: `at_origin_hub` to `in_transit`, stamping
      the dispatch and marking the packet confirmed by its origin. */
  function AdminDispatchForTransport(s: Store, id: int, now: Time): (r: Result<Store>)
    ensures r.Ok? <==> id in s.packets && s.packets[id].status == AtOriginHub
    ensures id in s.packets && s.packets[id].status != AtOriginHub ==> r == Err(Conflict)
    ensures r.Ok? ==> OnlyPacketChanged(s, r.value, id)
    ensures r.Ok? ==> (r.value.packets[id] ==
      var p := s.packets[id];
      p.(status := InTransit, confirmedByOrigin := true, stamps := p.stamps.(dispatchedAt := Some(now))))
  {
    Advance(s, id, DispatchForTransport, now)
  }

  /** `confirmAtDestinationHub`: `in_transit` to `at_destination_hub`. */
  function ConfirmAtDestination(s: Store, id: int, now: Time): (r: Result<Store>)
    ensures r.Ok? <==> id in s.packets && s.packets[id].status == InTransit
    ensures id in s.packets && s.packets[id].status != InTransit ==> r == Err(Conflict)
    ensures r.Ok? ==> OnlyPacketChanged(s, r.value, id)
    ensures r.Ok? ==> (r.value.packets[id] ==
      var p := s.packets[id];
      p.(status := AtDestinationHub, stamps := p.stamps.(destinationHubConfirmedAt := Some(now))))
  {
    Advance(s, id, ConfirmAtDestinationHub, now)
  }

  /** `markOutForDelivery`: `at_destination_hub` to `out_for_delivery`. */
  function MarkOutForDelivery(s: Store, id: int, now: Time): (r: Result<Store>)
    ensures r.Ok? <==> id in s.packets && s.packets[id].status == AtDestinationHub
    ensures id in s.packets && s.packets[id].status != AtDestinationHub ==> r == Err(Conflict)
    ensures r.Ok? ==> OnlyPacketChanged(s, r.value, id)
    ensures r.Ok? ==> (r.value.packets[id] ==
      var p := s.packets[id]; p.(status := OutForDelivery, stamps := p.stamps.(outForDeliveryAt := Some(now))))
  {
    Advance(s, id, SendOutForDelivery, now)
  }

  /** `markAsDelivered`: `out_for_delivery` to `delivered`, storing the signature. */
  function MarkAsDelivered(s: Store, id: int, signature: string, now: Time): (r: Result<Store>)
    ensures r.Ok? <==> id in s.packets && s.packets[id].status == OutForDelivery
    ensures id in s.packets && s.packets[id].status != OutForDelivery ==> r == Err(Conflict)
    ensures r.Ok? ==> OnlyPacketChanged(s, r.value, id)
    ensures r.Ok? ==> (r.value.packets[id] ==
      Handed(s.packets[id], signature, now))
  {
    Advance(s, id, Deliver(signature), now)
  }

  /** `confirmReceiverReceived`: `delivered` to the terminal `received`; nothing is stamped. */
  function ConfirmReceiverReceived(s: Store, id: int): (r: Result<Store>)
    ensures r.Ok? <==> id in s.packets && s.packets[id].status == Delivered
    ensures id in s.packets && s.packets[id].status != Delivered ==> r == Err(Conflict)
    ensures r.Ok? ==> OnlyPacketChanged(s, r.value, id)
    ensures r.Ok? ==> r.value.packets[id] == s.packets[id].(status := Received)
  {
    Advance(s, id, ConfirmReceived, 0)
  }

  /** The final step stamps nothing, so the time it is given does not
      matter: every clock reading gives the same row. */
  lemma ReceivedIgnoresClock(s: Store, id: int, now: Time)
    ensures Advance(s, id, ConfirmReceived, now) == ConfirmReceiverReceived(s, id)
  {
  }

  /** `confirmPacketDispatch`: while the packet is still `pending`, mark it
      confirmed by its origin; the status itself does not change. */
  function ConfirmPacketDispatch(s: Store, id: int): (r: Result<Store>)
    ensures id !in s.packets ==> r == Err(NotFound)
    ensures r.Ok? <==> id in s.packets && s.packets[id].status == Pending
    ensures id in s.packets && s.packets[id].status != Pending ==> r == Err(Conflict)
    ensures r.Ok? ==> OnlyPacketChanged(s, r.value, id)
    ensures r.Ok? ==> r.value.packets[id] == s.packets[id].(confirmedByOrigin := true)
  {
    if id !in s.packets then Err(NotFound)
    else if s.packets[id].status != Pending then Err(Conflict)
    else Ok(s.(packets := s.packets[id := s.packets[id].(confirmedByOrigin := true)]))
  }

  /** JavaScript truthiness of an optional weight: absent and zero are falsy. */
  predicate TruthyWeight(weight: Option<real>) {
    weight.Some? && weight.value != 0.0
  }

  /** `agentConfirmCollection`: from ANY status, set `collected` and stamp
      the collection; the weight is overwritten only by a truthy value. A
      missing packet is a plain error, not NotFound. */
  function AgentConfirmCollection(s: Store, id: int, weight: Option<real>, now: Time): (r: Result<Store>)
    ensures id !in s.packets ==> r == Err(Failed)
    ensures r.Ok? <==> id in s.packets
    ensures r.Ok? ==> OnlyPacketChanged(s, r.value, id)
    ensures r.Ok? ==> r.value.packets[id].status == Collected
    ensures r.Ok? ==> r.value.packets[id].stamps.collectedAt == Some(now)
    ensures r.Ok? ==> (r.value.packets[id].weight ==
      (if TruthyWeight(weight) then weight.value else s.packets[id].weight))
    ensures r.Ok? ==> (r.value.packets[id].(status := s.packets[id].status,
                                             stamps := r.value.packets[id].stamps.(collectedAt := s.packets[id].stamps.collectedAt),
                                             weight := s.packets[id].weight) == s.packets[id])
  {
    if id !in s.packets then Err(Failed)
    else
      var p := s.packets[id];
      var p' := if TruthyWeight(weight) then p.(weight := weight.value) else p;
      Ok(s.(packets := s.packets[id := p'.(status := Collected, stamps := p.stamps.(collectedAt := Some(now)))]))
  }

  /** `picked`: the admin hand-off shortcut. From ANY status, force
      `delivered`, stamping the delivery and storing the signature. */
  function Picked(s: Store, id: int, signature: string, now: Time): (r: Result<Store>)
    ensures id !in s.packets ==> r == Err(NotFound)
    ensures r.Ok? <==> id in s.packets
    ensures r.Ok? ==> OnlyPacketChanged(s, r.value, id)
    ensures r.Ok? ==> (r.value.packets[id] ==
      Handed(s.packets[id], signature, now))
  {
    if id !in s.packets then Err(NotFound)
    else Ok(s.(packets := s.packets[id := Handed(s.packets[id], signature, now)]))
  }

  /** The hand-off shortcut writes what the guarded delivery writes wherever
      the latter applies; from any other status the delivery is a Conflict
      while the shortcut still delivers. */
  lemma PickedIsUnguardedDelivery(s: Store, id: int, signature: string, now: Time)
    ensures id in s.packets && s.packets[id].status == OutForDelivery ==>
              Picked(s, id, signature, now) == MarkAsDelivered(s, id, signature, now)
    ensures id in s.packets && s.packets[id].status != OutForDelivery ==>
              Picked(s, id, signature, now).Ok? && MarkAsDelivered(s, id, signature, now) == Err(Conflict)
  {
  }

  /** `updatePacketStatus`: an UPDATE of the status column alone, with no
      check of the current status; an unknown id updates no row and raises
      nothing. */
  function UpdatePacketStatus(s: Store, id: int, status: Status): (r: Store)
    ensures id !in s.packets ==> r == s
    ensures OnlyPacketChanged(s, r, id)
    ensures id in s.packets ==> r.packets[id] == s.packets[id].(status := status)
  {
    if id !in s.packets then s
    else s.(packets := s.packets[id := s.packets[id].(status := status)])
  }

  /** `updateWeight` in the service: overwrite the weight of an existing
      packet (the positivity check lives in the controller). */
  function UpdateWeight(s: Store, id: int, weight: real): (r: Result<Store>)
    ensures id !in s.packets ==> r == Err(Failed)
    ensures r.Ok? <==> id in s.packets
    ensures r.Ok? ==> OnlyPacketChanged(s, r.value, id)
    ensures r.Ok? ==> r.value.packets[id] == s.packets[id].(weight := weight)
  {
    if id !in s.packets then Err(Failed)
    else Ok(s.(packets := s.packets[id := s.packets[id].(weight := weight)]))
  }

  /** `markAsPaid`: set the paid flag once; a second call is a Conflict. */
  function MarkAsPaid(s: Store, id: int): (r: Result<Store>)
    ensures id !in s.packets ==> r == Err(NotFound)
    ensures id in s.packets && s.packets[id].isPaid ==> r == Err(Conflict)
    ensures r.Ok? <==> id in s.packets && !s.packets[id].isPaid
    ensures r.Ok? ==> OnlyPacketChanged(s, r.value, id)
    ensures r.Ok? ==> r.value.packets[id] == s.packets[id].(isPaid := true)
  {
    if id !in s.packets then Err(NotFound)
    else if s.packets[id].isPaid then Err(Conflict)
    else Ok(s.(packets := s.packets[id := s.packets[id].(isPaid := true)]))
  }

  /** Paying is done once: marking a packet paid a second time conflicts. */
  lemma MarkAsPaidOnce(s: Store, id: int)
    requires MarkAsPaid(s, id).Ok?
    ensures MarkAsPaid(MarkAsPaid(s, id).value, id) == Err(Conflict)
  {
  }

  /** `createPacket` (admin panel): insert a packet that starts at the
      origin hub, under the next serial key. */
  function CreatePacket(s: Store, b: Booking, uuid: string, now: Time): (r: (Store, int))
    ensures r.1 !in s.packets && r.1 in r.0.packets
    ensures r.0.packets == s.packets[r.1 := r.0.packets[r.1]]
    ensures r.0.packets[r.1].status == AtOriginHub
    ensures r.0.packets[r.1].weight == b.weight
    ensures r.0.vehicles == s.vehicles && r.0.users == s.users && r.0.pickups == s.pickups
  {
    var id := FreshKey(s.packets);
    (s.(packets := s.packets[id := NewPacket(b, uuid, Some(AtOriginHub), now)]), id)
  }

  /** `assignDeliveryAgent`: an admin hands a packet waiting at the
      destination hub to an agent; it goes `out_for_delivery`. A packet in any
      other status is reported as NotFound (it is looked up by id and status). */
  function AssignDeliveryAgent(s: Store, id: int, agent: int, caller: Role, now: Time): (r: Result<Store>)
    ensures caller != Admin ==> r == Err(Forbidden)
    ensures caller == Admin && !(id in s.packets && s.packets[id].status == AtDestinationHub) ==> r == Err(NotFound)
    ensures r.Ok? <==> caller == Admin && id in s.packets && s.packets[id].status == AtDestinationHub
                       && agent in s.users && s.users[agent].role == Agent
    ensures r.Ok? ==> OnlyPacketChanged(s, r.value, id)
    ensures r.Ok? ==> (r.value.packets[id] ==
      var p := s.packets[id];
      p.(assignment := p.assignment.(deliveryAgent := Some(agent)), status := OutForDelivery,
         stamps := p.stamps.(outForDeliveryAt := Some(now))))
  {
    if caller != Admin then Err(Forbidden)
    else if !(id in s.packets && s.packets[id].status == AtDestinationHub) then Err(NotFound)
    else if !(agent in s.users && s.users[agent].role == Agent) then Err(NotFound)
    else
      var p := s.packets[id];
      Ok(s.(packets := s.packets[id := p.(assignment := p.assignment.(deliveryAgent := Some(agent)),
                                          status := OutForDelivery,
                                          stamps := p.stamps.(outForDeliveryAt := Some(now)))]))
  }

  /** `unassignDeliveryAgent`: the one guarded operation that moves a packet
      BACK one step, from `out_for_delivery` to `at_destination_hub`; the
      out-for-delivery stamp is kept. */
  function UnassignDeliveryAgent(s: Store, id: int, caller: Role): (r: Result<Store>)
    ensures caller != Admin ==> r == Err(Forbidden)
    ensures r.Ok? <==> caller == Admin && id in s.packets && s.packets[id].status == OutForDelivery
    ensures r.Err? && caller == Admin ==> r == Err(NotFound)
    ensures r.Ok? ==> OnlyPacketChanged(s, r.value, id)
    ensures r.Ok? ==> Rank(r.value.packets[id].status) + 1 == Rank(s.packets[id].status)
    ensures r.Ok? ==> (r.value.packets[id] ==
      var p := s.packets[id]; p.(assignment := p.assignment.(deliveryAgent := None), status := AtDestinationHub))
  {
    if caller != Admin then Err(Forbidden)
    else if !(id in s.packets && s.packets[id].status == OutForDelivery) then Err(NotFound)
    else
      var p := s.packets[id];
      Ok(s.(packets := s.packets[id := p.(assignment := p.assignment.(deliveryAgent := None), status := AtDestinationHub)]))
  }

  /** `confirmDelivery`: an admin closes an `out_for_delivery` packet as
      `delivered` and releases its delivery agent. */
  function ConfirmDelivery(s: Store, id: int, caller: Role, now: Time): (r: Result<Store>)
    ensures caller != Admin ==> r == Err(Forbidden)
    ensures r.Ok? <==> caller == Admin && id in s.packets && s.packets[id].status == OutForDelivery
    ensures r.Err? && caller == Admin ==> r == Err(NotFound)
    ensures r.Ok? ==> OnlyPacketChanged(s, r.value, id)
    ensures r.Ok? ==> (r.value.packets[id] ==
      var p := s.packets[id];
      p.(status := Delivered, stamps := p.stamps.(deliveredAt := Some(now)), assignment := p.assignment.(deliveryAgent := None)))
  {
    if caller != Admin then Err(Forbidden)
    else if !(id in s.packets && s.packets[id].status == OutForDelivery) then Err(NotFound)
    else
      var p := s.packets[id];
      Ok(s.(packets := s.packets[id := p.(status := Delivered, stamps := p.stamps.(deliveredAt := Some(now)),
                                          assignment := p.assignment.(deliveryAgent := None))]))
  }

  /** Every lifecycle operation of the packet service, with its arguments. */
  datatype Command =
    | Guarded(id: int, step: Step)
    | ConfirmDispatch(id: int)
    | AgentConfirm(id: int, weight: Option<real>)
    | HandOver(id: int, signature: string)
    | SetStatus(id: int, status: Status)
    | SetWeight(id: int, newWeight: real)
    | Pay(id: int)
    | AssignAgent(id: int, agent: int, caller: Role)
    | UnassignAgent(id: int, caller: Role)
    | CloseDelivery(id: int, caller: Role)

  /** Runs one command at time `now`. */
  function Apply(s: Store, c: Command, now: Time): Result<Store> {
    match c
    case Guarded(id, step) => Advance(s, id, step, now)
    case ConfirmDispatch(id) => ConfirmPacketDispatch(s, id)
    case AgentConfirm(id, w) => AgentConfirmCollection(s, id, w, now)
    case HandOver(id, sig) => Picked(s, id, sig, now)
    case SetStatus(id, st) => Ok(UpdatePacketStatus(s, id, st))
    case SetWeight(id, w) => UpdateWeight(s, id, w)
    case Pay(id) => MarkAsPaid(s, id)
    case AssignAgent(id, a, who) => AssignDeliveryAgent(s, id, a, who, now)
    case UnassignAgent(id, who) => UnassignDeliveryAgent(s, id, who)
    case CloseDelivery(id, who) => ConfirmDelivery(s, id, who, now)
  }

  /** The commands that check the current status before moving it forward
      (or leave it alone): all but the shortcuts `agentConfirmCollection`,
      `picked`, `updatePacketStatus` and the backward `unassignDeliveryAgent`. */
  predicate Checked(c: Command) {
    !(c.AgentConfirm? || c.HandOver? || c.SetStatus? || c.UnassignAgent?)
  }

  /** A checked command never moves a packet backwards and moves at most one
      packet exactly one step. */
  lemma CheckedCommandMovesForward(s: Store, c: Command, now: Time)
    requires Checked(c) && Apply(s, c, now).Ok?
    ensures Forward(s, Apply(s, c, now).value)
    ensures SingleSteps(s, Apply(s, c, now).value)
  {
    var s' := Apply(s, c, now).value;
    match c
    case Guarded(id, step) =>
    case ConfirmDispatch(id) =>
    case SetWeight(id, w) =>
    case Pay(id) =>
    case AssignAgent(id, a, who) =>
    case CloseDelivery(id, who) =>
  }

  /** Runs commands in order, stopping at the first failure. */
  function Run(s: Store, cs: seq<Command>, times: seq<Time>): Result<Store>
    requires |times| == |cs|
    decreases |cs|
  {
    if |cs| == 0 then Ok(s)
    else
      var r := Apply(s, cs[0], times[0]);
      if r.Err? then r else Run(r.value, cs[1..], times[1..])
  }

  /** Whatever the order, a run of checked commands only moves packets forward. */
  lemma {:induction false} CheckedRunMovesForward(s: Store, cs: seq<Command>, times: seq<Time>)
    requires |times| == |cs|
    requires forall i :: 0 <= i < |cs| ==> Checked(cs[i])
    requires Run(s, cs, times).Ok?
    ensures Forward(s, Run(s, cs, times).value)
    decreases |cs|
  {
    if |cs| > 0 {
      var s1 := Apply(s, cs[0], times[0]).value;
      CheckedCommandMovesForward(s, cs[0], times[0]);
      assert forall i :: 0 <= i < |cs[1..]| ==> Checked(cs[1..][i]) by {
        forall i | 0 <= i < |cs[1..]| ensures Checked(cs[1..][i]) {
          assert cs[1..][i] == cs[i + 1];
        }
      }
      CheckedRunMovesForward(s1, cs[1..], times[1..]);
      ForwardTransitive(s, s1, Run(s1, cs[1..], times[1..]).value);
    }
  }

  /** Runs guarded steps on one packet, stopping at the first failure. */
  function RunSteps(s: Store, id: int, steps: seq<Step>, now: Time): Result<Store>
    decreases |steps|
  {
    if |steps| == 0 then Ok(s)
    else
      var r := Advance(s, id, steps[0], now);
      if r.Err? then r else RunSteps(r.value, id, steps[1..], now)
  }

  /** Steps are never skipped: a successful run of guarded steps on one
      packet takes them in chain order, one rank at a time, starting from the
      packet's current status. */
  lemma {:induction false} StepsFollowChain(s: Store, id: int, steps: seq<Step>, now: Time)
    requires id in s.packets
    requires RunSteps(s, id, steps, now).Ok?
    ensures id in RunSteps(s, id, steps, now).value.packets
    ensures Rank(RunSteps(s, id, steps, now).value.packets[id].status) == Rank(s.packets[id].status) + |steps|
    ensures forall i :: 0 <= i < |steps| ==> Rank(Before(steps[i])) == Rank(s.packets[id].status) + i
    decreases |steps|
  {
    if |steps| > 0 {
      var s1 := Advance(s, id, steps[0], now).value;
      StepsFollowChain(s1, id, steps[1..], now);
      forall i | 0 <= i < |steps|
        ensures Rank(Before(steps[i])) == Rank(s.packets[id].status) + i
      {
        if i > 0 {
          assert steps[i] == steps[1..][i - 1];
        }
      }
    }
  }
}

=== FILE: pickup.dfy ===
/** The pickup-request service. A customer books a pickup, which inserts a
    `pending` packet and a `pending` request linked to it; an admin assigns
    an agent from the admin's own city; handing the parcel in at the hub
    moves the request and its packet to `at_origin_hub`. */
module Pickup {
  import opened Results
  import opened Entities
  import Text
  import Lifecycle

  /** The booking form a customer submits (`CreatePacketDto`). */
  datatype PickupForm = PickupForm(
    weight: real,
    details: Details,
    pickupAddress: string,
    destinationAddress: string,
    destinationHub: Option<string>,
    originCoordinates: Coordinates,
    destinationCoordinates: Coordinates)

  /** The packet fields a pickup booking fills in: the pickup address is the
      packet's origin, and no origin city is recorded. */
  function FormBooking(f: PickupForm): Booking {
    Booking(f.weight, f.details,
      Route(None, f.pickupAddress, Some(f.originCoordinates),
            f.destinationAddress, Some(f.destinationCoordinates), f.destinationHub))
  }

  /** The request `rid` names a packet that exists. */
  predicate HasPacket(s: Store, rid: int)
    requires rid in s.pickups
  {
    s.pickups[rid].packet.Some? && s.pickups[rid].packet.value in s.packets
  }

  /** Every packet a request names exists. */
  predicate Linked(s: Store) {
    forall r :: r in s.pickups && s.pickups[r].packet.Some? ==> s.pickups[r].packet.value in s.packets
  }

  /** No packet is named by two requests. */
  predicate OnePacketPerRequest(s: Store) {
    forall r1, r2 :: r1 in s.pickups && r2 in s.pickups && r1 != r2 && s.pickups[r1].packet.Some? ==>
      s.pickups[r1].packet != s.pickups[r2].packet
  }

  /** `user` exists and has the agent role. */
  predicate IsAgent(s: Store, user: int) {
    user in s.users && s.users[user].role == Agent
  }

  /** `requestPickup`: insert a `pending` packet built from the form under
      the next packet key, then a `pending`, unassigned request for the
      customer that links it, under the next request key. An unknown
      customer is a plain error. */
  function RequestPickup(s: Store, customer: int, f: PickupForm, uuid: string, now: Time): (r: Result<(Store, int)>)
    ensures customer !in s.users ==> r == Err(Failed)
    ensures r.Ok? <==> customer in s.users
    ensures r.Ok? ==> r.value.1 !in s.pickups && r.value.1 in r.value.0.pickups
    ensures r.Ok? ==> r.value.0.pickups == s.pickups[r.value.1 := r.value.0.pickups[r.value.1]]
    ensures r.Ok? ==> (
      var req := r.value.0.pickups[r.value.1];
      && req.customer == customer && req.status == RequestPending && req.assignedAgent.None?
      && req.pickupAddress == f.pickupAddress && req.destinationAddress == f.destinationAddress
      && req.packet.Some? && req.packet.value !in s.packets && req.packet.value in r.value.0.packets
      && r.value.0.packets == s.packets[req.packet.value := r.value.0.packets[req.packet.value]])
    ensures r.Ok? ==> (
      var p := r.value.0.packets[r.value.0.pickups[r.value.1].packet.value];
      && p.status == Pending && p.assignment == Unassigned && p.weight == f.weight
      && p.route.originAddress == f.pickupAddress && p.route.destinationAddress == f.destinationAddress
      && p.stamps == Milestones(now, None, None, None, None, None, None)
      && !p.isPaid && !p.confirmedByOrigin)
    ensures r.Ok? ==> r.value.0.users == s.users && r.value.0.vehicles == s.vehicles
  {
    if customer !in s.users then Err(Failed)
    else
      var pid := FreshKey(s.packets);
      var rid := FreshKey(s.pickups);
      var req := PickupRequest(customer, f.pickupAddress, f.destinationAddress, RequestPending, None, Some(pid));
      Ok((s.(packets := s.packets[pid := NewPacket(FormBooking(f), uuid, Some(Pending), now)],
             pickups := s.pickups[rid := req]), rid))
  }

  /** A booking keeps every request linked to its own packet: the new packet
      key is one no existing request names. */
  lemma RequestPickupKeepsLinks(s: Store, customer: int, f: PickupForm, uuid: string, now: Time)
    requires Linked(s) && OnePacketPerRequest(s)
    requires RequestPickup(s, customer, f, uuid, now).Ok?
    ensures Linked(RequestPickup(s, customer, f, uuid, now).value.0)
    ensures OnePacketPerRequest(RequestPickup(s, customer, f, uuid, now).value.0)
  {
    var t := RequestPickup(s, customer, f, uuid, now).value.0;
    var rid := RequestPickup(s, customer, f, uuid, now).value.1;
    var pid := t.pickups[rid].packet.value;
    forall r1, r2 | r1 in t.pickups && r2 in t.pickups && r1 != r2 && t.pickups[r1].packet.Some?
      ensures t.pickups[r1].packet != t.pickups[r2].packet
    {
      if r1 == rid {
        assert r2 in s.pickups;
        if t.pickups[r2].packet.Some? {
          assert t.pickups[r2].packet.value in s.packets;
        }
      } else if r2 == rid {
        assert t.pickups[r1].packet.value in s.packets;
      }
    }
  }

  /** The user-side checks of `assignAgent` pass: the request and admin
      exist and the agent is an agent. */
  predicate AssignParties(s: Store, rid: int, agent: int, admin: int) {
    rid in s.pickups && IsAgent(s, agent) && admin in s.users
  }

  /** The city checks of `assignAgent`: the packet's origin address mentions
      the admin's city, and the agent works in the admin's city. */
  predicate SameCity(s: Store, rid: int, agent: int, admin: int)
    requires AssignParties(s, rid, agent, admin) && HasPacket(s, rid)
  {
    && Text.Contains(s.packets[s.pickups[rid].packet.value].route.originAddress, s.users[admin].city)
    && s.users[agent].city == s.users[admin].city
  }

  /** `assignAgent`: NotFound for a missing request, agent or admin (a user
      without the agent role counts as missing); reading the origin address
      of a request without a packet fails; Forbidden unless the packet's
      origin address contains the admin's city and the agent is from that
      city. On success the request is `assigned` to the agent and the
      packet names the agent as its pickup agent. */
  function AssignAgent(s: Store, rid: int, agent: int, admin: int): (r: Result<Store>)
    ensures rid !in s.pickups ==> r == Err(NotFound)
    ensures rid in s.pickups && !IsAgent(s, agent) ==> r == Err(NotFound)
    ensures rid in s.pickups && IsAgent(s, agent) && admin !in s.users ==> r == Err(NotFound)
    ensures AssignParties(s, rid, agent, admin) && !HasPacket(s, rid) ==> r == Err(Failed)
    ensures AssignParties(s, rid, agent, admin) && HasPacket(s, rid) && !SameCity(s, rid, agent, admin) ==>
      r == Err(Forbidden)
    ensures r.Ok? <==> AssignParties(s, rid, agent, admin) && HasPacket(s, rid) && SameCity(s, rid, agent, admin)
    ensures r.Ok? ==>
      r.value.pickups == s.pickups[rid := s.pickups[rid].(assignedAgent := Some(agent), status := RequestAssigned)]
    ensures r.Ok? ==> (
      var pid := s.pickups[rid].packet.value;
      var p := s.packets[pid];
      r.value.packets == s.packets[pid := p.(assignment := p.assignment.(pickupAgent := Some(agent)))])
    ensures r.Ok? ==> r.value.users == s.users && r.value.vehicles == s.vehicles
  {
    if rid !in s.pickups then Err(NotFound)
    else if !IsAgent(s, agent) then Err(NotFound)
    else if admin !in s.users then Err(NotFound)
    else if !HasPacket(s, rid) then Err(Failed)
    else if !SameCity(s, rid, agent, admin) then Err(Forbidden)
    else
      var pid := s.pickups[rid].packet.value;
      var p := s.packets[pid];
      Ok(s.(pickups := s.pickups[rid := s.pickups[rid].(assignedAgent := Some(agent), status := RequestAssigned)],
            packets := s.packets[pid := p.(assignment := p.assignment.(pickupAgent := Some(agent)))]))
  }

  /** Assigning an agent adds no request or packet and changes no link. */
  lemma AssignAgentKeepsLinks(s: Store, rid: int, agent: int, admin: int)
    requires Linked(s) && OnePacketPerRequest(s)
    requires AssignAgent(s, rid, agent, admin).Ok?
    ensures Linked(AssignAgent(s, rid, agent, admin).value)
    ensures OnePacketPerRequest(AssignAgent(s, rid, agent, admin).value)
  {
    var t := AssignAgent(s, rid, agent, admin).value;
    assert forall q :: q in t.pickups ==> q in s.pickups && t.pickups[q].packet == s.pickups[q].packet;
  }

  /** `unassignAgent`: NotFound for a missing request, Forbidden when no
      agent is assigned; otherwise the agent is cleared and the request is
      `pending` again, whatever its status was. The packet keeps its pickup
      agent. */
  function UnassignAgent(s: Store, rid: int): (r: Result<Store>)
    ensures rid !in s.pickups ==> r == Err(NotFound)
    ensures rid in s.pickups && s.pickups[rid].assignedAgent.None? ==> r == Err(Forbidden)
    ensures r.Ok? <==> rid in s.pickups && s.pickups[rid].assignedAgent.Some?
    ensures r.Ok? ==> r.value.pickups.Keys == s.pickups.Keys
    ensures r.Ok? ==> r.value.pickups[rid].assignedAgent.None? && r.value.pickups[rid].status == RequestPending
    ensures r.Ok? ==> r.value.pickups[rid].(assignedAgent := s.pickups[rid].assignedAgent, status := s.pickups[rid].status)
                      == s.pickups[rid]
    ensures r.Ok? ==> forall q :: q in s.pickups && q != rid ==> r.value.pickups[q] == s.pickups[q]
    ensures r.Ok? ==> r.value.packets == s.packets && r.value.users == s.users && r.value.vehicles == s.vehicles
  {
    if rid !in s.pickups then Err(NotFound)
    else if s.pickups[rid].assignedAgent.None? then Err(Forbidden)
    else Ok(s.(pickups := s.pickups[rid := s.pickups[rid].(assignedAgent := None, status := RequestPending)]))
  }

  /** Assigning an agent to a pending, unassigned request and unassigning it
      again restores every request, but the packet still names the agent as
      its pickup agent. */
  lemma AssignThenUnassign(s: Store, rid: int, agent: int, admin: int)
    requires AssignAgent(s, rid, agent, admin).Ok?
    requires s.pickups[rid].status == RequestPending && s.pickups[rid].assignedAgent.None?
    ensures UnassignAgent(AssignAgent(s, rid, agent, admin).value, rid).Ok?
    ensures UnassignAgent(AssignAgent(s, rid, agent, admin).value, rid).value.pickups == s.pickups
    ensures UnassignAgent(AssignAgent(s, rid, agent, admin).value, rid).value.packets[s.pickups[rid].packet.value]
              .assignment.pickupAgent == Some(agent)
  {
    var t := AssignAgent(s, rid, agent, admin).value;
    var u := UnassignAgent(t, rid).value;
    assert u.pickups[rid] == s.pickups[rid];
  }

  /** `markAsDelivered` (pickup side): with no check of the caller (the
      assignment check is commented out) or of any status, the request goes
      to `at_origin_hub`, and so does its packet, with the hub confirmation
      stamped. */
  function MarkAsDelivered(s: Store, rid: int, agent: int, now: Time): (r: Result<Store>)
    ensures rid !in s.pickups ==> r == Err(NotFound)
    ensures r.Ok? <==> rid in s.pickups
    ensures r.Ok? ==> r.value.pickups == s.pickups[rid := s.pickups[rid].(status := RequestAtOriginHub)]
    ensures r.Ok? && HasPacket(s, rid) ==> (
      var pid := s.pickups[rid].packet.value;
      && OnlyPacketChanged(s.(pickups := r.value.pickups), r.value, pid)
      && r.value.packets[pid].status == AtOriginHub
      && r.value.packets[pid].stamps.originHubConfirmedAt == Some(now))
    ensures r.Ok? && !HasPacket(s, rid) ==> r.value.packets == s.packets
    ensures r.Ok? ==> r.value.users == s.users && r.value.vehicles == s.vehicles
  {
    if rid !in s.pickups then Err(NotFound)
    else
      var t := s.(pickups := s.pickups[rid := s.pickups[rid].(status := RequestAtOriginHub)]);
      if !HasPacket(s, rid) then Ok(t)
      else
        var pid := s.pickups[rid].packet.value;
        var p := s.packets[pid];
        Ok(t.(packets := s.packets[pid := p.(status := AtOriginHub, stamps := p.stamps.(originHubConfirmedAt := Some(now)))]))
  }

  /** On a collected packet, the pickup hand-in writes the same packet row as
      the guarded hub confirmation of the packet service. */
  lemma HandInMatchesHubConfirmation(s: Store, rid: int, agent: int, now: Time)
    requires rid in s.pickups && HasPacket(s, rid)
    requires s.packets[s.pickups[rid].packet.value].status == Collected
    ensures Lifecycle.AdminConfirmAtHub(s, s.pickups[rid].packet.value, now).Ok?
    ensures MarkAsDelivered(s, rid, agent, now).value.packets ==
            Lifecycle.AdminConfirmAtHub(s, s.pickups[rid].packet.value, now).value.packets
  {
  }

  /** The hand-in is not guarded by the packet's status: a packet already
      past the origin hub is moved back to it. */
  lemma HandInCanMoveBack(s: Store, rid: int, agent: int, now: Time)
    requires rid in s.pickups && HasPacket(s, rid)
    requires Rank(s.packets[s.pickups[rid].packet.value].status) > Rank(AtOriginHub)
    ensures !Forward(s, MarkAsDelivered(s, rid, agent, now).value)
  {
    var pid := s.pickups[rid].packet.value;
    assert MarkAsDelivered(s, rid, agent, now).value.packets[pid].status == AtOriginHub;
  }

  /** `getPacketsByPickup`: NotFound for a missing request, Forbidden when
      the caller is not the request's customer; otherwise the packets linked
      to the request, of which there is at most one. */
  function GetPacketsByPickup(s: Store, rid: int, customer: int): (r: Result<set<int>>)
    ensures rid !in s.pickups ==> r == Err(NotFound)
    ensures rid in s.pickups && s.pickups[rid].customer != customer ==> r == Err(Forbidden)
    ensures r.Ok? <==> rid in s.pickups && s.pickups[rid].customer == customer
    ensures r.Ok? ==> forall q :: q in r.value <==> q in s.packets && s.pickups[rid].packet == Some(q)
    ensures r.Ok? ==> |r.value| <= 1
  {
    if rid !in s.pickups then Err(NotFound)
    else if s.pickups[rid].customer != customer then Err(Forbidden)
    else if HasPacket(s, rid) then Ok({s.pickups[rid].packet.value})
    else Ok({})
  }

  /** Right after booking, the customer who booked sees exactly the packet
      the booking inserted, and nobody else sees anything. */
  lemma RequestThenGetPackets(s: Store, customer: int, f: PickupForm, uuid: string, now: Time)
    requires RequestPickup(s, customer, f, uuid, now).Ok?
    ensures var (t, rid) := RequestPickup(s, customer, f, uuid, now).value;
            GetPacketsByPickup(t, rid, customer) == Ok({t.pickups[rid].packet.value}) &&
            t.packets[t.pickups[rid].packet.value].route.originAddress == f.pickupAddress
    ensures var (t, rid) := RequestPickup(s, customer, f, uuid, now).value;
            forall other :: other != customer ==> GetPacketsByPickup(t, rid, other) == Err(Forbidden)
  {
  }

  /** A request is on an agent's worklist: assigned to that agent, with a
      packet that has not been collected yet. */
  predicate OnWorklist(s: Store, rid: int, agent: real)
    requires rid in s.pickups
  {
    && s.pickups[rid].status == RequestAssigned
    && s.pickups[rid].assignedAgent.Some? && s.pickups[rid].assignedAgent.value as real == agent
    && HasPacket(s, rid)
    && s.packets[s.pickups[rid].packet.value].status != Collected
  }

  /** `getAssignedRequestsForAgent`: a falsy agent id (`NaN` or zero) is
      BadRequest; otherwise the requests on that agent's worklist. */
  function GetAssignedRequestsForAgent(s: Store, agent: Num): (r: Result<set<int>>)
    ensures r.Err? <==> agent == NaN || agent == Finite(0.0)
    ensures r.Err? ==> r.error == BadRequest
    ensures r.Ok? ==> forall q :: q in r.value <==> q in s.pickups && OnWorklist(s, q, agent.value)
  {
    if agent == NaN || agent == Finite(0.0) then Err(BadRequest)
    else Ok(set q | q in s.pickups && OnWorklist(s, q, agent.value))
  }

  /** A request just assigned to a (non-zero) agent is on that agent's
      worklist unless its packet was already collected, and unassigning
      takes it off again. */
  lemma AssignedRequestIsListed(s: Store, rid: int, agent: int, admin: int)
    requires AssignAgent(s, rid, agent, admin).Ok? && agent != 0
    requires s.packets[s.pickups[rid].packet.value].status != Collected
    ensures var t := AssignAgent(s, rid, agent, admin).value;
      && GetAssignedRequestsForAgent(t, Finite(agent as real)).Ok?
      && rid in GetAssignedRequestsForAgent(t, Finite(agent as real)).value
      && rid !in GetAssignedRequestsForAgent(UnassignAgent(t, rid).value, Finite(agent as real)).value
  {
    var t := AssignAgent(s, rid, agent, admin).value;
    assert OnWorklist(t, rid, agent as real);
    var u := UnassignAgent(t, rid).value;
    assert !OnWorklist(u, rid, agent as real);
  }
}

=== FILE: results.dfy ===
/** Failure-carrying values shared by every component of the courier model.

    Each operation of the service layer either returns its updated state or
    raises one of the HTTP exception kinds the services use; a plain
    `throw new Error(...)` is the generic `Failed`. An operation that fails
    returns no new state, so a failed call never changes anything. */
module Results {

  /** The exception kinds raised by the services. */
  datatype Error = NotFound | Conflict | BadRequest | Forbidden | Failed

  /** A value that may be absent (a nullable column or an optional argument). */
  datatype Option<+T> = None | Some(value: T)

  /** The outcome of an operation: its result, or the exception it raises. */
  datatype Result<+T> = Ok(value: T) | Err(error: Error)

  /** A JavaScript number as a controller holds it after `Number(...)` or
      `parseInt(...)` of a request parameter: `NaN` or a finite value. */
  datatype Num = NaN | Finite(value: real)
}

=== FILE: text.dfy ===
/** The few JavaScript string operations the services rely on, stated over
    `seq<char>`: `split(',').pop()`, `trim()`, `includes(...)` and
    `toUpperCase()` on ASCII letters. */
module Text {

  /** The characters `String.prototype.trim` removes: the WhiteSpace and
      LineTerminator code points of ECMA-262 (tab, vertical tab, form feed,
      space, no-break space, the byte order mark, the other space separators
      of Unicode, and the four line terminators). */
  predicate IsWhitespace(c: char) {
    || c == '\t' || c == '\n' || c == '\U{000B}' || c == '\U{000C}' || c == '\r' || c == ' '
    || c == '\U{00A0}' || c == '\U{1680}' || '\U{2000}' <= c <= '\U{200A}'
    || c == '\U{2028}' || c == '\U{2029}' || c == '\U{202F}' || c == '\U{205F}'
    || c == '\U{3000}' || c == '\U{FEFF}'
  }

  /** `s.split(',').pop()`: the part of `s` after its last comma, or all of
      `s` when it has no comma. */
  function LastSegment(s: string): string
    decreases |s|
  {
    if |s| == 0 then s
    else if s[|s| - 1] == ',' then ""
    else LastSegment(s[..|s| - 1]) + [s[|s| - 1]]
  }

  /** The last segment is a comma-free suffix of `s` that is either all of
      `s` or is preceded by a comma; these three facts pin it down uniquely. */
  lemma {:induction false} LastSegmentShape(s: string)
    ensures var r := LastSegment(s);
      && ',' !in r
      && |r| <= |s| && r == s[|s| - |r|..]
      && (|r| < |s| ==> s[|s| - |r| - 1] == ',')
    decreases |s|
  {
    if |s| > 0 && s[|s| - 1] != ',' {
      var init := s[..|s| - 1];
      LastSegmentShape(init);
      var r0 := LastSegment(init);
      var r := r0 + [s[|s| - 1]];
      assert LastSegment(s) == r;
      assert s == init + [s[|s| - 1]];
      assert init[|init| - |r0|..] + [s[|s| - 1]] == s[|s| - |r0| - 1..];
      assert ',' !in r by {
        assert forall c :: c in r ==> c in r0 || c == s[|s| - 1];
      }
      if |r| < |s| {
        assert s[|s| - |r| - 1] == init[|init| - |r0| - 1];
      }
    }
  }

  /** Whatever precedes the last comma, the segment after it is what `LastSegment` returns. */
  lemma {:induction false} LastSegmentAfterComma(a: string, b: string)
    requires ',' !in b
    ensures LastSegment(a + [','] + b) == b
    decreases |b|
  {
    var s := a + [','] + b;
    if |b| > 0 {
      var b0 := b[..|b| - 1];
      assert s[..|s| - 1] == a + [','] + b0;
      assert b0 + [b[|b| - 1]] == b;
      LastSegmentAfterComma(a, b0);
    }
  }

  /** `s` without its leading whitespace. */
  function TrimStart(s: string): string
    decreases |s|
  {
    if |s| > 0 && IsWhitespace(s[0]) then TrimStart(s[1..]) else s
  }

  /** `TrimStart` drops a whitespace prefix and keeps a suffix that does not
      start with whitespace. */
  lemma {:induction false} TrimStartShape(s: string)
    ensures var r := TrimStart(s);
      && |r| <= |s| && r == s[|s| - |r|..]
      && (|r| > 0 ==> !IsWhitespace(r[0]))
      && (forall i :: 0 <= i < |s| - |r| ==> IsWhitespace(s[i]))
    decreases |s|
  {
    if |s| > 0 && IsWhitespace(s[0]) {
      TrimStartShape(s[1..]);
      var r := TrimStart(s);
      forall i | 0 <= i < |s| - |r|
        ensures IsWhitespace(s[i])
      {
        if i > 0 {
          assert s[i] == s[1..][i - 1];
        }
      }
    }
  }

  /** `s` without its trailing whitespace. */
  function TrimEnd(s: string): string
    decreases |s|
  {
    if |s| > 0 && IsWhitespace(s[|s| - 1]) then TrimEnd(s[..|s| - 1]) else s
  }

  /** `TrimEnd` drops a whitespace suffix and keeps a prefix that does not
      end with whitespace. */
  lemma {:induction false} TrimEndShape(s: string)
    ensures var r := TrimEnd(s);
      && |r| <= |s| && r == s[..|r|]
      && (|r| > 0 ==> !IsWhitespace(r[|r| - 1]))
      && (forall i :: |r| <= i < |s| ==> IsWhitespace(s[i]))
    decreases |s|
  {
    if |s| > 0 && IsWhitespace(s[|s| - 1]) {
      var init := s[..|s| - 1];
      TrimEndShape(init);
      var r := TrimEnd(s);
      forall i | |r| <= i < |s|
        ensures IsWhitespace(s[i])
      {
        if i < |s| - 1 {
          assert s[i] == init[i];
        }
      }
      assert r == init[..|r|] == s[..|r|];
    }
  }

  /** `s.trim()`. */
  function Trim(s: string): string {
    TrimStart(TrimEnd(s))
  }

  /** Trimming keeps a contiguous part of the input whose two ends are not
      whitespace, and everything it drops is whitespace. */
  lemma TrimKeepsCore(s: string)
    ensures var r, hi := Trim(s), |TrimEnd(s)|;
      && |r| <= hi <= |s|
      && s[hi - |r|..hi] == r
      && (forall i :: 0 <= i < hi - |r| ==> IsWhitespace(s[i]))
      && (forall i :: hi <= i < |s| ==> IsWhitespace(s[i]))
      && (|r| > 0 ==> !IsWhitespace(r[0]) && !IsWhitespace(r[|r| - 1]))
  {
    var e := TrimEnd(s);
    var r := TrimStart(e);
    TrimEndShape(s);
    TrimStartShape(e);
    assert e == s[..|e|];
    assert s[|e| - |r|..|e|] == e[|e| - |r|..];
    forall i | 0 <= i < |e| - |r|
      ensures IsWhitespace(s[i])
    {
      assert s[i] == e[i];
    }
    if |r| > 0 {
      assert r[|r| - 1] == e[|e| - 1];
    }
  }

  /** A character absent from `s` is absent from its trimmed form. */
  lemma TrimKeepsAbsent(s: string, ch: char)
    requires ch !in s
    ensures ch !in Trim(s)
  {
    TrimKeepsCore(s);
    var r, hi := Trim(s), |TrimEnd(s)|;
    forall k | 0 <= k < |r|
      ensures r[k] != ch
    {
      assert r[k] == s[hi - |r| + k];
    }
  }

  /** A string whose ends are not whitespace is unchanged by trimming. */
  lemma TrimOfTrimmed(s: string)
    requires |s| > 0 ==> !IsWhitespace(s[0]) && !IsWhitespace(s[|s| - 1])
    ensures Trim(s) == s
  {
  }

  /** Trimming twice is trimming once. */
  lemma TrimIdempotent(s: string)
    ensures Trim(Trim(s)) == Trim(s)
  {
    TrimKeepsCore(s);
    TrimOfTrimmed(Trim(s));
  }

  /** `sub` occurs at the very start of `s`. */
  predicate StartsWith(s: string, sub: string) {
    |sub| <= |s| && s[..|sub|] == sub
  }

  /** `s.includes(sub)`: `sub` occurs somewhere in `s`; the empty string occurs everywhere. */
  function Contains(s: string, sub: string): (r: bool)
    ensures r ==> |sub| <= |s|
    ensures |sub| == 0 ==> r
    decreases |s|
  {
    StartsWith(s, sub) || (|s| > 0 && Contains(s[1..], sub))
  }

  /** Whatever surrounds it, an occurrence of `sub` is found. */
  lemma {:induction false} ContainsInfix(a: string, sub: string, b: string)
    ensures Contains(a + sub + b, sub)
    decreases |a|
  {
    var s := a + sub + b;
    if |a| == 0 {
      assert s[..|sub|] == sub;
    } else {
      ContainsInfix(a[1..], sub, b);
      assert s[1..] == a[1..] + sub + b;
    }
  }

  /** `sub` occurs in `s` starting at position `i`. */
  predicate OccursAt(s: string, sub: string, i: int) {
    0 <= i <= |s| - |sub| && s[i..i + |sub|] == sub
  }

  /** `Contains` finds exactly the occurrences: it holds when, and only
      when, `sub` occurs in `s` at some position. */
  lemma {:induction false} ContainsIffOccurs(s: string, sub: string)
    ensures Contains(s, sub) <==> exists i :: OccursAt(s, sub, i)
    decreases |s|
  {
    if StartsWith(s, sub) {
      assert OccursAt(s, sub, 0);
    }
    if |s| > 0 {
      var t := s[1..];
      ContainsIffOccurs(t, sub);
      if exists i :: OccursAt(t, sub, i) {
        var i :| OccursAt(t, sub, i);
        assert s[i + 1..i + 1 + |sub|] == t[i..i + |sub|];
        assert OccursAt(s, sub, i + 1);
      }
      if exists j :: OccursAt(s, sub, j) {
        var j :| OccursAt(s, sub, j);
        if j > 0 {
          assert t[j - 1..j - 1 + |sub|] == s[j..j + |sub|];
          assert OccursAt(t, sub, j - 1);
        } else {
          assert StartsWith(s, sub);
        }
      }
    } else if exists j :: OccursAt(s, sub, j) {
      var j :| OccursAt(s, sub, j);
      assert |sub| == 0;
    }
  }

  /** `toUpperCase` on one character, for the ASCII letters a uuid is made of. */
  function Upper(c: char): char {
    if 'a' <= c <= 'z' then (c as int - 32) as char else c
  }

  /** `s.toUpperCase()`, character by character. */
  function UpperString(s: string): (r: string)
    ensures |r| == |s|
    ensures forall i :: 0 <= i < |s| ==> r[i] == Upper(s[i])
  {
    seq(|s|, i requires 0 <= i < |s| => Upper(s[i]))
  }
}

=== FILE: tracking.dfy ===
/** The live-tracking gateway: a registry of connected agents and of their
    last reported positions, and the proximity rule that moves an agent's
    packets along when the agent reports a position close to a packet's
    origin or destination.

    The connection table is a JavaScript `Map`, which iterates in insertion
    order and keeps an entry's position when its value is overwritten; it
    is modelled as a sequence of entries with distinct agent ids so that
    "the first entry whose socket matches" means what it does in the
    gateway. Socket identifiers are opaque strings. */
module Tracking {
  import opened Results
  import opened Entities
  import Lifecycle

  type SocketId = string

  /** One entry of the connection table. */
  datatype Connection = Connection(agent: int, socket: SocketId)

  /** The gateway's state: the connection table in insertion order, and the
      last location reported by each agent. */
  datatype Registry = Registry(connections: seq<Connection>, locations: map<int, Coordinates>)

  /** The gateway's state at start-up. */
  const EmptyRegistry: Registry := Registry([], map[])

  /** Each agent has at most one entry. */
  predicate KeysDistinct(cs: seq<Connection>) {
    forall i, j :: 0 <= i < j < |cs| ==> cs[i].agent != cs[j].agent
  }

  /** Each socket serves at most one agent. */
  predicate SocketsDistinct(cs: seq<Connection>) {
    forall i, j :: 0 <= i < j < |cs| ==> cs[i].socket != cs[j].socket
  }

  /** Position of the first entry for `a`, if any. */
  function AgentIndex(cs: seq<Connection>, a: int): (r: Option<nat>)
    ensures r.Some? ==> r.value < |cs| && cs[r.value].agent == a
    ensures r.Some? ==> forall j :: 0 <= j < r.value ==> cs[j].agent != a
    ensures r.None? ==> forall j :: 0 <= j < |cs| ==> cs[j].agent != a
    decreases |cs|
  {
    if |cs| == 0 then None
    else if cs[0].agent == a then Some(0)
    else match AgentIndex(cs[1..], a)
      case None => None
      case Some(i) => Some(i + 1)
  }

  /** Position of the first entry, in iteration order, whose socket is `sock`. */
  function SocketIndex(cs: seq<Connection>, sock: SocketId): (r: Option<nat>)
    ensures r.Some? ==> r.value < |cs| && cs[r.value].socket == sock
    ensures r.Some? ==> forall j :: 0 <= j < r.value ==> cs[j].socket != sock
    ensures r.None? ==> forall j :: 0 <= j < |cs| ==> cs[j].socket != sock
    decreases |cs|
  {
    if |cs| == 0 then None
    else if cs[0].socket == sock then Some(0)
    else match SocketIndex(cs[1..], sock)
      case None => None
      case Some(i) => Some(i + 1)
  }

  /** With one entry per agent, an agent's entry is found where it is. */
  lemma AgentIndexAt(cs: seq<Connection>, j: nat)
    requires KeysDistinct(cs) && j < |cs|
    ensures AgentIndex(cs, cs[j].agent) == Some(j)
  {
  }

  /** `agentConnections.get(a)`. */
  function Lookup(cs: seq<Connection>, a: int): Option<SocketId> {
    match AgentIndex(cs, a)
    case None => None
    case Some(i) => Some(cs[i].socket)
  }

  /** `agentConnections.has(a)`. */
  predicate Registered(reg: Registry, a: int) {
    AgentIndex(reg.connections, a).Some?
  }

  /** `Map.prototype.set`: overwrite the value of an existing entry in place,
      or append a new entry at the end. */
  function Put(cs: seq<Connection>, a: int, sock: SocketId): (r: seq<Connection>)
    requires KeysDistinct(cs)
    ensures KeysDistinct(r)
    ensures Lookup(r, a) == Some(sock)
    ensures forall b :: b != a ==> Lookup(r, b) == Lookup(cs, b)
    ensures AgentIndex(cs, a).Some? ==> |r| == |cs|
    ensures AgentIndex(cs, a).None? ==> r == cs + [Connection(a, sock)]
  {
    match AgentIndex(cs, a)
    case Some(i) =>
      var r := cs[i := Connection(a, sock)];
      assert forall j :: 0 <= j < |r| ==> r[j].agent == cs[j].agent;
      AgentIndexAt(r, i);
      forall b | b != a
        ensures Lookup(r, b) == Lookup(cs, b)
      {
        PutKeepsOthers(cs, r, b);
      }
      r
    case None =>
      var r := cs + [Connection(a, sock)];
      AgentIndexAt(r, |cs|);
      forall b | b != a
        ensures Lookup(r, b) == Lookup(cs, b)
      {
        AppendKeepsOthers(cs, Connection(a, sock), b);
      }
      r
  }

  /** Two tables that agree on the agent and socket of every entry where `b`
      could be found answer the same for `b`. */
  lemma PutKeepsOthers(cs: seq<Connection>, r: seq<Connection>, b: int)
    requires |r| == |cs|
    requires forall j :: 0 <= j < |r| ==> r[j].agent == cs[j].agent
    requires forall j :: 0 <= j < |r| && cs[j].agent == b ==> r[j] == cs[j]
    ensures Lookup(r, b) == Lookup(cs, b)
  {
  }

  /** Appending an entry for another agent does not change what `b` finds. */
  lemma AppendKeepsOthers(cs: seq<Connection>, c: Connection, b: int)
    requires c.agent != b
    ensures Lookup(cs + [c], b) == Lookup(cs, b)
  {
    var r := cs + [c];
    match AgentIndex(cs, b)
    case None =>
      assert forall j :: 0 <= j < |r| ==> r[j].agent != b;
    case Some(j) =>
      assert r[j] == cs[j];
      assert forall k :: 0 <= k < j ==> r[k].agent != b;
  }

  /** The registry invariant: one entry per agent, and a location is kept
      only for a connected agent. */
  predicate Valid(reg: Registry) {
    && KeysDistinct(reg.connections)
    && forall a :: a in reg.locations ==> Registered(reg, a)
  }

  /** `handleConnection`: the handshake's user id (`None` when it does not
      parse) must name an existing user with the agent role; otherwise the
      socket is closed and the registry is untouched. An agent is mapped to
      its socket, replacing an earlier socket of the same agent. */
  function HandleConnection(reg: Registry, s: Store, user: Option<int>, sock: SocketId): (r: Registry)
    requires KeysDistinct(reg.connections)
    ensures !(user.Some? && user.value in s.users && s.users[user.value].role == Agent) ==> r == reg
    ensures user.Some? && user.value in s.users && s.users[user.value].role == Agent ==>
      && Lookup(r.connections, user.value) == Some(sock)
      && (forall b :: b != user.value ==> Lookup(r.connections, b) == Lookup(reg.connections, b))
    ensures r.locations == reg.locations
    ensures KeysDistinct(r.connections)
  {
    if user.Some? && user.value in s.users && s.users[user.value].role == Agent then
      reg.(connections := Put(reg.connections, user.value, sock))
    else reg
  }

  /** Connecting keeps the registry valid, and a socket not yet in use keeps
      sockets distinct. */
  lemma HandleConnectionKeepsValid(reg: Registry, s: Store, user: Option<int>, sock: SocketId)
    requires Valid(reg)
    ensures Valid(HandleConnection(reg, s, user, sock))
    ensures SocketsDistinct(reg.connections) && SocketIndex(reg.connections, sock).None? ==>
      SocketsDistinct(HandleConnection(reg, s, user, sock).connections)
  {
    var r := HandleConnection(reg, s, user, sock);
    forall a | a in r.locations
      ensures Registered(r, a)
    {
      assert Registered(reg, a);
      if user.Some? && a != user.value {
        assert Lookup(r.connections, a) == Lookup(reg.connections, a);
      }
    }
    if SocketsDistinct(reg.connections) && SocketIndex(reg.connections, sock).None?
       && user.Some? && user.value in s.users && s.users[user.value].role == Agent {
      var cs := reg.connections;
      match AgentIndex(cs, user.value)
      case Some(i) =>
        assert r.connections == cs[i := Connection(user.value, sock)];
      case None =>
        assert r.connections == cs + [Connection(user.value, sock)];
    }
  }

  /** `handleDisconnect`: the first entry, in insertion order, whose socket
      is the closing socket is removed, together with that agent's stored
      location; with no such entry nothing changes. */
  function HandleDisconnect(reg: Registry, sock: SocketId): (r: Registry)
    ensures SocketIndex(reg.connections, sock).None? ==> r == reg
    ensures SocketIndex(reg.connections, sock).Some? ==>
      var i := SocketIndex(reg.connections, sock).value;
      && r.connections == reg.connections[..i] + reg.connections[i + 1..]
      && r.locations == reg.locations - {reg.connections[i].agent}
  {
    match SocketIndex(reg.connections, sock)
    case None => reg
    case Some(i) =>
      Registry(reg.connections[..i] + reg.connections[i + 1..], reg.locations - {reg.connections[i].agent})
  }

  /** Removing the entry at `i` from a table with one entry per agent
      forgets that entry's agent and no other. */
  lemma RemoveEntry(cs: seq<Connection>, i: nat)
    requires KeysDistinct(cs) && i < |cs|
    ensures var rs := cs[..i] + cs[i + 1..];
      && KeysDistinct(rs) && AgentIndex(rs, cs[i].agent).None?
      && forall b :: b != cs[i].agent ==> Lookup(rs, b) == Lookup(cs, b)
  {
    var a := cs[i].agent;
    var rs := cs[..i] + cs[i + 1..];
    assert |rs| == |cs| - 1;
    assert forall j :: 0 <= j < |rs| ==> rs[j] == (if j < i then cs[j] else cs[j + 1]);
    assert KeysDistinct(rs);
    assert AgentIndex(rs, a).None?;
    forall b | b != a
      ensures Lookup(rs, b) == Lookup(cs, b)
    {
      match AgentIndex(cs, b)
      case None =>
        assert AgentIndex(rs, b).None?;
      case Some(j) =>
        var k := if j < i then j else j - 1;
        assert rs[k] == cs[j];
        AgentIndexAt(rs, k);
    }
  }

  /** Disconnecting forgets exactly the agent whose socket closed: its
      session and location are gone and every other agent's session and
      location are kept. When no two agents share a socket, no entry for
      the closed socket remains. */
  lemma DisconnectForgetsOnlyThatAgent(reg: Registry, sock: SocketId)
    requires Valid(reg)
    requires SocketIndex(reg.connections, sock).Some?
    ensures var a := reg.connections[SocketIndex(reg.connections, sock).value].agent;
            var r := HandleDisconnect(reg, sock);
      && Lookup(r.connections, a).None? && a !in r.locations
      && (forall b :: b != a ==> Lookup(r.connections, b) == Lookup(reg.connections, b))
      && (forall b :: b != a && b in reg.locations ==> b in r.locations && r.locations[b] == reg.locations[b])
      && Valid(r)
    ensures SocketsDistinct(reg.connections) ==>
      SocketIndex(HandleDisconnect(reg, sock).connections, sock).None?
  {
    var cs := reg.connections;
    var i := SocketIndex(cs, sock).value;
    var a := cs[i].agent;
    var r := HandleDisconnect(reg, sock);
    var rs := r.connections;
    assert rs == cs[..i] + cs[i + 1..] && r.locations == reg.locations - {a};
    RemoveEntry(cs, i);
    assert Lookup(rs, a).None?;
    forall b | b in r.locations
      ensures Registered(r, b)
    {
      assert Registered(reg, b) && b != a;
      assert Lookup(rs, b) == Lookup(cs, b);
    }
    assert Valid(r);
    if SocketsDistinct(cs) {
      DisconnectRemovesAllOfSocket(reg, sock);
    }
  }

  /** When every agent has its own socket, removing the first matching entry
      is removing every entry of that socket. */
  lemma DisconnectRemovesAllOfSocket(reg: Registry, sock: SocketId)
    requires KeysDistinct(reg.connections) && SocketsDistinct(reg.connections)
    ensures forall j :: 0 <= j < |HandleDisconnect(reg, sock).connections| ==>
      HandleDisconnect(reg, sock).connections[j].socket != sock
    ensures forall c :: c in reg.connections && c.socket != sock ==> c in HandleDisconnect(reg, sock).connections
  {
    var cs := reg.connections;
    match SocketIndex(cs, sock)
    case None =>
    case Some(i) =>
      var rs := HandleDisconnect(reg, sock).connections;
      assert forall j :: 0 <= j < |rs| ==> rs[j] == (if j < i then cs[j] else cs[j + 1]);
      forall c | c in cs && c.socket != sock
        ensures c in rs
      {
        var j :| 0 <= j < |cs| && cs[j] == c;
        if j < i {
          assert rs[j] == c;
        } else {
          assert j != i;
          assert rs[j - 1] == c;
        }
      }
  }

  /** The proximity threshold of the gateway, in degrees (about 50 metres). */
  const Threshold: real := 0.05

  function Abs(x: real): real {
    if x < 0.0 then -x else x
  }

  /** `calculateDistance` without its final square root: the sum of the
      squared absolute coordinate differences. */
  function SquaredDistance(p: Coordinates, q: Coordinates): real {
    var dLat := Abs(p.lat - q.lat);
    var dLng := Abs(p.lng - q.lng);
    dLat * dLat + dLng * dLng
  }

  /** A non-negative number has a non-negative square. */
  lemma SquareNonNegative(x: real)
    requires x >= 0.0
    ensures x * x >= 0.0
  {
    if x > 0.0 {
      assert x * x > 0.0;
    }
  }

  /** The squared distance is symmetric, never negative, and zero for
      identical points. */
  lemma SquaredDistanceIsMetricLike(p: Coordinates, q: Coordinates)
    ensures SquaredDistance(p, q) == SquaredDistance(q, p)
    ensures SquaredDistance(p, q) >= 0.0
    ensures p == q ==> SquaredDistance(p, q) == 0.0
  {
    SquareNonNegative(Abs(p.lat - q.lat));
    SquareNonNegative(Abs(p.lng - q.lng));
  }

  /** Strictly within the threshold, compared on squares. */
  predicate Near(p: Coordinates, q: Coordinates) {
    SquaredDistance(p, q) < Threshold * Threshold
  }

  /** Comparing squares decides the gateway's comparison: for the
      non-negative square root `d` of the squared distance, `d < 0.05`
      exactly when the points are `Near`. */
  lemma NearIsDistanceBelowThreshold(p: Coordinates, q: Coordinates, d: real)
    requires d >= 0.0 && d * d == SquaredDistance(p, q)
    ensures d < Threshold <==> Near(p, q)
  {
    if d < Threshold {
      assert d * d <= d * Threshold;
      assert d * Threshold < Threshold * Threshold;
    } else {
      assert d * d >= d * Threshold;
      assert d * Threshold >= Threshold * Threshold;
    }
  }

  /** Being near is symmetric. */
  lemma NearSymmetric(p: Coordinates, q: Coordinates)
    ensures Near(p, q) <==> Near(q, p)
  {
    SquaredDistanceIsMetricLike(p, q);
  }

  /** `findByAgent`: the agent is the packet's pickup or delivery agent. */
  predicate ServedBy(p: Packet, agent: int) {
    p.assignment.pickupAgent == Some(agent) || p.assignment.deliveryAgent == Some(agent)
  }

  /** `checkProximityToPackets` for one packet: a `pending` packet whose
      origin is near becomes `collected`; an `out_for_delivery` packet whose
      destination is near becomes `delivered`; any other packet is left as
      it is. */
  function Reached(p: Packet, loc: Coordinates): (r: Option<Status>)
    ensures r == Some(Collected) <==>
      p.status == Pending && p.route.originCoordinates.Some? && Near(loc, p.route.originCoordinates.value)
    ensures r == Some(Delivered) <==>
      p.status == OutForDelivery && p.route.destinationCoordinates.Some? && Near(loc, p.route.destinationCoordinates.value)
    ensures r.Some? ==> r == Some(Collected) || r == Some(Delivered)
  {
    if p.route.originCoordinates.Some? && Near(loc, p.route.originCoordinates.value) && p.status == Pending then
      Some(Collected)
    else if p.route.destinationCoordinates.Some? && Near(loc, p.route.destinationCoordinates.value) && p.status == OutForDelivery then
      Some(Delivered)
    else None
  }

  /** The row after the proximity check: only the status column is written
      (`handleLocationReached` calls `updatePacketStatus`, which stamps nothing). */
  function AfterProximity(p: Packet, agent: int, loc: Coordinates): Packet {
    if ServedBy(p, agent) && Reached(p, loc).Some? then p.(status := Reached(p, loc).value) else p
  }

  /** The proximity check over all the agent's packets. Each packet is
      written at most once and independently of the others, so their order
      does not matter. */
  function Proximity(s: Store, agent: int, loc: Coordinates): (r: Store)
    ensures r.packets.Keys == s.packets.Keys
    ensures r.vehicles == s.vehicles && r.users == s.users && r.pickups == s.pickups
    ensures forall id :: id in s.packets && !ServedBy(s.packets[id], agent) ==> r.packets[id] == s.packets[id]
    ensures forall id :: id in s.packets ==> r.packets[id].(status := s.packets[id].status) == s.packets[id]
    ensures forall id :: id in s.packets && Reached(s.packets[id], loc).None? ==> r.packets[id] == s.packets[id]
    ensures forall id :: id in s.packets && ServedBy(s.packets[id], agent) && Reached(s.packets[id], loc).Some? ==>
              r.packets[id].status == Reached(s.packets[id], loc).value
  {
    s.(packets := map id | id in s.packets :: AfterProximity(s.packets[id], agent, loc))
  }

  /** Each packet the proximity check moves is moved by the status update
      the gateway issues for it. */
  lemma ProximityIsStatusUpdate(s: Store, agent: int, loc: Coordinates, id: int)
    requires id in s.packets && ServedBy(s.packets[id], agent) && Reached(s.packets[id], loc).Some?
    ensures Proximity(s, agent, loc).packets[id] ==
            Lifecycle.UpdatePacketStatus(s, id, Reached(s.packets[id], loc).value).packets[id]
  {
  }

  /** Reaching a pending packet's origin collects it as the agent's own
      confirmation without a weight does: the same row except that the
      gateway stamps no collection time. */
  lemma ProximityCollectsAsAgentConfirms(s: Store, agent: int, loc: Coordinates, id: int, now: Time)
    requires id in s.packets && ServedBy(s.packets[id], agent) && Reached(s.packets[id], loc) == Some(Collected)
    ensures Lifecycle.AgentConfirmCollection(s, id, None, now).Ok?
    ensures Proximity(s, agent, loc).packets[id] ==
            Lifecycle.AgentConfirmCollection(s, id, None, now).value.packets[id].(stamps := s.packets[id].stamps)
  {
  }

  /** The proximity check only moves packets one step forward. */
  lemma ProximityMovesOneStep(s: Store, agent: int, loc: Coordinates)
    ensures Forward(s, Proximity(s, agent, loc))
    ensures SingleSteps(s, Proximity(s, agent, loc))
  {
    var t := Proximity(s, agent, loc);
    forall q | q in s.packets
      ensures Rank(s.packets[q].status) <= Rank(t.packets[q].status)
      ensures t.packets[q].status != s.packets[q].status ==> Rank(t.packets[q].status) == Rank(s.packets[q].status) + 1
    {
      assert t.packets[q] == AfterProximity(s.packets[q], agent, loc);
    }
  }

  /** Reporting the same position again moves nothing further: the statuses
      the check writes are not ones it reacts to. */
  lemma ProximityIdempotent(s: Store, agent: int, loc: Coordinates)
    ensures Proximity(Proximity(s, agent, loc), agent, loc) == Proximity(s, agent, loc)
  {
    var t := Proximity(s, agent, loc);
    var u := Proximity(t, agent, loc);
    forall q | q in t.packets
      ensures u.packets[q] == t.packets[q]
    {
      var p := s.packets[q];
      assert t.packets[q] == AfterProximity(p, agent, loc);
      assert u.packets[q] == AfterProximity(t.packets[q], agent, loc);
    }
  }

  /** `handleLocationUpdate`: an update from an agent without a connection
      (or whose id does not parse) raises inside the handler, is logged and
      changes nothing. Otherwise the agent's location is overwritten and the
      proximity check runs on the agent's packets. */
  function HandleLocationUpdate(reg: Registry, s: Store, user: Option<int>, loc: Coordinates): (r: (Registry, Store))
    ensures !(user.Some? && Registered(reg, user.value)) ==> r == (reg, s)
    ensures user.Some? && Registered(reg, user.value) ==>
      r == (reg.(locations := reg.locations[user.value := loc]), Proximity(s, user.value, loc))
  {
    if user.Some? && Registered(reg, user.value) then
      (reg.(locations := reg.locations[user.value := loc]), Proximity(s, user.value, loc))
    else (reg, s)
  }

  /** `getAgentLocation`: the stored location, or null. */
  function GetAgentLocation(reg: Registry, a: int): (r: Option<Coordinates>)
    ensures r.Some? <==> a in reg.locations
  {
    if a in reg.locations then Some(reg.locations[a]) else None
  }

  /** Location updates keep the registry valid; the last reported position
      of a connected agent is the one read back, other agents' positions are
      untouched, and an unconnected agent's report leaves every stored
      position as it was. */
  lemma LastLocationWins(reg: Registry, s: Store, user: Option<int>, loc: Coordinates)
    requires Valid(reg)
    ensures Valid(HandleLocationUpdate(reg, s, user, loc).0)
    ensures user.Some? && Registered(reg, user.value) ==>
      GetAgentLocation(HandleLocationUpdate(reg, s, user, loc).0, user.value) == Some(loc)
    ensures forall b :: user != Some(b) ==>
      GetAgentLocation(HandleLocationUpdate(reg, s, user, loc).0, b) == GetAgentLocation(reg, b)
    ensures !(user.Some? && Registered(reg, user.value)) ==>
      HandleLocationUpdate(reg, s, user, loc).1 == s
  {
  }

  /** `handlePacketStatusUpdate`: a connected agent writes a status by name
      through `updatePacketStatus`; a name outside the status enum is
      rejected by the column and, like an unconnected sender, changes
      nothing. */
  function HandlePacketStatusUpdate(reg: Registry, s: Store, user: Option<int>, id: int, name: string): (r: Store)
    ensures OnlyPacketChanged(s, r, id)
    ensures !(user.Some? && Registered(reg, user.value)) || ParseStatus(name).None? ==> r == s
    ensures user.Some? && Registered(reg, user.value) && id in s.packets && ParseStatus(name).Some? ==>
      StatusName(r.packets[id].status) == name
  {
    if user.Some? && Registered(reg, user.value) && ParseStatus(name).Some? then
      Lifecycle.UpdatePacketStatus(s, id, ParseStatus(name).value)
    else s
  }

  /** For a connected agent, a status sent by its name is the status update
      itself: the name is read back as the status it names. */
  lemma StatusUpdateByName(reg: Registry, s: Store, a: int, id: int, status: Status)
    requires Registered(reg, a)
    ensures HandlePacketStatusUpdate(reg, s, Some(a), id, StatusName(status)) == Lifecycle.UpdatePacketStatus(s, id, status)
  {
  }

  /** A session's life: once connected, an agent's location updates are
      accepted; after its socket closes they are ignored again. */
  lemma ConnectUpdateDisconnect(reg: Registry, s: Store, a: int, sock: SocketId, loc: Coordinates)
    requires Valid(reg) && a in s.users && s.users[a].role == Agent
    requires SocketIndex(reg.connections, sock).None?
    ensures var r1 := HandleConnection(reg, s, Some(a), sock);
            var r2 := HandleLocationUpdate(r1, s, Some(a), loc).0;
            var r3 := HandleDisconnect(r2, sock);
      && GetAgentLocation(r2, a) == Some(loc)
      && !Registered(r3, a) && GetAgentLocation(r3, a).None?
      && HandleLocationUpdate(r3, s, Some(a), loc) == (r3, s)
  {
    var r1 := HandleConnection(reg, s, Some(a), sock);
    HandleConnectionKeepsValid(reg, s, Some(a), sock);
    LastLocationWins(r1, s, Some(a), loc);
    var r2 := HandleLocationUpdate(r1, s, Some(a), loc).0;
    assert r2.connections == r1.connections;
    var i := AgentIndex(r1.connections, a).value;
    assert r1.connections[i].socket == sock;
    var k := SocketIndex(r2.connections, sock);
    assert k.Some?;
    assert r2.connections[k.value].agent == a;
    DisconnectForgetsOnlyThatAgent(r2, sock);
  }
}
